=== FILE: README.md ===
# Jana Seva Vedika — a Dafny model of its forms, helpers and admin logic

Jana Seva Vedika is a bilingual (English and Kannada) progressive web app. Residents use it to:

- apply for five welfare schemes;
- report civic issues;
- browse a gallery and a list of leaders.

The admin panel lists, filters, exports and updates what residents submit. It also manages leaders, gallery images and the WhatsApp number that messages go to. Everything is stored in a hosted database.

This project models the logic that sits between the screens and that database:

- **Form validators:**
  - the data-driven scheme form, over the static catalogue of five schemes;
  - the issue-report form;
  - the leader and gallery-image forms;
  - the image picker's gates.
- **Image helpers:** base64 payload size, MIME and size gates, the `doc_` prefix strip, and the resize rule and result of compression.
- **The settings cache:** one shared timestamp, a 60-second time-to-live, write-through updates with an insert fallback.
- **List queries:** lead filters and ordering, leader and gallery visibility and ordering, and the filter bars.
- **The CSV exports** of leads and issues, with a parser that reads them back.
- **Analytics counting.**
- **The per-category drag reorder of leaders.**
- **WhatsApp messages:**
  - `{field}` placeholder substitution;
  - the fixed issue message;
  - the `wa.me` links.
- **The rows and results of the submissions** (leads, issues, leaders and gallery images), and of the status, active-flag and display-order updates.
- **Small UI state transitions:** the wrap-around lightbox, toggle and delete list updates, and phone-number cleanup.

Code whose shape is a value (lookups, row builders, message text, CSV) is modelled with datatypes, functions and lemmas. Components and modules whose fields change are classes: the settings cache, the language provider, every form, the managers and the gallery page. Their methods state the whole new state. Loops in the source become methods with loop invariants, proved against a specification function:

- the `forEach` that fills a WhatsApp template;
- the appends that build the issue message;
- the checks of the issue validator;
- the query narrowing of `fetchLeads`;
- the counting in `getAnalytics`.

The store, the browser and the clock are parameters:

- whether a client is configured, and what the store answered;
- the decoded image size and the encoder;
- `encodeURIComponent`, `toFixed` and `toLocaleDateString`;
- the generated UUID;
- the current time, as a number of milliseconds.

Module map (one module per source file):

| module | source |
|---|---|
| `Schemes` | `src/data/schemes.ts` |
| `IssueCategories` | `src/data/issueCategories.ts` |
| `LanguageProvider` | `src/hooks/useLanguage.tsx` |
| `ImageUtils` | `src/lib/imageUtils.ts` |
| `Supabase` | `src/lib/supabase.ts` |
| `IssueApi` | `src/lib/issueApi.ts` |
| `AdminApi` | `src/lib/adminApi.ts` |
| `LeadersApi` | `src/lib/leadersApi.ts` |
| `GalleryApi` | `src/lib/galleryApi.ts` |
| `SettingsApi` | `src/lib/settingsApi.ts` |
| `WhatsApp` | `src/lib/whatsapp.ts` |
| `IssueWhatsApp` | `src/lib/issueWhatsapp.ts` |
| `SchemeForm` | `src/components/SchemeForm.tsx` |
| `IssueForm` | `src/components/IssueForm.tsx` |
| `ImageUpload` | `src/components/ui/ImageUpload.tsx` |
| `LeaderForm` | `src/admin/components/LeaderForm.tsx` |
| `GalleryImageForm` | `src/admin/components/GalleryImageForm.tsx` |
| `FilterBar` | `src/admin/components/FilterBar.tsx` |
| `IssuesList` | `src/admin/IssuesList.tsx` |
| `LeadersManager` | `src/admin/LeadersManager.tsx` |
| `GalleryManager` | `src/admin/GalleryManager.tsx` |
| `SettingsPage` | `src/admin/Settings.tsx` |
| `GalleryPage` | `src/pages/GalleryPage.tsx` |

Shared modules hold the language-level semantics the source relies on:

- `Wrappers`: optional values, store replies, and `x || fallback`.
- `Types`: the shared records, bilingual text, and plain objects as ordered key/value lists.
- `JsText`: JavaScript string behaviour.
  - `trim` with its white-space set;
  - UTF-16 `length`;
  - ASCII `toLowerCase`;
  - first-occurrence `replace`;
  - `join`;
  - text ordering.
- `Ordering`: the store's `ORDER BY` and `WHERE`, as a stable insertion sort and a filter.
- `Template`: a scheme's message template as text pieces and placeholders.
- `Csv`: the quoted-cell format, with its parser.

Three behaviours of the code a reader might not expect:

- **Resizing caps the width only.** A tall, narrow picture keeps a height above 1200 pixels (`ImageUtils.TallImageNotCapped`).
- **A required checkbox fails only when its key is missing from the answers.** Every checkbox starts as `false`, and a `false` checkbox passes the required check, so one the user never touches passes too. Only a missing key, whose value is `undefined`, fails (`SchemeForm.RequiredQuirks`).
- **Lead status has five values.** They are taken from `src/lib/adminApi.ts:3`, not the three in the shared type file.

## Model

| member | source | states |
|---|---|---|
| Schemes.FindScheme | src/data/schemes.ts:493-495 | The scheme found has the id asked for. Nothing is found exactly when no scheme has that id. With several matches, the first one is returned. |
| Schemes.CatalogueIds | src/data/schemes.ts:3-491 | The catalogue holds the schemes GL, GJ, YN, SH and AB in that order, so their ids are distinct. |
| Schemes.GetSchemeByIdFinds | src/data/schemes.ts:493-495 | `getSchemeById` finds something exactly for a catalogued id, and what it finds is that scheme. |
| Schemes.GLInvariant | src/data/schemes.ts:4-107 | The GL form keeps the form invariant: distinct field ids, `doc_` ids exactly on the image fields, ten-character mobile fields, and a well-formed template whose placeholders are unique field ids. |
| Schemes.GJInvariant | src/data/schemes.ts:108-205 | The same invariant for the GJ form. |
| Schemes.YNInvariant | src/data/schemes.ts:206-313 | The same invariant for the YN form. |
| Schemes.SHInvariant | src/data/schemes.ts:314-397 | The same invariant for the SH form. |
| Schemes.ABInvariant | src/data/schemes.ts:398-490 | The same invariant for the AB form. |
| Schemes.GLSlotsAreFields | src/data/schemes.ts:101-106 | Every placeholder of the GL template names a GL field. |
| Schemes.GJSlotsAreFields | src/data/schemes.ts:199-204 | Every placeholder of the GJ template names a GJ field. |
| Schemes.YNSlotsAreFields | src/data/schemes.ts:308-312 | Every placeholder of the YN template names a YN field. |
| Schemes.SHSlotsAreFields | src/data/schemes.ts:391-396 | Every placeholder of the SH template names an SH field. |
| Schemes.ABSlotsAreFields | src/data/schemes.ts:484-489 | Every placeholder of the AB template names an AB field. |
| Schemes.GLWellFormed | src/data/schemes.ts:101-106 | Braces in the GL template occur only around placeholders. |
| Schemes.CatalogueInvariant | src/data/schemes.ts:3-491 | Every scheme in the catalogue keeps the form invariant. |
| Schemes.OptionalFields | src/data/schemes.ts:193-376 | The only optional fields are GJ's tenancy agreement and SH's ID-proof checkbox. |
| IssueCategories.CategoriesShape | src/data/issueCategories.ts:9-17 | There are seven categories with distinct ids, in the listed order, and `other` is last. |
| IssueCategories.CategoryIds | src/data/issueCategories.ts:9-17 | The id list matches the categories position by position. |
| IssueCategories.Find | src/data/issueCategories.ts:19-21 | `find` returns the first category with that id, or nothing exactly when none has it. |
| IssueCategories.CategoryByIdOfListed | src/data/issueCategories.ts:19-21 | Every listed id is found as its own category. |
| IssueCategories.UnknownIdNamesItself | src/data/issueCategories.ts:25 | An unlisted id is named by itself in either language. |
| LanguageProvider.ReloadRestores | src/hooks/useLanguage.tsx:15-23 | The initial code is never empty. Once the effect stores the current code, or a chosen language, the next mount starts on that code, and `t` selects that language's text. |
| LanguageProvider.TranslateCode | src/hooks/useLanguage.tsx:29-31 | For English or Kannada, `t` selects that language's text. |
| LanguageProvider.UnknownStoredCode | src/hooks/useLanguage.tsx:15-31 | An unrecognised stored code such as `fr` is kept, and `t` then yields `undefined`. |
| LanguageProvider.Provider.constructor | src/hooks/useLanguage.tsx:15-23 | Mounting reads the stored code, writes it back under `janaseva-language`, and sets the page language. |
| LanguageProvider.Provider.Effect | src/hooks/useLanguage.tsx:20-23 | The effect stores the current code under its key and sets the page language. Nothing else changes. |
| LanguageProvider.Provider.SetLanguage | src/hooks/useLanguage.tsx:25-27 | The new language is stored and shown, and every later `t` returns that language's text. |
| ImageUtils.SegmentOfDataUrl | src/lib/imageUtils.ts:86 | A data URL (section 3 of RFC 2397) is measured by its payload after the comma. |
| ImageUtils.SegmentWhole | src/lib/imageUtils.ts:86 | Text without a comma, or with nothing between its first two commas, is measured whole. |
| ImageUtils.SecondPiece | src/lib/imageUtils.ts:86 | `split(',')[1]` is absent exactly when there is no comma. |
| ImageUtils.FirstPiece | src/lib/imageUtils.ts:86 | The first piece of a split is the longest comma-free prefix. |
| ImageUtils.Base64SizeOfPadded | src/lib/imageUtils.ts:84-90 | A well-formed payload of 4k characters with p padding characters (section 4 of RFC 4648) measures 3k − p bytes. |
| ImageUtils.Base64SizeOfDataUrl | src/lib/imageUtils.ts:84-90 | The data-URL prefix does not change the measured size. |
| ImageUtils.Base64SizeNegative | src/lib/imageUtils.ts:89 | There is no clamping: the segment `====` measures −1. |
| ImageUtils.ValidTypeIgnoresCase | src/lib/imageUtils.ts:104-107 | Lower-casing the MIME type first does not change the verdict, and the file's size plays no part in it. |
| ImageUtils.ValidTypeExamples | src/lib/imageUtils.ts:104-107 | `IMAGE/PNG` and `image/heic` are accepted. `image/gif` and the empty type are not. |
| ImageUtils.ValidTypeIsImage | src/lib/imageUtils.ts:105 | Every accepted type starts with `image/`. |
| ImageUtils.SizeLimitMonotone | src/lib/imageUtils.ts:112-114 | A file within a limit is within every larger limit, and every file no larger than it is within the same limit. |
| ImageUtils.SizeLimitBoundary | src/lib/imageUtils.ts:112-114 | Under the default limit, 10485760 bytes pass and one byte more fails. |
| ImageUtils.GetDocumentTypeFromFieldId | src/lib/imageUtils.ts:120-122 | One leading `doc_` is removed. Any other id is returned unchanged. |
| ImageUtils.DocumentTypeRoundTrip | src/lib/imageUtils.ts:120-122 | Stripping the prefix undoes adding it, and only one prefix is stripped. |
| ImageUtils.ScaledProperties | src/lib/imageUtils.ts:31-37 | The new width is the smaller of the width and the limit. The aspect ratio is kept. Neither side grows. |
| ImageUtils.ScaledCases | src/lib/imageUtils.ts:34-37 | A wider picture is scaled to the limit, with its height scaled by the same factor. A narrower one is unchanged. |
| ImageUtils.TallImageNotCapped | src/lib/imageUtils.ts:34-37 | A 100×5000 picture is not reduced: the height is never capped. |
| ImageUtils.CompressImage | src/lib/imageUtils.ts:18-79 | A read, decode or canvas failure rejects with its own message. A success is a JPEG whose sizes are the file's size and the measured size of its own payload, encoded at the scaled dimensions. |
| Supabase.ClientConfigured | src/lib/supabase.ts:11-13 | A client exists only when the URL and the key are both set and non-empty. |
| Supabase.LeadRowOf | src/lib/supabase.ts:38-45 | The inserted row always has the WhatsApp-clicked flag raised. |
| Supabase.LeadRowKeepsParams | src/lib/supabase.ts:38-45 | Every parameter can be read back from the row, including the answers with their inline image payloads. |
| Supabase.SubmitLead | src/lib/supabase.ts:23-57 | With no client the submission succeeds and stores nothing. Otherwise the row is inserted, and the result is success, the store's message, or the generic message when the call throws. |
| Supabase.FailureExplained | src/lib/supabase.ts:47-56 | A failed submission always carries an error, and a thrown one a non-empty message. |
| IssueApi.NullDefaults | src/lib/issueApi.ts:60-64 | `x \|\| null` loses only the difference between absent and empty (or zero). Read back with the same default, every value is the one submitted, and applying it twice changes nothing. |
| IssueApi.IssueRowOf | src/lib/issueApi.ts:55-65 | The row carries the generated id and the form's text columns unchanged. The optional custom category and the coordinates read back as submitted, and are never stored as empty text or zero. |
| IssueApi.DocumentRowOf | src/lib/issueApi.ts:74-81 | A document row carries the issue id, the type, the payload, the original size and the MIME type. The compressed size is not stored. |
| IssueApi.CollectDocuments | src/lib/issueApi.ts:33-49 | The documents are the issue photo first, then the Aadhaar card, each only when attached, so there are at most two. |
| IssueApi.SubmitIssue | src/lib/issueApi.ts:23-98 | With no client it succeeds and stores nothing (26-29). A failed issue insert fails with the store's message and inserts no documents (67-70). A failed document insert still succeeds (87-90). A throw gives the generic message (94-97). |
| AdminApi.NewestFirstTotal | src/lib/adminApi.ts:52 | Newest-first ordering on the creation timestamp is a total preorder. |
| AdminApi.Narrowed | src/lib/adminApi.ts:55-73 | One more filter keeps the rows sorted, and keeps a row as often as before exactly when it passes the filter. |
| AdminApi.Narrow | src/lib/adminApi.ts:55-73 | An optional filter step keeps the query sorted, and keeps exactly the table rows that pass the filters so far. |
| AdminApi.FetchLeads | src/lib/adminApi.ts:47-83 | With no client, or on a store error, the result is empty. Otherwise it holds, newest first, every table row that passes every set filter (combined with AND), as often as in the table, and no other row. |
| AdminApi.UpdateLeadStatus | src/lib/adminApi.ts:104-131 | The update sets the status. It sets the notes only when they are non-empty, and null otherwise. It sets the processed time exactly for processed or rejected. The result is true only with a client and no store error. |
| AdminApi.TallyShape | src/lib/adminApi.ts:148-159 | The count record holds each key once, and its counts sum to the number of leads. |
| AdminApi.TallyGet | src/lib/adminApi.ts:148-159 | Each key's count is the number of leads with that key. A key that occurs nowhere is absent. |
| AdminApi.TotalPut | src/lib/adminApi.ts:155 | Replacing one count changes the total by the difference. |
| AdminApi.TallyCounts | src/lib/adminApi.ts:148-159 | The count record holds each key once, sums to the number of leads, and counts each key as often as it occurs. |
| AdminApi.GetAnalytics | src/lib/adminApi.ts:133-193 | With no client, an error or no data, every count is zero. Otherwise the total is the number of leads, the two breakdowns are the per-scheme and per-status tallies (a missing status counts as pending), and the processed count is the number of processed leads. |
| AdminApi.AnalyticsConsistent | src/lib/adminApi.ts:153-187 | Both breakdowns sum to the total, and the processed count equals the `processed` entry of the status breakdown. |
| AdminApi.LeadCells | src/lib/adminApi.ts:207-216 | A lead gives eight cells in header order. A missing ward or missing notes become empty, and a missing status becomes `pending`. |
| AdminApi.LeadRows | src/lib/adminApi.ts:207-216 | There is one row per lead, in order. |
| AdminApi.ExportLeadsRoundTrip | src/lib/adminApi.ts:195-224 | Reading the export back gives the bare header line and, for every lead, its eight cells unchanged. |
| Csv.Escape | src/lib/adminApi.ts:220 | Escaping never shortens a value. |
| Csv.ParseBodyEscape | src/lib/adminApi.ts:220 | Reading an escaped value up to its closing quote gives the value back (rule 7 of section 2 of RFC 4180). |
| Csv.ParseRowOfRow | src/lib/adminApi.ts:220 | Reading a written line gives back its cells. |
| Csv.DocumentRoundTrip | src/lib/adminApi.ts:218-221 | A header line without line feeds, followed by quoted rows joined with `\n`, reads back as that header and those rows. |
| LeadersApi.CategoryRankAlphabetical | src/lib/leadersApi.ts:42 | Ordering categories by rank is the same as ordering their stored codes as text. |
| LeadersApi.PublicOrderTotal | src/lib/leadersApi.ts:15-16 | Display order ascending, then newest first, is a total preorder. |
| LeadersApi.AdminOrderTotal | src/lib/leadersApi.ts:42-44 | Category, then display order, then newest first, is a total preorder. |
| LeadersApi.FetchLeaders | src/lib/leadersApi.ts:5-30 | With no client, or on error, there are no rows. Otherwise the rows are sorted in the public order and hold exactly the active leaders, of the requested category when one is given, as often as in the table. |
| LeadersApi.FetchAllLeadersResult | src/lib/leadersApi.ts:33-52 | Every leader, active or not, as often as in the table, sorted in the admin order. There are no rows without a client or on error. |
| LeadersApi.LeaderInsertOf | src/lib/leadersApi.ts:76-90 | The inserted record has the given id and texts, null for zero or absent sizes, JPEG as the default type, display order 0 by default, and is active unless it is explicitly false. |
| LeadersApi.AddLeader | src/lib/leadersApi.ts:68-98 | With no client it fails with the not-configured message and inserts nothing. Otherwise it inserts the record, and succeeds with the generated id exactly when the store reports no error. |
| LeadersApi.UpdateWhereId | src/lib/leadersApi.ts:108-111 | Exactly the rows with that id take the changes. The others stay as they were. |
| LeadersApi.UpdateLeader | src/lib/leadersApi.ts:100-119 | Success exactly with a client and no store error. Only then does the table change. |
| LeadersApi.DeleteLeader | src/lib/leadersApi.ts:121-137 | Success exactly with a client and no store error. Only then are the rows with that id removed, and every other row stays. |
| LeadersApi.DeleteLeaderCount | src/lib/leadersApi.ts:121-137 | After a successful delete, each row with another id occurs as many times as before, and a row with that id not at all. |
| LeadersApi.ToggleOnlyActive | src/lib/leadersApi.ts:139-144 | Toggling changes only the active flag of the matching rows. |
| LeadersApi.ReorderUpdates | src/lib/leadersApi.ts:147-162 | There is one `display_order` update per entry, in the given order. |
| LeadersApi.NoneFailed | src/lib/leadersApi.ts:159 | `every(r => !r.error)` is true exactly when no update failed. |
| LeadersApi.ReorderLeadersResult | src/lib/leadersApi.ts:147-162 | The batch succeeds exactly with a client and no failed update. An empty batch succeeds whenever there is a client. |
| GalleryApi.GalleryOrderTotal | src/lib/galleryApi.ts:15-16 | Display order ascending, then newest first, is a total preorder. |
| GalleryApi.FetchGalleryImagesResult | src/lib/galleryApi.ts:5-24 | The active images only, each as often as in the table, sorted. There are none without a client or on error. |
| GalleryApi.FetchAllGalleryImagesResult | src/lib/galleryApi.ts:27-45 | Every image, as often as in the table, sorted. There are none without a client or on error. |
| GalleryApi.PublicIsActiveSubset | src/lib/galleryApi.ts:5-45 | The public query returns exactly the admin query's active images. |
| GalleryApi.GalleryInsertOf | src/lib/galleryApi.ts:64-77 | The inserted record has the given id and titles, null for zero or absent sizes, JPEG as the default type, display order 0 by default, and is active unless it is explicitly false. |
| GalleryApi.AddGalleryImage | src/lib/galleryApi.ts:58-85 | With no client it fails with the not-configured message. Otherwise it inserts the record, and succeeds with the generated id exactly when the store reports no error. |
| GalleryApi.ToggleWhereId | src/lib/galleryApi.ts:126-131 | Only the active flag of the rows with that id changes. |
| GalleryApi.ToggleGalleryImageActive | src/lib/galleryApi.ts:87-131 | Success exactly with a client and no store error. Only then do the matching rows take the new flag, and every other row stays. |
| GalleryApi.DeleteGalleryImage | src/lib/galleryApi.ts:108-124 | Success exactly with a client and no store error. Only then are the rows with that id removed, and every other row stays. |
| GalleryApi.DeleteGalleryImageCount | src/lib/galleryApi.ts:108-124 | After a successful delete, each image with another id occurs as many times as before, and an image with that id not at all. |
| SettingsApi.CacheHit | src/lib/settingsApi.ts:14 | The cache answers exactly when the key is cached and less than 60000 ms have passed since the shared timestamp. |
| SettingsApi.ReadYourWrite | src/lib/settingsApi.ts:76-79 | A value written at time t is served from the cache until t + 60000. |
| SettingsApi.SharedTimestamp | src/lib/settingsApi.ts:5-78 | Writing one key refreshes every other cached key, because they share one timestamp. |
| SettingsApi.StaleMisses | src/lib/settingsApi.ts:14 | Once the time-to-live has run out, nothing is served from the cache. |
| SettingsApi.CollectLast | src/lib/settingsApi.ts:92-113 | The settings record holds exactly the keys of the rows, each with the value of the last row carrying it. |
| SettingsApi.SettingsCache.constructor | src/lib/settingsApi.ts:4-6 | The module starts with an empty cache stamped 0. |
| SettingsApi.SettingsCache.GetSetting | src/lib/settingsApi.ts:11-39 | A cache hit returns the cached value with no store call. With no client the result is empty. A fetched value (empty when missing) is cached and stamped. An error returns empty and leaves the cache alone. |
| SettingsApi.SettingsCache.GetWhatsAppNumber | src/lib/settingsApi.ts:44-46 | It is `getSetting` on the WhatsApp key, in all four cases: a cache hit makes no store call; no client gives '' with no store call; a store error gives '' after one select; otherwise the fetched value (or '') is cached and stamped. |
| SettingsApi.SettingsCache.UpdateSetting | src/lib/settingsApi.ts:51-80 | It tries the update, then the insert. It succeeds exactly with a client and one of them succeeding, and only then caches the value and stamps the time. |
| SettingsApi.SettingsCache.UpdateWhatsAppNumber | src/lib/settingsApi.ts:85-87 | It is `updateSetting` on the WhatsApp key: no store call without a client, an update, then an insert only when the update fails; it succeeds when either write does, and only then caches and stamps the number. |
| SettingsApi.SettingsCache.GetAllSettings | src/lib/settingsApi.ts:92-113 | The rows are folded into a record without touching the cache. The record is empty with no client or on error. |
| SettingsPage.CleanNumber | src/admin/Settings.tsx:28 | The saved number is no longer than the input and holds no white space, hyphen or parenthesis. |
| SettingsPage.CleanNumberCount | src/admin/Settings.tsx:28 | Every other character, `+` included, is kept as often as it occurs. |
| SettingsPage.CleanNumberAppend | src/admin/Settings.tsx:28 | Cleaning keeps the order of what it keeps. |
| SettingsPage.CleanNumberIdempotent | src/admin/Settings.tsx:28 | Cleaning a cleaned number changes nothing. |
| SettingsPage.Page.constructor | src/admin/Settings.tsx:6-9 | The page starts loading, with an empty number and no message. |
| SettingsPage.Page.LoadSettings | src/admin/Settings.tsx:15-20 | The field shows what `getWhatsAppNumber` answers: the cached number, '' with no client or on a store error, or the fetched value, which is then cached. The store calls are those of `getSetting`, and loading ends. |
| SettingsPage.Page.HandleSave | src/admin/Settings.tsx:22-43 | The cleaned number is saved. On success the field shows it with the success message. On failure the raw input stays with the error message and the cache is untouched. On success the cache holds the number, stamped now. The store calls are an update, then an insert only when the update fails. Saving ends either way. |
| SettingsPage.Page.ClearMessage | src/admin/Settings.tsx:42 | The timer removes the message and changes nothing else. |
| WhatsApp.FindField | src/lib/whatsapp.ts:18 | The field found has the key. Nothing is found exactly when no field has it. |
| WhatsApp.FindOption | src/lib/whatsapp.ts:20 | The option found has the value. Nothing is found exactly when no option has it. |
| WhatsApp.ChosenOption | src/lib/whatsapp.ts:18-21 | Only a string answer of a field with that key can pick an option, and the option comes from that field. |
| WhatsApp.DisplayValue | src/lib/whatsapp.ts:12-29 | A boolean shows as `ಹೌದು/Yes` or `ಇಲ್ಲ/No`. A chosen option shows as its Kannada label, a slash, then its English label. Anything else shows as `String(value)`. |
| WhatsApp.Bindings | src/lib/whatsapp.ts:10-29 | There is one replacement per answer, in the answers' key order, each with its displayed value. |
| WhatsApp.LookupBindings | src/lib/whatsapp.ts:10-29 | A key's replacement is the displayed value of that key's answer. A key without an answer has none. |
| WhatsApp.GenerateWhatsAppMessage | src/lib/whatsapp.ts:6-35 | The loop's message is the template after one first-occurrence `replace` per answer, in key order. |
| WhatsApp.FillFirstCount | src/lib/whatsapp.ts:31 | Each `replace` fills only the first placeholder with its key. |
| WhatsApp.ReplaceOnlyFirst | src/lib/whatsapp.ts:31 | A template that names a key twice keeps a placeholder after that key's replacement. |
| WhatsApp.MessageFillsAnswered | src/lib/whatsapp.ts:6-35 | With unique placeholders, the message is the template with every answered placeholder replaced by its displayed answer, and every unanswered one left as is. |
| WhatsApp.CatalogueTemplatesFill | src/lib/whatsapp.ts:6-35 | Every catalogued scheme meets those conditions, so its message fills exactly the answered placeholders. |
| WhatsApp.UrlRoundTrip | src/lib/whatsapp.ts:41-44 | The link reads back as its number (empty when absent or empty) and the encoded message. |
| WhatsApp.Window.Open | src/lib/whatsapp.ts:47 | Opening records one new tab with its target. |
| WhatsApp.OpenWhatsApp | src/lib/whatsapp.ts:40-48 | Exactly one new `_blank` tab opens on the link. |
| WhatsApp.SendToWhatsApp | src/lib/whatsapp.ts:53-56 | One tab opens on the link of the generated message. |
| Template.ReplaceFillsFirst | src/lib/whatsapp.ts:31 | On a well-formed template, replacing the first `{k}` in the text is filling the first `k` placeholder. |
| Template.FillFirstOfUnique | src/lib/whatsapp.ts:31 | With at most one `k` placeholder, filling the first one substitutes it everywhere. |
| Template.ReplaceEachIsSubst | src/lib/whatsapp.ts:10-32 | On a well-formed template with unique placeholders, the sequence of replacements equals substituting every bound placeholder at once. |
| Template.SubstCons | src/lib/whatsapp.ts:10-32 | Substituting one binding and then the rest is the same as substituting them all at once. |
| Template.WellFormedSubst | src/lib/whatsapp.ts:31 | A replacement without an opening brace keeps the template well formed. |
| Template.SlotsUniqueSubst | src/lib/whatsapp.ts:31 | Replacements keep placeholders unique. |
| IssueWhatsApp.IssueNumber | src/lib/issueWhatsapp.ts:4 | The number is never empty. A non-empty configured number is used as is. |
| IssueWhatsApp.ListedCategoryLabel | src/lib/issueWhatsapp.ts:7-10 | A listed category other than `other` is named by its English name, whatever the custom text says. |
| IssueWhatsApp.OtherWithoutTextLabel | src/lib/issueWhatsapp.ts:7-10 | `other` without custom text is named `Other`. |
| IssueWhatsApp.LineOrder | src/lib/issueWhatsapp.ts:12-28 | Name, mobile, category and location come first. GPS and map follow only when both coordinates are truthy. The description comes last. |
| IssueWhatsApp.DescriptionLast | src/lib/issueWhatsapp.ts:25-28 | The message ends with the description, after its heading on a line of its own. |
| IssueWhatsApp.HeadText | src/lib/issueWhatsapp.ts:12-17 | The heading as written is the first six lines joined with line feeds. |
| IssueWhatsApp.BuildIssueMessage | src/lib/issueWhatsapp.ts:12-28 | The appended text is exactly the lines of the message joined with line feeds, the GPS block included only when both coordinates are truthy. |
| IssueWhatsApp.SendIssueToWhatsApp | src/lib/issueWhatsapp.ts:6-32 | One new tab opens on the link of that message and the issue number. |
| IssueWhatsApp.IssueUrlRoundTrip | src/lib/issueWhatsapp.ts:30 | The link always carries a non-empty number and the encoded message. |
| SchemeForm.InitialDataOfField | src/components/SchemeForm.tsx:27-42 | With distinct ids, every field starts out holding its initial value. |
| SchemeForm.ErrorsEmptyIff | src/components/SchemeForm.tsx:52-87 | The error map is empty exactly when no field fails any check. |
| SchemeForm.ErrorKeys | src/components/SchemeForm.tsx:52-87 | Only field ids appear as keys, each at most once. |
| SchemeForm.ErrorOfField | src/components/SchemeForm.tsx:52-87 | With distinct ids, each field's entry is its own check result: the last failing check wins. |
| SchemeForm.RequiredQuirks | src/components/SchemeForm.tsx:64-66 | A `false` checkbox and a string of spaces both pass required. The empty string and `undefined` fail it. |
| SchemeForm.ImageRequired | src/components/SchemeForm.tsx:59-63 | A required image fails exactly when its value is falsy, with the upload message. |
| SchemeForm.EmptyMobileShowsMinimum | src/components/SchemeForm.tsx:69-81 | An empty required mobile number shows the minimum-length message, which overwrites the required one. |
| SchemeForm.ExactLengthChecks | src/components/SchemeForm.tsx:69-81 | For a ten-character field, shorter text gets the minimum message, longer text the maximum message, and exactly ten characters pass. |
| SchemeForm.ZeroLimitsIgnored | src/components/SchemeForm.tsx:69-76 | A limit of 0 is no limit. |
| SchemeForm.MessagesFollowLanguage | src/components/SchemeForm.tsx:62-80 | Both languages fail the same fields, each with the message of the chosen language. |
| SchemeForm.SameKeys | src/components/SchemeForm.tsx:62-80 | The error keys do not depend on the language. |
| SchemeForm.Form.constructor | src/components/SchemeForm.tsx:27-42 | Opening the form gives every field its initial value and shows no error. |
| SchemeForm.Form.HandleChange | src/components/SchemeForm.tsx:44-50 | The answer is stored, and only that field's shown error is blanked. |
| SchemeForm.Form.Validate | src/components/SchemeForm.tsx:52-87 | The error map is rebuilt from the answers, and the result is true exactly when no field fails. |
| SchemeForm.Form.HandleSubmit | src/components/SchemeForm.tsx:89-94 | The answers are handed on exactly when validation passes. |
| IssueForm.Write | src/components/IssueForm.tsx:39-44 | Spreading a value over one key changes that key and no other. |
| IssueForm.SanitiseMobileShape | src/components/IssueForm.tsx:151 | The stored mobile is at most ten digits, sanitising it again changes nothing, and a short input keeps all its digits. |
| IssueForm.SanitisedMobileValid | src/components/IssueForm.tsx:84-88 | A sanitised mobile passes the pattern exactly when it has ten digits and the first is 6 to 9. |
| IssueForm.Groups | src/components/IssueForm.tsx:77-112 | There are seven checks. |
| IssueForm.AddIf | src/components/IssueForm.tsx:90-108 | A failing check appends its own message under its key. |
| IssueForm.AddIfBlank | src/components/IssueForm.tsx:80-104 | Text that is blank after trimming appends its message under its key. |
| IssueForm.AddMobileError | src/components/IssueForm.tsx:84-88 | A blank mobile is reported as missing, and anything else that fails the pattern as invalid. |
| IssueForm.IssueErrorsInOrder | src/components/IssueForm.tsx:77-112 | The error map is the seven checks' entries appended in the order they run. |
| IssueForm.IssueErrorsEmptyIff | src/components/IssueForm.tsx:77-112 | No error is recorded exactly when all of these hold: name, description and location are not blank; the mobile matches; a category is chosen; custom text is given for `other`; the Aadhaar card is attached. |
| IssueForm.IssueErrorsLookup | src/components/IssueForm.tsx:77-112 | Each of the seven inputs' entries (name, mobile, category, custom category, description, location, Aadhaar) is present exactly when its check fails, and holds that check's message. |
| IssueForm.Payload | src/components/IssueForm.tsx:118-129 | Text goes out untrimmed. An empty custom category and missing images become `undefined`. The category goes out as chosen. Latitude and longitude go out as the captured values, and both are absent when no position was captured. |
| IssueForm.Form.constructor | src/components/IssueForm.tsx:19-32 | The form starts empty, with no position, no images and no errors. |
| IssueForm.Form.HandleInputChange | src/components/IssueForm.tsx:39-44 | The value is stored and only that input's shown error is blanked. |
| IssueForm.Form.HandleMobileInput | src/components/IssueForm.tsx:151 | The stored mobile is the sanitised keystrokes: digits only, at most ten. Through `handleInputChange`, a shown mobile error is blanked and no other error changes; the position, photo and Aadhaar card stay. |
| IssueForm.Form.Validate | src/components/IssueForm.tsx:77-112 | The loop of checks leaves exactly the error map of the seven checks, and the result is true exactly when the form is valid. |
| IssueForm.Form.HandleSubmit | src/components/IssueForm.tsx:114-130 | The errors shown afterwards are exactly the seven checks' messages, as `validate` sets them. The payload is handed on exactly when the form is valid. |
| IssueForm.Form.SetIssuePhoto | src/components/IssueForm.tsx:196-201 | The picker's value becomes the issue photo. Nothing else changes. |
| IssueForm.Form.SetAadhaar | src/components/IssueForm.tsx:259-266 | The picker's value becomes the Aadhaar card. Nothing else changes, not even a shown Aadhaar error. |
| ImageUpload.CompressResult | src/components/ui/ImageUpload.tsx:55 | Compression succeeds exactly when decoding and the canvas succeed. It then gives a JPEG no wider than 1200 pixels, at quality 0.8, measured from its own payload. |
| ImageUpload.Upload.constructor | src/components/ui/ImageUpload.tsx:24-25 | The picker starts with no error and not compressing. |
| ImageUpload.Upload.HandleFileChange | src/components/ui/ImageUpload.tsx:28-69 | No file changes nothing. A bad type is rejected before the size is checked. Neither rejection reaches the parent. A compressed image reaches the parent. A failed compression shows its message. Compressing ends in every case. A rejected or failed file's message is what `displayError` shows whenever the parent passes no message, or an empty one. |
| ImageUpload.Upload.HandleRemove | src/components/ui/ImageUpload.tsx:71-74 | The parent is told the image is gone, and the message is cleared. |
| LeaderForm.InitialImage | src/admin/components/LeaderForm.tsx:36-43 | Editing starts with the stored photo, a missing or zero size read as 0. A new leader starts with no photo. |
| LeaderForm.Form.constructor | src/admin/components/LeaderForm.tsx:31-43 | The texts and the category come from the leader being edited. A new leader gets empty texts and `ward`. |
| LeaderForm.Form.HandleFileChange | src/admin/components/LeaderForm.tsx:48-77 | The type gate runs, then the size gate, then compression. A rejected or failed file keeps the current photo and shows an English message. |
| LeaderForm.Form.HandleRemoveImage | src/admin/components/LeaderForm.tsx:79-82 | The photo and the message are cleared. |
| LeaderForm.SubmitErrorNoneIff | src/admin/components/LeaderForm.tsx:87-110 | There is no message exactly when the four texts are not blank and a photo is present. |
| LeaderForm.SubmitErrorFirstFailure | src/admin/components/LeaderForm.tsx:87-110 | Only the first failing check is reported, so a later check's message requires every earlier check to pass. |
| LeaderForm.PayloadTrimmed | src/admin/components/LeaderForm.tsx:112-122 | The submitted texts are trimmed and non-empty. |
| LeaderForm.Form.HandleSubmit | src/admin/components/LeaderForm.tsx:84-123 | The first failing check sets its message and nothing is submitted. Otherwise the payload is submitted: the trimmed texts, the photo's payload, sizes and type, and the category. |
| GalleryImageForm.Form.constructor | src/admin/components/GalleryImageForm.tsx:23-27 | The form starts with empty titles, no picture and no message. |
| GalleryImageForm.Form.HandleFileChange | src/admin/components/GalleryImageForm.tsx:30-59 | The type gate runs, then the size gate, then compression. A rejected or failed file keeps the current picture. |
| GalleryImageForm.Form.HandleRemoveImage | src/admin/components/GalleryImageForm.tsx:61-64 | The picture and the message are cleared. |
| GalleryImageForm.PayloadTitles | src/admin/components/GalleryImageForm.tsx:74-81 | The submitted titles are trimmed, and a blank title is submitted as empty. |
| GalleryImageForm.Form.HandleSubmit | src/admin/components/GalleryImageForm.tsx:66-82 | Only a missing picture blocks submission. Empty titles are accepted. |
| FilterBar.UpdateFilterOnly | src/admin/components/FilterBar.tsx:28-30 | An update sets the named filter, or removes it for the empty value, and leaves the other four alone. |
| FilterBar.ChoosingAllRemoves | src/admin/components/FilterBar.tsx:56-69 | Choosing `all` for scheme or status removes that filter. |
| FilterBar.ParseStatus | src/admin/components/FilterBar.tsx:69 | A parsed status has the selected code. |
| FilterBar.ParseStatusCode | src/admin/components/FilterBar.tsx:13-20 | Every status code reads back as its status, and the empty value as none. |
| FilterBar.NoActiveFilterMatchesAll | src/admin/components/FilterBar.tsx:32-36 | With no active filter every lead matches. After clearing there is no active filter. |
| FilterBar.UpdateActivates | src/admin/components/FilterBar.tsx:28-36 | Setting any filter to a non-empty value makes the filter set active. |
| IssuesList.List.constructor | src/admin/IssuesList.tsx:22-24 | The list starts empty and loading, with no filters. |
| IssuesList.List.HandleFilterChange | src/admin/IssuesList.tsx:37-42 | The key is set to the value, or removed for the empty value. Nothing else changes. |
| IssuesList.List.LoadIssues | src/admin/IssuesList.tsx:30-35 | The list is what the query returned, and loading ends. |
| IssuesList.IssueCells | src/admin/IssuesList.tsx:46-54 | An issue gives seven cells in header order. The category column holds the English name, or the id when the id is unknown. |
| IssuesList.IssueRows | src/admin/IssuesList.tsx:46-54 | There is one row per issue, in order. |
| IssuesList.IssuesCsvRoundTrip | src/admin/IssuesList.tsx:44-59 | Reading the export back gives the seven bare column names and each issue's cells. |
| IssuesList.List.ExportEnabled | src/admin/IssuesList.tsx:74 | Export is enabled exactly when the list is not empty. |
| LeadersManager.Filtered | src/admin/LeadersManager.tsx:186-188 | The `all` tab shows every leader. A category tab shows exactly that category's leaders. |
| LeadersManager.CategoryCounts | src/admin/LeadersManager.tsx:313-325 | The four category counts add up to the count of the `all` tab. |
| LeadersManager.FindIndex | src/admin/LeadersManager.tsx:194-195 | `findIndex` gives the first position with that id, or −1 exactly when there is none. |
| LeadersManager.ArrayMove | src/admin/LeadersManager.tsx:198 | The moved element lands at the target, and the list is a permutation of the old one. |
| LeadersManager.ArrayMoveBack | src/admin/LeadersManager.tsx:198 | Moving an element back restores the list. |
| LeadersManager.ArrayMoveSame | src/admin/LeadersManager.tsx:198 | Moving an element onto its own place changes nothing. |
| LeadersManager.DenseOrder | src/admin/LeadersManager.tsx:207-210 | Each leader of the block is given its new position as display order, 0 to n − 1. |
| LeadersManager.DraggedIsPermutation | src/admin/LeadersManager.tsx:201-204 | A drag keeps exactly the same leaders. |
| LeadersManager.DraggedCategory | src/admin/LeadersManager.tsx:194-204 | After a drag, the dragged category reads as the moved block. |
| LeadersManager.DraggedOtherCategory | src/admin/LeadersManager.tsx:201-204 | After a drag, every other category keeps its relative order. |
| LeadersManager.Manager.constructor | src/admin/LeadersManager.tsx:174-179 | The manager holds the loaded list, with no form, no edit and no pending action. |
| LeadersManager.Manager.HandleDragEnd | src/admin/LeadersManager.tsx:190-214 | A drop outside the list, or onto the dragged item, changes nothing. Otherwise the list becomes the other leaders followed by the moved block, and the dense order batch is issued. |
| LeadersManager.Manager.HandleAddLeader | src/admin/LeadersManager.tsx:216-227 | Success closes the form and shows the reloaded list. Failure keeps the form open and alerts the store's message or a fallback. |
| LeadersManager.Manager.HandleUpdateLeader | src/admin/LeadersManager.tsx:229-242 | Without an edit it does nothing. Success closes the edit and shows the reloaded list. Failure keeps the edit and alerts. |
| LeadersManager.Manager.HandleToggleActive | src/admin/LeadersManager.tsx:258-272 | Only after success does that id's active flag flip. Failure leaves the list and alerts. |
| LeadersManager.Manager.HandleDelete | src/admin/LeadersManager.tsx:244-256 | A declined dialog changes nothing. Success removes exactly that id. Failure leaves the list and alerts. |
| LeadersManager.DeleteRemovesOnly | src/admin/LeadersManager.tsx:250 | Deleting removes every row with that id and keeps every copy of every other row. |
| GalleryManager.Manager.constructor | src/admin/GalleryManager.tsx:24-29 | The manager holds the loaded list, with no form and no pending action. |
| GalleryManager.Manager.HandleAddImage | src/admin/GalleryManager.tsx:31-49 | Success hides the form and shows the reloaded list. Failure keeps the form and alerts. |
| GalleryManager.Manager.HandleDelete | src/admin/GalleryManager.tsx:51-63 | A declined dialog changes nothing. Success removes exactly that id. Failure leaves the list and alerts. |
| GalleryManager.Manager.HandleToggleActive | src/admin/GalleryManager.tsx:65-79 | Only after success does that id's flag change. Failure leaves the list and alerts. |
| GalleryManager.ToggleSetsFlag | src/admin/GalleryManager.tsx:70-72 | After a toggle, every row with that id shows the new flag, and every other row is as it was. |
| GalleryManager.ActiveCountBounds | src/admin/GalleryManager.tsx:211-212 | The active count never exceeds the total, and equals it exactly when every image is active. |
| GalleryPage.NextIndex | src/pages/GalleryPage.tsx:35-39 | Next stays in range and wraps from the last image to the first. |
| GalleryPage.PrevIndex | src/pages/GalleryPage.tsx:41-45 | Previous stays in range and wraps from the first image to the last. |
| GalleryPage.NextPrevInverse | src/pages/GalleryPage.tsx:35-45 | Previous undoes next, and next undoes previous. |
| GalleryPage.AdvanceIs | src/pages/GalleryPage.tsx:35-39 | k presses of next (k ≤ n) move the index k places on, wrapping once. |
| GalleryPage.Tour | src/pages/GalleryPage.tsx:35-39 | n presses of next come back to the same image, and on the way every image is shown. |
| GalleryPage.Page.constructor | src/pages/GalleryPage.tsx:104-105 | The page starts loading with the lightbox closed. |
| GalleryPage.Page.LoadImages | src/pages/GalleryPage.tsx:20-25 | The images are the fetched ones, and loading ends. |
| GalleryPage.Page.HandleImageClick | src/pages/GalleryPage.tsx:27-29 | Clicking opens the lightbox on that image. |
| GalleryPage.Page.HandleCloseLightbox | src/pages/GalleryPage.tsx:31-33 | Closing empties the selection, so the lightbox is closed. |
| GalleryPage.Page.HandleNext | src/pages/GalleryPage.tsx:35-39 | With no image selected nothing happens. Otherwise the selection moves to the next index. |
| GalleryPage.Page.HandlePrev | src/pages/GalleryPage.tsx:41-45 | With no image selected nothing happens. Otherwise the selection moves to the previous index. |
| Types.GetPut | src/components/SchemeForm.tsx:45 | After `m[key] = v`, reading the key gives v, and every other key reads as before. |
| Types.KeysPut | src/components/SchemeForm.tsx:45 | Assigning keeps every key in place and appends a new key at the end. |
| JsText.TrimEmptyIffBlank | src/components/IssueForm.tsx:80 | A trimmed string is empty exactly when every character is white space. |
| JsText.TrimIdempotent | src/admin/components/LeaderForm.tsx:113 | Trimming twice is the same as trimming once. |
| Ordering.SortBySorted | src/lib/leadersApi.ts:15-16 | Under a total preorder, the sorted rows are in order. |
| Ordering.WhereCount | src/lib/adminApi.ts:55-73 | A filter keeps every copy of a row it accepts and none of a row it rejects. |

## Left out

- **Browser decoding in `compressImage`** (FileReader, Image, canvas): these are parameters. The decoding outcome and the decoded width and height are given, and so is the JPEG encoder. Only the resize rule and the result record are modelled. Sizes are real numbers, so pixel rounding by the canvas is not modelled.
- **formatFileSize** (`src/lib/imageUtils.ts:95-99`): floating-point `toFixed` display only.
- **`toFixed`, `String(number)`, `encodeURIComponent` and `toLocaleDateString`**: these are opaque functions passed in as parameters.
- **The 30-day date series of `getAnalytics`:** it depends on the calendar and the clock. The lead count per date, which feeds it, is not modelled either.
- **ILIKE search:** it is modelled as a case-insensitive substring test. The `%`, `_` and `,` characters inside the search text, and the store's `or` syntax, are not modelled.
- **Case folding:** `toLowerCase` is modelled for ASCII letters only.
- **Integer-like object keys:** answers and count records keep keys in insertion order, which is JavaScript's order for keys that are not array indices. JavaScript lists integer-like keys such as `"7"` first, in ascending order, and that is not modelled. The catalogue's scheme ids, field ids and status codes are not integer-like. A `scheme_id` stored as digits would make the order of `byScheme` in `AdminApi.GetAnalytics` differ from the program's.
- **Timestamps:** they are compared as ISO text, which is how they are ordered in the store. Time zones are not modelled.
- **Concurrency:** `Promise.all` in `reorderLeaders` is a sequence of independent results. The interleaving of asynchronous handlers is not modelled.
- **`setTimeout`** in Settings is the separate `SettingsPage.Page.ClearMessage` step.
- **Console logging, the CSV download link and Blob, and `window.open`:** a new tab is recorded in `WhatsApp.Window`, and nothing else of the browser window is modelled.
- **`crypto.randomUUID`, `Date.now` and `new Date().toISOString()`:** these are parameters.
- **`localStorage`:** it is a map owned by the language provider.
- **`fetchIssues`, `fetchIssueById` and `updateIssueStatus`:** they are imported by the issue list and detail views, but `src/lib/adminApi.ts` does not define them. The issue list takes the loaded issues as a parameter.
- **`fetchLeadById`:** it is a single lookup by id with no logic of its own.
- **IssueForm getLocation** (`src/components/IssueForm.tsx:46-75`): geolocation is a browser service. Captured coordinates are a parameter of the payload.
- **Authentication, routing, detail views, the dashboard, charts and presentational components:** they hold no logic beyond display.
- **NaN:** NaN is not a value of the model's numbers. Gallery indices are integers, so `GalleryPage.Page.HandleNext` and `GalleryPage.Page.HandlePrev` require the selection to be in range. The lightbox offers the buttons only for a shown image. Coordinates are real numbers, so a NaN coordinate is not modelled.
- **`updated_at`:** the column and other store-side defaults are not modelled. The model states only what the client sends.
- **FilterBar.ParseStatus:** it reads any text that is not one of the five codes as "no status". The select offers only the five codes and the empty value.
- **LanguageProvider.Provider.SetLanguage:** it takes one of the two languages, as the type in the source demands. Other codes reach the provider only through storage, which `LanguageProvider.UnknownStoredCode` covers.
- **SchemeForm.ExactLengthChecks:** it is stated for text in the Basic Multilingual Plane, where `.length` is the character count. `JsText.JsLength` bounds the general case between the character count and twice it.
- **ImageUpload.CompressResult:** the width bound is proved. The height follows the aspect ratio and is not bounded, exactly as in the source.
- **JsText.ReplaceFirst and WhatsApp.GenerateWhatsAppMessage:** the replacement text is inserted literally. `String.prototype.replace` expands `$&`, `$$`, `` $` `` and `$'` inside a replacement string, so an answer holding such a pattern (for example `a$&b`, which JavaScript turns into `a{name}b`) is not modelled.
- **LeadersApi.UpdateLeader:** its change list expresses only the active flag and the display order, which is what the toggle and the reorder send. The general `updateLeader` record of names, positions, image, sizes, MIME type and category sent by `handleUpdateLeader` is not modelled; `LeadersManager.Manager.HandleUpdateLeader` takes the reloaded list as a parameter.
- **WhatsApp.MessageFillsAnswered:** it requires answer keys without braces and displayed values without an opening brace. A value holding `{key}` text could be replaced again by a later key's replacement, and that interaction is not characterised. `WhatsApp.GenerateWhatsAppMessage` itself holds for every input.

=== FILE: admin_api.dfy ===
/**
 * The admin side of the `leads` table: the filtered, newest-first listing,
 * the status update record, the analytics counts, and the CSV export.
 * The store is an oracle: its rows and its error flag are parameters.
 */
module AdminApi {
  import opened Wrappers
  import opened JsText
  import opened Types
  import opened Ordering
  import Csv

  /** The five lead states the admin panel works with. */
  datatype LeadStatus = Pending | Reviewing | Verified | Processed | Rejected

  function StatusCode(s: LeadStatus): string {
    match s
    case Pending => "pending"
    case Reviewing => "reviewing"
    case Verified => "verified"
    case Processed => "processed"
    case Rejected => "rejected"
  }

  /** A row of the `leads` table; a column that may hold null is an `Option`. */
  datatype Lead = Lead(
    id: string,
    createdAt: string,
    schemeType: string,
    applicantName: string,
    mobileNumber: string,
    wardNo: Option<string>,
    formData: FormData,
    status: Option<LeadStatus>,
    adminNotes: Option<string>,
    processedAt: Option<string>,
    processedBy: Option<string>)

  /** A missing status reads as pending. */
  function StatusOf(l: Lead): LeadStatus {
    l.status.GetOr(Pending)
  }

  // ---------------------------------------------------------------------------
  // fetchLeads

  /** `LeadFilters`: an absent member is `None`. */
  datatype LeadFilters = LeadFilters(
    scheme: Option<string>,
    status: Option<LeadStatus>,
    search: Option<string>,
    dateFrom: Option<string>,
    dateTo: Option<string>)

  /** A string filter that JavaScript finds truthy. */
  predicate Set(x: Option<string>) {
    x.Some? && x.value != ""
  }

  /** The scheme filter applies when set and not `all`. */
  predicate SchemeActive(f: LeadFilters) {
    Set(f.scheme) && f.scheme.value != "all"
  }

  /** `ILIKE '%search%'` on one column: a substring, ignoring ASCII case. */
  predicate ContainsIgnoringCase(column: string, search: string) {
    Contains(ToLower(column), ToLower(search))
  }

  predicate SchemePasses(f: LeadFilters, l: Lead) {
    SchemeActive(f) ==> l.schemeType == f.scheme.value
  }

  predicate StatusPasses(f: LeadFilters, l: Lead) {
    f.status.Some? ==> l.status == f.status
  }

  predicate SearchPasses(f: LeadFilters, l: Lead) {
    Set(f.search) ==> ContainsIgnoringCase(l.applicantName, f.search.value) || ContainsIgnoringCase(l.mobileNumber, f.search.value)
  }

  /** `created_at >= dateFrom`: inclusive, on ISO text. */
  predicate FromPasses(f: LeadFilters, l: Lead) {
    Set(f.dateFrom) ==> LexLe(f.dateFrom.value, l.createdAt)
  }

  /** `created_at <= dateTo + 'T23:59:59'`: the whole `dateTo` day up to its last whole second. */
  predicate ToPasses(f: LeadFilters, l: Lead) {
    Set(f.dateTo) ==> LexLe(l.createdAt, f.dateTo.value + "T23:59:59")
  }

  /** Every filter that is set, combined with AND. */
  predicate Matches(f: LeadFilters, l: Lead) {
    SchemePasses(f, l) && StatusPasses(f, l) && SearchPasses(f, l) && FromPasses(f, l) && ToPasses(f, l)
  }

  /** `ORDER BY created_at DESC`. */
  predicate NewestFirst(a: Lead, b: Lead) {
    LexLe(b.createdAt, a.createdAt)
  }

  lemma NewestFirstTotal()
    ensures TotalPreorder(NewestFirst)
  {
    forall a, b ensures NewestFirst(a, b) || NewestFirst(b, a) {
      LexLeTotal(a.createdAt, b.createdAt);
    }
    forall a, b, c | NewestFirst(a, b) && NewestFirst(b, c) ensures NewestFirst(a, c) {
      LexLeTransitive(c.createdAt, b.createdAt, a.createdAt);
    }
  }

  /** The rows the query holds after one more filter: still sorted, and a row is there as often as before if it passes. */
  lemma Narrowed(rows: seq<Lead>, p: Lead -> bool, x: Lead)
    requires SortedBy(rows, NewestFirst)
    ensures SortedBy(Where(rows, p), NewestFirst)
    ensures multiset(Where(rows, p))[x] == if p(x) then multiset(rows)[x] else 0
  {
    WhereSorted(rows, p, NewestFirst);
    WhereCount(rows, p, x);
  }

  /**
   * One `query = query.eq(...)` step of `fetchLeads`: when `active`, keep
   * the rows satisfying `p`. `before` describes what the query held so far.
   */
  method Narrow(query: seq<Lead>, active: bool, p: Lead -> bool, ghost table: seq<Lead>, ghost before: Lead -> bool)
    returns (r: seq<Lead>)
    requires SortedBy(query, NewestFirst)
    requires forall x :: multiset(query)[x] == if before(x) then multiset(table)[x] else 0
    ensures SortedBy(r, NewestFirst)
    ensures forall x :: multiset(r)[x] == if before(x) && (active ==> p(x)) then multiset(table)[x] else 0
  {
    if !active {
      return query;
    }
    forall x ensures multiset(Where(query, p))[x] == if p(x) then multiset(query)[x] else 0 {
      WhereCount(query, p, x);
    }
    WhereSorted(query, p, NewestFirst);
    r := Where(query, p);
  }

  /**
   * `fetchLeads(filters)`: `table` is the `leads` table and `error` the
   * store's error flag. The query is built one filter at a time.
   */
  method FetchLeads(filters: LeadFilters, configured: bool, table: seq<Lead>, error: bool) returns (leads: seq<Lead>)
    ensures !configured || error ==> leads == []
    ensures configured && !error ==> SortedBy(leads, NewestFirst)
    ensures configured && !error ==> forall x :: multiset(leads)[x] == if Matches(filters, x) then multiset(table)[x] else 0
  {
    if !configured {
      return [];
    }
    NewestFirstTotal();
    SortBySorted(table, NewestFirst);
    var query := SortBy(table, NewestFirst);
    query := Narrow(query, SchemeActive(filters), (l: Lead) => l.schemeType == filters.scheme.GetOr(""),
      table, (l: Lead) => true);
    query := Narrow(query, filters.status.Some?, (l: Lead) => l.status == filters.status,
      table, (l: Lead) => SchemePasses(filters, l));
    query := Narrow(query, Set(filters.search),
      (l: Lead) => ContainsIgnoringCase(l.applicantName, filters.search.GetOr(""))
                   || ContainsIgnoringCase(l.mobileNumber, filters.search.GetOr("")),
      table, (l: Lead) => SchemePasses(filters, l) && StatusPasses(filters, l));
    query := Narrow(query, Set(filters.dateFrom), (l: Lead) => LexLe(filters.dateFrom.GetOr(""), l.createdAt),
      table, (l: Lead) => SchemePasses(filters, l) && StatusPasses(filters, l) && SearchPasses(filters, l));
    query := Narrow(query, Set(filters.dateTo), (l: Lead) => LexLe(l.createdAt, filters.dateTo.GetOr("") + "T23:59:59"),
      table, (l: Lead) => SchemePasses(filters, l) && StatusPasses(filters, l) && SearchPasses(filters, l)
                          && FromPasses(filters, l));
    if error {
      return [];
    }
    leads := query;
  }

  // ---------------------------------------------------------------------------
  // updateLeadStatus

  /** The `updates` object; `processedAt` is `None` when the key is not set at all. */
  datatype LeadUpdate = LeadUpdate(status: LeadStatus, adminNotes: Option<string>, processedAt: Option<string>)

  /** The two statuses that close a lead. */
  predicate Closes(s: LeadStatus) {
    s == Processed || s == Rejected
  }

  /**
   * `updateLeadStatus(id, status, notes)`: `now` stands for the ISO time
   * stamp taken when the lead is closed and `error` for the store's reply.
   * `sent` is the update handed to the store, if any. The leads table is
   * not part of this model, so the `.eq('id', id)` target row is not
   * modelled; `id` only names it.
   */
  method UpdateLeadStatus(id: string, status: LeadStatus, notes: Option<string>, now: string, configured: bool, error: bool)
    returns (ok: bool, sent: Option<LeadUpdate>)
    ensures !configured ==> !ok && sent.None?
    ensures configured ==> sent.Some? && (ok <==> !error)
    ensures sent.Some? ==> sent.value.status == status
    ensures sent.Some? && Set(notes) ==> sent.value.adminNotes == notes
    ensures sent.Some? && !Set(notes) ==> sent.value.adminNotes.None?
    ensures sent.Some? ==> (sent.value.processedAt.Some? <==> Closes(status))
    ensures sent.Some? && Closes(status) ==> sent.value.processedAt == Some(now)
  {
    if !configured {
      return false, None;
    }
    var updates := LeadUpdate(status, if Set(notes) then notes else None, None);
    if status == Processed || status == Rejected {
      updates := updates.(processedAt := Some(now));
    }
    sent := Some(updates);
    ok := !error;
  }

  // ---------------------------------------------------------------------------
  // getAnalytics

  /** A `Record<string, number>` of counts, in key insertion order (keys that are not array indices). */
  type Counts = seq<(string, nat)>

  function Total(c: Counts): nat {
    if c == [] then 0 else c[0].1 + Total(c[1..])
  }

  /** `count[key] = (count[key] || 0) + 1`. */
  function Bump(c: Counts, key: string): Counts {
    Put(c, key, Get(c, key).GetOr(0) + 1)
  }

  /** The counts after the `forEach` over `leads`, keyed by `key`. */
  function Tally(leads: seq<Lead>, key: Lead -> string): Counts {
    if leads == [] then [] else Bump(Tally(leads[..|leads| - 1], key), key(leads[|leads| - 1]))
  }

  /** How many of `leads` have key `k`. */
  function Count(leads: seq<Lead>, key: Lead -> string, k: string): nat {
    if leads == [] then 0
    else Count(leads[..|leads| - 1], key, k) + (if key(leads[|leads| - 1]) == k then 1 else 0)
  }

  function SchemeKey(): Lead -> string {
    (l: Lead) => l.schemeType
  }

  /** `lead.status || 'pending'`. */
  function StatusKey(): Lead -> string {
    (l: Lead) => StatusCode(StatusOf(l))
  }

  /** Replacing one count changes the total by the difference. */
  lemma {:induction false} TotalPut(c: Counts, key: string, v: nat)
    ensures Total(Put(c, key, v)) + Get(c, key).GetOr(0) == Total(c) + v
  {
    if c != [] && c[0].0 != key {
      TotalPut(c[1..], key, v);
    }
  }

  /** The tally holds each key once and its counts sum to the number of leads. */
  lemma {:induction false} TallyShape(leads: seq<Lead>, key: Lead -> string)
    ensures KeysUnique(Tally(leads, key))
    ensures Total(Tally(leads, key)) == |leads|
  {
    if leads != [] {
      var init := leads[..|leads| - 1];
      var last := key(leads[|leads| - 1]);
      var c := Tally(init, key);
      var v := Get(c, last).GetOr(0) + 1;
      assert Tally(leads, key) == Put(c, last, v);
      TallyShape(init, key);
      KeysUniquePut(c, last, v);
      TotalPut(c, last, v);
    }
  }

  /** The tally counts each key as often as it occurs and holds no key that does not occur. */
  lemma {:induction false} TallyGet(leads: seq<Lead>, key: Lead -> string, k: string)
    ensures Get(Tally(leads, key), k) == if Count(leads, key, k) == 0 then None else Some(Count(leads, key, k))
  {
    if leads != [] {
      var init := leads[..|leads| - 1];
      var last := key(leads[|leads| - 1]);
      var c := Tally(init, key);
      TallyGet(init, key, k);
      TallyGet(init, key, last);
      GetPut(c, last, Get(c, last).GetOr(0) + 1, k);
    }
  }

  /**
   * The tally holds each key once, counts each key as often as it occurs,
   * holds no key that does not occur, and its counts sum to the number of leads.
   */
  lemma TallyCounts(leads: seq<Lead>, key: Lead -> string, k: string)
    ensures KeysUnique(Tally(leads, key))
    ensures Total(Tally(leads, key)) == |leads|
    ensures Get(Tally(leads, key), k) == if Count(leads, key, k) == 0 then None else Some(Count(leads, key, k))
  {
    TallyShape(leads, key);
    TallyGet(leads, key, k);
  }

  /** Counting one more lead bumps its key and adds it to the count of its key. */
  lemma TallyStep(leads: seq<Lead>, i: int, key: Lead -> string, k: string)
    requires 0 <= i < |leads|
    ensures Tally(leads[..i + 1], key) == Bump(Tally(leads[..i], key), key(leads[i]))
    ensures Count(leads[..i + 1], key, k) == Count(leads[..i], key, k) + (if key(leads[i]) == k then 1 else 0)
  {
    assert leads[..i + 1][..i] == leads[..i];
  }

  /** `Analytics` without the date series. */
  datatype Analytics = Analytics(total: nat, byScheme: Counts, byStatus: Counts, processedCount: nat)

  /**
   * `getAnalytics`: `data` is the listing the store returns (`None` for
   * null) and `error` its error flag. One pass counts by scheme, by status
   * and the processed leads.
   */
  method GetAnalytics(configured: bool, error: bool, data: Option<seq<Lead>>) returns (a: Analytics)
    ensures !configured || error || data.None? ==> a == Analytics(0, [], [], 0)
    ensures configured && !error && data.Some? ==>
      a.total == |data.value| && a.byScheme == Tally(data.value, SchemeKey())
      && a.byStatus == Tally(data.value, StatusKey()) && a.processedCount == Count(data.value, StatusKey(), "processed")
  {
    if !configured || error || data.None? {
      return Analytics(0, [], [], 0);
    }
    var leads := data.value;
    var schemeCount: Counts := [];
    var statusCount: Counts := [];
    var processedCount := 0;
    var i := 0;
    while i < |leads|
      invariant 0 <= i <= |leads|
      invariant schemeCount == Tally(leads[..i], SchemeKey())
      invariant statusCount == Tally(leads[..i], StatusKey())
      invariant processedCount == Count(leads[..i], StatusKey(), "processed")
    {
      var lead := leads[i];
      var scheme := lead.schemeType;
      var status := StatusCode(StatusOf(lead));
      assert scheme == SchemeKey()(lead) && status == StatusKey()(lead);
      TallyStep(leads, i, SchemeKey(), "");
      TallyStep(leads, i, StatusKey(), "processed");
      schemeCount := Bump(schemeCount, scheme);
      statusCount := Bump(statusCount, status);
      if status == "processed" {
        processedCount := processedCount + 1;
      }
      i := i + 1;
    }
    assert leads[..|leads|] == leads;
    a := Analytics(|leads|, schemeCount, statusCount, processedCount);
  }

  /** Both breakdowns account for every lead, and the processed count is the `processed` entry of the status breakdown. */
  lemma AnalyticsConsistent(leads: seq<Lead>)
    ensures Total(Tally(leads, SchemeKey())) == |leads| && Total(Tally(leads, StatusKey())) == |leads|
    ensures Get(Tally(leads, StatusKey()), "processed").GetOr(0) == Count(leads, StatusKey(), "processed")
  {
    TallyCounts(leads, SchemeKey(), "");
    TallyCounts(leads, StatusKey(), "processed");
  }

  // ---------------------------------------------------------------------------
  // exportLeadsCSV

  const LeadHeaders: seq<string> := ["ID", "Date", "Scheme", "Name", "Mobile", "Ward", "Status", "Notes"]

  /** One lead's cells; `formatDate` stands for `new Date(created_at).toLocaleDateString()`. */
  function LeadCells(l: Lead, formatDate: string -> string): (row: seq<string>)
    ensures |row| == |LeadHeaders|
    ensures row[0] == l.id && row[1] == formatDate(l.createdAt) && row[2] == l.schemeType
    ensures row[3] == l.applicantName && row[4] == l.mobileNumber
    ensures row[5] == l.wardNo.GetOr("") && row[6] == StatusCode(StatusOf(l)) && row[7] == l.adminNotes.GetOr("")
  {
    [l.id, formatDate(l.createdAt), l.schemeType, l.applicantName, l.mobileNumber,
     MessageOr(l.wardNo, ""), StatusCode(l.status.GetOr(Pending)), MessageOr(l.adminNotes, "")]
  }

  function LeadRows(leads: seq<Lead>, formatDate: string -> string): (rows: seq<seq<string>>)
    ensures |rows| == |leads|
    ensures forall i :: 0 <= i < |leads| ==> rows[i] == LeadCells(leads[i], formatDate)
  {
    seq(|leads|, i requires 0 <= i < |leads| => LeadCells(leads[i], formatDate))
  }

  /** `exportLeadsCSV`: the bare header line, then one quoted line per lead, joined with line feeds. */
  function ExportLeadsCsv(leads: seq<Lead>, formatDate: string -> string): string {
    Csv.Document(Join(LeadHeaders, ","), LeadRows(leads, formatDate))
  }

  /** Reading the export back yields the header line and, for every lead, its eight cells. */
  lemma ExportLeadsRoundTrip(leads: seq<Lead>, formatDate: string -> string)
    ensures Csv.ParseDocument(ExportLeadsCsv(leads, formatDate)) == Some((Join(LeadHeaders, ","), LeadRows(leads, formatDate)))
  {
    Csv.JoinAvoids(LeadHeaders, ",", '\n');
    Csv.DocumentRoundTrip(Join(LeadHeaders, ","), LeadRows(leads, formatDate));
  }
}

=== FILE: csv.dfy ===
/**
 * The comma-separated text the admin panel exports: every data cell is
 * wrapped in double quotes with inner quotes doubled, cells are joined with
 * commas and lines with line feeds, and the header line is written bare.
 * Next to the writer sits a reader for quoted fields as section 2 of
 * RFC 4180 describes them (rules 5-7), and the lemmas show that reading an
 * export gives back exactly the header line and the cell values written.
 */
module Csv {
  import opened Wrappers
  import opened JsText

  // ---------------------------------------------------------------------------
  // Writing

  /** `replace(/"/g, '""')`: every double quote doubled, every other character kept. */
  function Escape(s: string): (r: string)
    ensures |r| >= |s|
  {
    if s == [] then [] else (if s[0] == '"' then "\"\"" else [s[0]]) + Escape(s[1..])
  }

  /** One exported cell: `"${escaped}"`. */
  function Cell(s: string): string {
    "\"" + Escape(s) + "\""
  }

  function Cells(row: seq<string>): (r: seq<string>)
    ensures |r| == |row|
    ensures forall i :: 0 <= i < |row| ==> r[i] == Cell(row[i])
  {
    seq(|row|, i requires 0 <= i < |row| => Cell(row[i]))
  }

  /** One data line: the quoted cells joined with commas. */
  function Row(row: seq<string>): string {
    Join(Cells(row), ",")
  }

  function Rows(rows: seq<seq<string>>): (r: seq<string>)
    ensures |r| == |rows|
    ensures forall i :: 0 <= i < |rows| ==> r[i] == Row(rows[i])
  {
    seq(|rows|, i requires 0 <= i < |rows| => Row(rows[i]))
  }

  /** The whole export: the header line, then one line per record, joined with line feeds. */
  function Document(header: string, rows: seq<seq<string>>): string {
    Join([header] + Rows(rows), "\n")
  }

  // ---------------------------------------------------------------------------
  // Reading

  /**
   * Reads the inside of a quoted field (the opening quote already consumed)
   * up to its closing quote: a doubled quote stands for one quote. Gives the
   * field's value and what follows the closing quote.
   */
  function ParseBody(s: string): (r: Option<(string, string)>)
    ensures r.Some? ==> |r.value.1| < |s|
  {
    if s == [] then None
    else if s[0] == '"' then
      if |s| > 1 && s[1] == '"' then
        match ParseBody(s[2..])
        case None => None
        case Some(p) => Some(("\"" + p.0, p.1))
      else Some(([], s[1..]))
    else
      match ParseBody(s[1..])
      case None => None
      case Some(p) => Some(([s[0]] + p.0, p.1))
  }

  /** Reads one line of quoted fields separated by commas, stopping at a line feed or the end. */
  function ParseRow(s: string): (r: Option<(seq<string>, string)>)
    ensures r.Some? ==> |r.value.1| < |s| && |r.value.0| >= 1
    decreases |s|
  {
    if s == [] || s[0] != '"' then None
    else
      match ParseBody(s[1..])
      case None => None
      case Some(p) =>
        if |p.1| > 0 && p.1[0] == ',' then
          match ParseRow(p.1[1..])
          case None => None
          case Some(q) => Some(([p.0] + q.0, q.1))
        else if p.1 == [] || p.1[0] == '\n' then Some(([p.0], p.1))
        else None
  }

  /** Reads the data lines, each introduced by a line feed, to the end of the text. */
  function ParseRows(s: string): Option<seq<seq<string>>>
    decreases |s|
  {
    if s == [] then Some([])
    else if s[0] != '\n' then None
    else
      match ParseRow(s[1..])
      case None => None
      case Some(p) =>
        match ParseRows(p.1)
        case None => None
        case Some(rows) => Some([p.0] + rows)
  }

  /** Where the first line ends: the index of the first line feed, or the length. */
  function LineEnd(s: string): (n: nat)
    ensures n <= |s|
    ensures n < |s| ==> s[n] == '\n'
    ensures forall i :: 0 <= i < n ==> s[i] != '\n'
  {
    if s == [] || s[0] == '\n' then 0 else 1 + LineEnd(s[1..])
  }

  /** Reads a whole export: the header line as written, then the records. */
  function ParseDocument(s: string): Option<(string, seq<seq<string>>)> {
    var n := LineEnd(s);
    match ParseRows(s[n..])
    case None => None
    case Some(rows) => Some((s[..n], rows))
  }

  // ---------------------------------------------------------------------------
  // Round trip

  lemma {:induction false} EscapeCons(c: char, s: string)
    ensures Escape([c] + s) == (if c == '"' then "\"\"" else [c]) + Escape(s)
  {
    assert ([c] + s)[0] == c && ([c] + s)[1..] == s;
  }

  lemma ParseBodyClose(rest: string)
    requires rest == [] || rest[0] != '"'
    ensures ParseBody("\"" + rest) == Some(([], rest))
  {
    assert ("\"" + rest)[1..] == rest;
  }

  lemma ParseBodyQuote(tail: string, v: string, rest: string)
    requires ParseBody(tail) == Some((v, rest))
    ensures ParseBody("\"\"" + tail) == Some(("\"" + v, rest))
  {
    assert ("\"\"" + tail)[2..] == tail;
  }

  lemma ParseBodyChar(c: char, tail: string, v: string, rest: string)
    requires c != '"' && ParseBody(tail) == Some((v, rest))
    ensures ParseBody([c] + tail) == Some(([c] + v, rest))
  {
    assert ([c] + tail)[1..] == tail;
  }

  lemma EscapeQuoteStep(x: string, rest: string)
    requires x != [] && x[0] == '"'
    requires ParseBody(Escape(x[1..]) + "\"" + rest) == Some((x[1..], rest))
    ensures ParseBody(Escape(x) + "\"" + rest) == Some((x, rest))
  {
    var tail := Escape(x[1..]) + "\"" + rest;
    EscapeCons(x[0], x[1..]);
    assert x == [x[0]] + x[1..];
    assert Escape(x) + "\"" + rest == "\"\"" + tail;
    ParseBodyQuote(tail, x[1..], rest);
  }

  lemma EscapeCharStep(x: string, rest: string)
    requires x != [] && x[0] != '"'
    requires ParseBody(Escape(x[1..]) + "\"" + rest) == Some((x[1..], rest))
    ensures ParseBody(Escape(x) + "\"" + rest) == Some((x, rest))
  {
    var tail := Escape(x[1..]) + "\"" + rest;
    EscapeCons(x[0], x[1..]);
    assert x == [x[0]] + x[1..];
    assert Escape(x) + "\"" + rest == [x[0]] + tail;
    ParseBodyChar(x[0], tail, x[1..], rest);
  }

  /** Reading an escaped value and its closing quote gives the value back. */
  lemma {:induction false} ParseBodyEscape(x: string, rest: string)
    requires rest == [] || rest[0] != '"'
    ensures ParseBody(Escape(x) + "\"" + rest) == Some((x, rest))
  {
    if x == [] {
      assert Escape(x) + "\"" + rest == "\"" + rest;
      ParseBodyClose(rest);
    } else {
      ParseBodyEscape(x[1..], rest);
      if x[0] == '"' {
        EscapeQuoteStep(x, rest);
      } else {
        EscapeCharStep(x, rest);
      }
    }
  }

  lemma ParseRowLast(s: string, v: string, rest: string)
    requires |s| > 0 && s[0] == '"' && ParseBody(s[1..]) == Some((v, rest))
    requires rest == [] || rest[0] == '\n'
    ensures ParseRow(s) == Some(([v], rest))
  {
  }

  lemma ParseRowMore(s: string, v: string, after: string, cells: seq<string>, rest: string)
    requires |s| > 0 && s[0] == '"' && ParseBody(s[1..]) == Some((v, after))
    requires |after| > 0 && after[0] == ',' && ParseRow(after[1..]) == Some((cells, rest))
    ensures ParseRow(s) == Some(([v] + cells, rest))
  {
  }

  lemma RowCons(row: seq<string>)
    requires |row| >= 2
    ensures Row(row) == Cell(row[0]) + "," + Row(row[1..])
  {
    assert Cells(row[1..]) == Cells(row)[1..];
  }

  lemma ParseRowOfCell(cell: string, rest: string)
    requires rest == [] || rest[0] == '\n'
    ensures ParseRow(Cell(cell) + rest) == Some(([cell], rest))
  {
    var s := "\"" + (Escape(cell) + "\"" + rest);
    assert Cell(cell) + rest == s;
    ParseBodyEscape(cell, rest);
    assert s[1..] == Escape(cell) + "\"" + rest;
    ParseRowLast(s, cell, rest);
  }

  lemma ParseRowOfCellThen(cell: string, line: string, rest: string, cells: seq<string>)
    requires ParseRow(line + rest) == Some((cells, rest))
    ensures ParseRow(Cell(cell) + "," + line + rest) == Some(([cell] + cells, rest))
  {
    var after := "," + (line + rest);
    var s := "\"" + (Escape(cell) + "\"" + after);
    assert Cell(cell) + "," + line + rest == s;
    ParseBodyEscape(cell, after);
    assert s[1..] == Escape(cell) + "\"" + after;
    assert after[1..] == line + rest;
    ParseRowMore(s, cell, after, cells, rest);
  }

  /** Reading a written line gives back its cells. */
  lemma {:induction false} ParseRowOfRow(row: seq<string>, rest: string)
    requires |row| >= 1
    requires rest == [] || rest[0] == '\n'
    ensures ParseRow(Row(row) + rest) == Some((row, rest))
    decreases |row|
  {
    if |row| == 1 {
      assert Row(row) == Cell(row[0]);
      ParseRowOfCell(row[0], rest);
      assert [row[0]] == row;
    } else {
      RowCons(row);
      ParseRowOfRow(row[1..], rest);
      ParseRowOfCellThen(row[0], Row(row[1..]), rest, row[1..]);
      assert [row[0]] + row[1..] == row;
    }
  }

  /** The written data lines, each after its line feed. */
  function Lines(rows: seq<seq<string>>): string {
    if rows == [] then [] else "\n" + Row(rows[0]) + Lines(rows[1..])
  }

  lemma LinesStart(rows: seq<seq<string>>)
    ensures Lines(rows) == [] || Lines(rows)[0] == '\n'
  {
  }

  /** One step of `ParseRows` over a line feed and a line that reads as `row`. */
  lemma ParseRowsStep(s: string, row: seq<string>, rest: string)
    requires |s| > 0 && s[0] == '\n' && ParseRow(s[1..]) == Some((row, rest))
    ensures ParseRows(rest).Some? ==> ParseRows(s) == Some([row] + ParseRows(rest).value)
  {
  }

  lemma {:induction false} ParseRowsOfLines(rows: seq<seq<string>>)
    requires forall i :: 0 <= i < |rows| ==> |rows[i]| >= 1
    ensures ParseRows(Lines(rows)) == Some(rows)
  {
    if rows != [] {
      var later := rows[1..];
      var tail := Lines(later);
      var line := Row(rows[0]);
      forall i | 0 <= i < |later| ensures |later[i]| >= 1 {
        assert later[i] == rows[i + 1];
      }
      ParseRowsOfLines(later);
      LinesStart(later);
      ParseRowOfRow(rows[0], tail);
      var s := "\n" + (line + tail);
      assert Lines(rows) == s;
      assert s[1..] == line + tail;
      ParseRowsStep(s, rows[0], tail);
      assert [rows[0]] + later == rows;
    }
  }

  lemma {:induction false} JoinLines(header: string, rows: seq<seq<string>>)
    ensures Join([header] + Rows(rows), "\n") == header + Lines(rows)
    decreases |rows|
  {
    if rows != [] {
      JoinLines(Row(rows[0]), rows[1..]);
      assert ([header] + Rows(rows))[1..] == [Row(rows[0])] + Rows(rows[1..]);
    }
  }

  /**
   * Reading an export gives back the header line and every record's cells,
   * whatever quotes, commas or line feeds the cells hold, provided the bare
   * header line has no line feed and no record is empty.
   */
  lemma DocumentRoundTrip(header: string, rows: seq<seq<string>>)
    requires forall i :: 0 <= i < |header| ==> header[i] != '\n'
    requires forall i :: 0 <= i < |rows| ==> |rows[i]| >= 1
    ensures ParseDocument(Document(header, rows)) == Some((header, rows))
  {
    var s := Document(header, rows);
    JoinLines(header, rows);
    ParseRowsOfLines(rows);
    var tail := Lines(rows);
    assert s == header + tail;
    assert tail == [] || tail[0] == '\n';
    LineEndAppend(header, tail);
    assert s[..|header|] == header && s[|header|..] == tail;
  }

  lemma {:induction false} LineEndAppend(h: string, t: string)
    requires forall i :: 0 <= i < |h| ==> h[i] != '\n'
    requires t == [] || t[0] == '\n'
    ensures LineEnd(h + t) == |h|
  {
    if h == [] {
      assert h + t == t;
    } else {
      assert (h + t)[0] == h[0] && (h + t)[1..] == h[1..] + t;
      LineEndAppend(h[1..], t);
    }
  }

  /** Joining pieces none of which holds `c`, with a separator that does not hold `c`, never produces `c`. */
  lemma {:induction false} JoinAvoids(parts: seq<string>, sep: string, c: char)
    requires forall i, j :: 0 <= i < |parts| && 0 <= j < |parts[i]| ==> parts[i][j] != c
    requires forall j :: 0 <= j < |sep| ==> sep[j] != c
    ensures forall j :: 0 <= j < |Join(parts, sep)| ==> Join(parts, sep)[j] != c
  {
    if |parts| > 1 {
      JoinAvoids(parts[1..], sep, c);
      var t := Join(parts[1..], sep);
      forall j | 0 <= j < |parts[0] + sep + t| ensures (parts[0] + sep + t)[j] != c {
        if j < |parts[0]| {
        } else if j < |parts[0]| + |sep| {
          assert (parts[0] + sep + t)[j] == sep[j - |parts[0]|];
        } else {
          assert (parts[0] + sep + t)[j] == t[j - |parts[0]| - |sep|];
        }
      }
    }
  }
}

=== FILE: filter_bar.dfy ===
/**
 * The filter bar above the leads list: each control writes one member of
 * the filter record, an empty value removes the member, "all" in a select
 * is written as empty, and "Clear" empties the record.
 */
module FilterBar {
  import opened Wrappers
  import opened AdminApi

  datatype FilterKey = SchemeFilter | StatusFilter | SearchFilter | DateFromFilter | DateToFilter

  /** The status a select value names; the select offers only the five codes and the empty value. */
  function ParseStatus(code: string): (s: Option<LeadStatus>)
    ensures s.Some? ==> StatusCode(s.value) == code
  {
    if code == "pending" then Some(Pending)
    else if code == "reviewing" then Some(Reviewing)
    else if code == "verified" then Some(Verified)
    else if code == "processed" then Some(Processed)
    else if code == "rejected" then Some(Rejected)
    else None
  }

  /** Every status code reads back as its status, and the empty value as none. */
  lemma ParseStatusCode(s: LeadStatus)
    ensures ParseStatus(StatusCode(s)) == Some(s)
    ensures ParseStatus("").None?
  {
  }

  /** `value || undefined`. */
  function OrUndefined(value: string): (r: Option<string>)
    ensures r.None? <==> value == ""
    ensures r.Some? ==> r.value == value
  {
    if value == "" then None else Some(value)
  }

  /** `updateFilter(key, value)`: the record with `key` set to `value`, or removed when `value` is empty. */
  function UpdateFilter(f: LeadFilters, key: FilterKey, value: string): LeadFilters {
    match key
    case SchemeFilter => f.(scheme := OrUndefined(value))
    case StatusFilter => f.(status := if value == "" then None else ParseStatus(value))
    case SearchFilter => f.(search := OrUndefined(value))
    case DateFromFilter => f.(dateFrom := OrUndefined(value))
    case DateToFilter => f.(dateTo := OrUndefined(value))
  }

  /** The scheme and status selects write "all" as the empty value. */
  function SelectValue(choice: string): (v: string)
    ensures choice == "all" ==> v == ""
    ensures choice != "all" ==> v == choice
  {
    if choice == "all" then "" else choice
  }

  /** An update changes the named member and leaves the other four as they were. */
  lemma UpdateFilterOnly(f: LeadFilters, key: FilterKey, value: string)
    ensures var g := UpdateFilter(f, key, value);
      (key != SchemeFilter ==> g.scheme == f.scheme) && (key != StatusFilter ==> g.status == f.status)
      && (key != SearchFilter ==> g.search == f.search) && (key != DateFromFilter ==> g.dateFrom == f.dateFrom)
      && (key != DateToFilter ==> g.dateTo == f.dateTo)
    ensures value == "" ==> var g := UpdateFilter(f, key, value);
      match key
      case SchemeFilter => g.scheme.None?
      case StatusFilter => g.status.None?
      case SearchFilter => g.search.None?
      case DateFromFilter => g.dateFrom.None?
      case DateToFilter => g.dateTo.None?
  {
  }

  /** Choosing "All" for the scheme or the status removes that filter. */
  lemma ChoosingAllRemoves(f: LeadFilters)
    ensures UpdateFilter(f, SchemeFilter, SelectValue("all")).scheme.None?
    ensures UpdateFilter(f, StatusFilter, SelectValue("all")).status.None?
  {
  }

  /** `clearFilters`: the empty record. */
  function ClearFilters(): LeadFilters {
    LeadFilters(None, None, None, None, None)
  }

  /** `hasActiveFilters`: some member holds a value JavaScript finds truthy. */
  predicate HasActiveFilters(f: LeadFilters) {
    Set(f.scheme) || f.status.Some? || Set(f.search) || Set(f.dateFrom) || Set(f.dateTo)
  }

  /** With no active filter every lead matches, so the listing holds the whole table; after clearing there is none. */
  lemma NoActiveFilterMatchesAll(f: LeadFilters, l: Lead)
    ensures !HasActiveFilters(f) ==> Matches(f, l)
    ensures !HasActiveFilters(ClearFilters())
  {
  }

  /** Setting any member to a non-empty value makes the bar show "Clear". */
  lemma UpdateActivates(f: LeadFilters, key: FilterKey, value: string)
    requires value != "" && (key == StatusFilter ==> ParseStatus(value).Some?)
    ensures HasActiveFilters(UpdateFilter(f, key, value))
  {
  }
}

=== FILE: gallery_api.dfy ===
/**
 * The gallery table: the public and the admin queries, the record
 * `addGalleryImage` inserts with its defaults, and the results of the
 * update, delete and toggle calls. Store replies are parameters, as in
 * `LeadersApi`, whose defaulting helpers the insert shares.
 */
module GalleryApi {
  import opened Wrappers
  import opened Ordering
  import opened LeadersApi

  /** A row of the `gallery_images` table. */
  datatype GalleryImage = GalleryImage(
    id: string,
    createdAt: string,
    titleEn: string,
    titleKn: string,
    imageData: string,
    fileSize: Option<nat>,
    compressedSize: Option<int>,
    mimeType: string,
    displayOrder: int,
    isActive: bool)

  /** Display order ascending, then newest first. */
  predicate GalleryLe(a: GalleryImage, b: GalleryImage) {
    KeyLe((a.displayOrder, a.createdAt), (b.displayOrder, b.createdAt))
  }

  lemma GalleryOrderTotal()
    ensures TotalPreorder(GalleryLe)
  {
    forall a, b ensures GalleryLe(a, b) || GalleryLe(b, a) {
      KeyLeTotal((a.displayOrder, a.createdAt), (b.displayOrder, b.createdAt));
    }
    forall a, b, c | GalleryLe(a, b) && GalleryLe(b, c) ensures GalleryLe(a, c) {
      KeyLeTransitive((a.displayOrder, a.createdAt), (b.displayOrder, b.createdAt), (c.displayOrder, c.createdAt));
    }
  }

  /** `fetchGalleryImages`: the active rows in gallery order; nothing when unconfigured or on error. */
  function FetchGalleryImages(configured: bool, table: seq<GalleryImage>, error: bool): seq<GalleryImage> {
    if !configured || error then [] else SortBy(Where(table, (g: GalleryImage) => g.isActive), GalleryLe)
  }

  /** `fetchAllGalleryImages`: every row in gallery order; nothing when unconfigured or on error. */
  function FetchAllGalleryImages(configured: bool, table: seq<GalleryImage>, error: bool): seq<GalleryImage> {
    if !configured || error then [] else SortBy(table, GalleryLe)
  }

  lemma FetchGalleryImagesResult(configured: bool, table: seq<GalleryImage>, error: bool)
    ensures var rows := FetchGalleryImages(configured, table, error);
      if !configured || error then rows == []
      else (SortedBy(rows, GalleryLe)
            && forall g :: multiset(rows)[g] == if g.isActive then multiset(table)[g] else 0)
  {
    if configured && !error {
      GalleryOrderTotal();
      var active := Where(table, (g: GalleryImage) => g.isActive);
      SortBySorted(active, GalleryLe);
      forall g ensures multiset(FetchGalleryImages(configured, table, error))[g] == if g.isActive then multiset(table)[g] else 0 {
        WhereCount(table, (g: GalleryImage) => g.isActive, g);
      }
    }
  }

  lemma FetchAllGalleryImagesResult(configured: bool, table: seq<GalleryImage>, error: bool)
    ensures var rows := FetchAllGalleryImages(configured, table, error);
      if !configured || error then rows == []
      else SortedBy(rows, GalleryLe) && multiset(rows) == multiset(table)
  {
    if configured && !error {
      GalleryOrderTotal();
      SortBySorted(table, GalleryLe);
    }
  }

  /** The public query returns exactly the admin query's active rows. */
  lemma PublicIsActiveSubset(table: seq<GalleryImage>, g: GalleryImage)
    ensures g in FetchGalleryImages(true, table, false) <==> g in FetchAllGalleryImages(true, table, false) && g.isActive
  {
    SortByMembers(Where(table, (g: GalleryImage) => g.isActive), GalleryLe, g);
    SortByMembers(table, GalleryLe, g);
  }

  /** `AddGalleryImageParams`: optional members are `None` when absent. */
  datatype AddGalleryImageParams = AddGalleryImageParams(
    titleEn: string,
    titleKn: string,
    imageData: string,
    fileSize: Option<int>,
    compressedSize: Option<int>,
    mimeType: Option<string>,
    displayOrder: Option<int>,
    isActive: Option<bool>)

  /** The record `addGalleryImage` inserts. */
  datatype GalleryInsert = GalleryInsert(
    id: string,
    titleEn: string,
    titleKn: string,
    imageData: string,
    fileSize: Option<int>,
    compressedSize: Option<int>,
    mimeType: string,
    displayOrder: int,
    isActive: bool)

  function GalleryInsertOf(id: string, p: AddGalleryImageParams): (row: GalleryInsert)
    ensures row.id == id && row.titleEn == p.titleEn && row.titleKn == p.titleKn && row.imageData == p.imageData
    ensures row.fileSize == SizeOrNull(p.fileSize) && row.compressedSize == SizeOrNull(p.compressedSize)
    ensures row.mimeType == MimeOrJpeg(p.mimeType)
    ensures row.displayOrder == p.displayOrder.GetOr(0)
    ensures row.isActive == (p.isActive != Some(false))
  {
    GalleryInsert(id, p.titleEn, p.titleKn, p.imageData, SizeOrNull(p.fileSize), SizeOrNull(p.compressedSize),
      MimeOrJpeg(p.mimeType),
      if p.displayOrder.Some? && p.displayOrder.value != 0 then p.displayOrder.value else 0,
      if p.isActive.Some? then p.isActive.value else true)
  }

  /** `addGalleryImage`, with `id` standing for the generated UUID. */
  function AddGalleryImage(p: AddGalleryImageParams, configured: bool, id: string, error: Option<string>)
    : (r: (Outcome, Option<GalleryInsert>))
    ensures !configured ==> r == (Outcome(false, Some(NotConfigured), None), None)
    ensures configured ==> r.1 == Some(GalleryInsertOf(id, p))
    ensures configured ==> (r.0.success <==> error.None?)
    ensures configured && error.Some? ==> r.0.error == error && r.0.id.None?
    ensures configured && error.None? ==> r.0.id == Some(id) && r.0.error.None?
  {
    if !configured then (Outcome(false, Some(NotConfigured), None), None)
    else if error.Some? then (Outcome(false, Some(error.value), None), Some(GalleryInsertOf(id, p)))
    else (Outcome(true, None, Some(id)), Some(GalleryInsertOf(id, p)))
  }

  /** `toggleGalleryImageActive` applied to the table: only the active flag of the matching rows changes. */
  function ToggleWhereId(table: seq<GalleryImage>, id: string, isActive: bool): (r: seq<GalleryImage>)
    ensures |r| == |table|
    ensures forall i :: 0 <= i < |table| ==>
      r[i] == if table[i].id == id then table[i].(isActive := isActive) else table[i]
  {
    seq(|table|, i requires 0 <= i < |table| => if table[i].id == id then table[i].(isActive := isActive) else table[i])
  }

  /**
   * `toggleGalleryImageActive` (through `updateGalleryImage`) on the table:
   * success exactly when a client exists and the store reported no error,
   * and only then does the flag change.
   */
  function ToggleGalleryImageActive(table: seq<GalleryImage>, id: string, isActive: bool, configured: bool, error: bool)
    : (r: (bool, seq<GalleryImage>))
    ensures r.0 <==> configured && !error
    ensures r.0 ==> |r.1| == |table|
    ensures r.0 ==> forall i :: 0 <= i < |table| && table[i].id == id ==> r.1[i].isActive == isActive
    ensures r.0 ==> forall i :: 0 <= i < |table| && table[i].id != id ==> r.1[i] == table[i]
    ensures !r.0 ==> r.1 == table
  {
    if !configured || error then (false, table) else (true, ToggleWhereId(table, id, isActive))
  }

  /**
   * `deleteGalleryImage` on the table: on success no row with that id is
   * left and every other row stays; on failure nothing changes.
   */
  function DeleteGalleryImage(table: seq<GalleryImage>, id: string, configured: bool, error: bool)
    : (r: (bool, seq<GalleryImage>))
    ensures r.0 <==> configured && !error
    ensures r.0 ==> forall g :: g in r.1 <==> g in table && g.id != id
    ensures !r.0 ==> r.1 == table
  {
    if !configured || error then (false, table) else (true, Where(table, (g: GalleryImage) => g.id != id))
  }

  /** A successful delete keeps every copy of each image with another id and no copy of one with that id. */
  lemma DeleteGalleryImageCount(table: seq<GalleryImage>, id: string, configured: bool, error: bool, g: GalleryImage)
    ensures var r := DeleteGalleryImage(table, id, configured, error);
      r.0 ==> multiset(r.1)[g] == if g.id != id then multiset(table)[g] else 0
  {
    WhereCount(table, (x: GalleryImage) => x.id != id, g);
  }
}

=== FILE: gallery_image_form.dfy ===
/**
 * The admin form for adding a gallery image: two optional titles and a
 * required picture taken through the picker's gates and compression.
 */
module GalleryImageForm {
  import opened Wrappers
  import opened JsText
  import opened Types
  import opened ImageUtils
  import opened ImageUpload

  /** What `onSubmit` receives. */
  datatype GalleryPayload = GalleryPayload(
    titleEn: string,
    titleKn: string,
    imageData: string,
    fileSize: nat,
    compressedSize: int,
    mimeType: string)

  const ImageMissing := "Please upload an image"

  /** The payload: trimmed titles and the picture's payload, sizes and type. */
  function Payload(titleEn: string, titleKn: string, image: CompressedImage): GalleryPayload {
    GalleryPayload(Trim(titleEn), Trim(titleKn), image.base64, image.originalSize, image.compressedSize, image.mimeType)
  }

  /** The submitted titles carry no surrounding white space, and a blank title is submitted as empty. */
  lemma PayloadTitles(titleEn: string, titleKn: string, image: CompressedImage)
    ensures var p := Payload(titleEn, titleKn, image);
      Trim(p.titleEn) == p.titleEn && Trim(p.titleKn) == p.titleKn
      && (p.titleEn == [] <==> IsBlank(titleEn)) && (p.titleKn == [] <==> IsBlank(titleKn))
  {
    TrimIdempotent(titleEn);
    TrimIdempotent(titleKn);
    TrimEmptyIffBlank(titleEn);
    TrimEmptyIffBlank(titleKn);
  }

  class Form {
    var titleEn: string
    var titleKn: string
    var image: Option<CompressedImage>
    var isCompressing: bool
    var error: Option<string>
    /** The payloads handed to `onSubmit`, oldest first. */
    var submitted: seq<GalleryPayload>

    constructor()
      ensures titleEn == "" && titleKn == "" && image.None? && !isCompressing && error.None? && submitted == []
    {
      titleEn, titleKn := "", "";
      image := None;
      isCompressing := false;
      error := None;
      submitted := [];
    }

    /** `handleFileChange`: the picker's gates, in English only; a rejected or failed file keeps the current picture. */
    method HandleFileChange(file: Option<File>, decoding: Decoding, canvasOk: bool, encode: (real, real, real) -> string)
      requires decoding.Loaded? ==> decoding.width >= 0.0
      modifies this
      ensures titleEn == old(titleEn) && titleKn == old(titleKn) && submitted == old(submitted)
      ensures file.None? ==> image == old(image) && error == old(error) && isCompressing == old(isCompressing)
      ensures file.Some? && !IsValidImageType(file.value) ==>
        error == Some(InvalidType.en) && image == old(image) && isCompressing == old(isCompressing)
      ensures file.Some? && IsValidImageType(file.value) && !IsWithinSizeLimit(file.value, 10) ==>
        error == Some(TooLarge.en) && image == old(image) && isCompressing == old(isCompressing)
      ensures file.Some? && Accepted(file.value) ==>
        var c := Compress(file.value, decoding, canvasOk, encode);
        !isCompressing
        && (c.Resolved? ==> error.None? && image == Some(c.image))
        && (c.Rejected? ==> error == Some(ProcessFailed.en) && image == old(image))
    {
      if file.None? {
        return;
      }
      var f := file.value;
      error := None;
      if !IsValidImageType(f) {
        error := Some(InvalidType.en);
        return;
      }
      if !IsWithinSizeLimit(f, 10) {
        error := Some(TooLarge.en);
        return;
      }
      isCompressing := true;
      var c := CompressImage(f, Quality, MaxWidth, decoding, canvasOk, encode);
      match c {
        case Resolved(compressed) =>
          image := Some(compressed);
        case Rejected(_) =>
          error := Some(ProcessFailed.en);
      }
      isCompressing := false;
    }

    /** `handleRemoveImage`. */
    method HandleRemoveImage()
      modifies this
      ensures image.None? && error.None?
      ensures titleEn == old(titleEn) && titleKn == old(titleKn) && submitted == old(submitted)
        && isCompressing == old(isCompressing)
    {
      image := None;
      error := None;
    }

    /** `handleSubmit`: only a missing picture blocks submission; empty titles are accepted. */
    method HandleSubmit()
      modifies this
      ensures titleEn == old(titleEn) && titleKn == old(titleKn) && image == old(image)
        && isCompressing == old(isCompressing)
      ensures image.None? ==> error == Some(ImageMissing) && submitted == old(submitted)
      ensures image.Some? ==> error == old(error) && submitted == old(submitted) + [Payload(titleEn, titleKn, image.value)]
    {
      if image.None? {
        error := Some(ImageMissing);
        return;
      }
      var payload := Payload(titleEn, titleKn, image.value);
      submitted := submitted + [payload];
    }
  }
}

=== FILE: gallery_manager.dfy ===
/**
 * The admin list of gallery images: adding through the form, deleting
 * after confirmation, toggling visibility, and the "active / total" line.
 * Store calls are parameters; the local list changes only after a call
 * succeeds.
 */
module GalleryManager {
  import opened Wrappers
  import opened Ordering
  import opened GalleryApi

  function IsActive(): GalleryImage -> bool {
    (g: GalleryImage) => g.isActive
  }

  /** The number shown as "active" in the footer. */
  function ActiveCount(images: seq<GalleryImage>): nat {
    |Where(images, IsActive())|
  }

  /** The active count never exceeds the total, and reaches it exactly when every image is active. */
  lemma {:induction false} ActiveCountBounds(images: seq<GalleryImage>)
    ensures ActiveCount(images) <= |images|
    ensures ActiveCount(images) == |images| <==> forall i :: 0 <= i < |images| ==> images[i].isActive
  {
    if images != [] {
      ActiveCountBounds(images[1..]);
      assert forall i :: 1 <= i < |images| ==> images[i] == images[1..][i - 1];
    }
  }

  /** After a successful toggle every row with that id shows the new flag, and the others are as they were. */
  lemma ToggleSetsFlag(images: seq<GalleryImage>, id: string, isActive: bool, g: GalleryImage)
    ensures g in ToggleWhereId(images, id, isActive) && g.id == id ==> g.isActive == isActive
    ensures g.id != id ==> (g in ToggleWhereId(images, id, isActive) <==> g in images)
  {
    var r := ToggleWhereId(images, id, isActive);
    if g in r {
      var i :| 0 <= i < |r| && r[i] == g;
      assert r[i] == if images[i].id == id then images[i].(isActive := isActive) else images[i];
    }
    if g.id != id && g in images {
      var i :| 0 <= i < |images| && images[i] == g;
      assert r[i] == g;
    }
  }

  class Manager {
    var images: seq<GalleryImage>
    var showForm: bool
    var isSubmitting: bool
    var deletingId: Option<string>
    var togglingId: Option<string>
    /** The `alert` messages shown, oldest first. */
    var alerts: seq<string>

    /** The list as loaded by `fetchAllGalleryImages`. */
    constructor(loaded: seq<GalleryImage>)
      ensures images == loaded && !showForm && !isSubmitting && deletingId.None? && togglingId.None? && alerts == []
    {
      images := loaded;
      showForm, isSubmitting := false, false;
      deletingId, togglingId := None, None;
      alerts := [];
    }

    /**
     * `handleAddImage`: `result` is what `addGalleryImage` returned and
     * `reloaded` what the following `fetchAllGalleryImages` returns.
     */
    method HandleAddImage(result: Outcome, reloaded: seq<GalleryImage>)
      modifies this
      ensures !isSubmitting && deletingId == old(deletingId) && togglingId == old(togglingId)
      ensures result.success ==> !showForm && images == reloaded && alerts == old(alerts)
      ensures !result.success ==> (showForm == old(showForm) && images == old(images)
        && alerts == old(alerts) + [MessageOr(result.error, "Failed to add image")])
    {
      isSubmitting := true;
      isSubmitting := false;
      if result.success {
        showForm := false;
        images := reloaded;
      } else {
        alerts := alerts + [MessageOr(result.error, "Failed to add image")];
      }
    }

    /** `handleDelete`: `confirmed` is the dialog's answer and `success` what `deleteGalleryImage` returned. */
    method HandleDelete(id: string, confirmed: bool, success: bool)
      modifies this
      ensures showForm == old(showForm) && isSubmitting == old(isSubmitting) && togglingId == old(togglingId)
      ensures !confirmed ==> images == old(images) && alerts == old(alerts) && deletingId == old(deletingId)
      ensures confirmed ==> deletingId.None?
      ensures confirmed && success ==> (alerts == old(alerts)
        && images == Where(old(images), (g: GalleryImage) => g.id != id))
      ensures confirmed && !success ==> images == old(images) && alerts == old(alerts) + ["Failed to delete image"]
    {
      if !confirmed {
        return;
      }
      deletingId := Some(id);
      deletingId := None;
      if success {
        images := Where(images, (g: GalleryImage) => g.id != id);
      } else {
        alerts := alerts + ["Failed to delete image"];
      }
    }

    /** `handleToggleActive`: `success` is what `toggleGalleryImageActive` returned. */
    method HandleToggleActive(id: string, currentActive: bool, success: bool)
      modifies this
      ensures showForm == old(showForm) && isSubmitting == old(isSubmitting) && deletingId == old(deletingId)
      ensures togglingId.None?
      ensures success ==> images == ToggleWhereId(old(images), id, !currentActive) && alerts == old(alerts)
      ensures !success ==> images == old(images) && alerts == old(alerts) + ["Failed to update image status"]
    {
      togglingId := Some(id);
      togglingId := None;
      if success {
        var current := images;
        images := seq(|current|, i requires 0 <= i < |current| =>
          if current[i].id == id then current[i].(isActive := !currentActive) else current[i]);
      } else {
        alerts := alerts + ["Failed to update image status"];
      }
    }
  }
}

=== FILE: gallery_page.dfy ===
/**
 * The public gallery page: the loaded images and the index of the image
 * shown in the lightbox, `None` while it is closed. Next and previous step
 * through the images and wrap around at either end.
 */
module GalleryPage {
  import opened Wrappers
  import opened GalleryApi

  /**
   * `(i + 1) % n`. Both operands are non-negative, so JavaScript's
   * remainder and Dafny's agree.
   */
  function NextIndex(i: int, n: int): (j: int)
    requires 0 <= i < n
    ensures 0 <= j < n
    ensures j == if i == n - 1 then 0 else i + 1
  {
    (i + 1) % n
  }

  /** `(i - 1 + n) % n`; `i - 1 + n` is non-negative. */
  function PrevIndex(i: int, n: int): (j: int)
    requires 0 <= i < n
    ensures 0 <= j < n
    ensures j == if i == 0 then n - 1 else i - 1
  {
    (i - 1 + n) % n
  }

  /** Previous undoes next, and next undoes previous. */
  lemma NextPrevInverse(i: int, n: int)
    requires 0 <= i < n
    ensures PrevIndex(NextIndex(i, n), n) == i
    ensures NextIndex(PrevIndex(i, n), n) == i
  {
  }

  /** The index after `k` presses of next. */
  function Advance(i: int, n: int, k: nat): (j: int)
    requires 0 <= i < n
    ensures 0 <= j < n
  {
    if k == 0 then i else NextIndex(Advance(i, n, k - 1), n)
  }

  /** Up to `n` presses of next move the index `k` places on, wrapping once past the last image. */
  lemma {:induction false} AdvanceIs(i: int, n: int, k: nat)
    requires 0 <= i < n && k <= n
    ensures Advance(i, n, k) == if i + k < n then i + k else i + k - n
  {
    if k > 0 {
      AdvanceIs(i, n, k - 1);
    }
  }

  /** Image `j` is shown within fewer than `n` presses of next from image `i`. */
  predicate Reached(i: int, n: int, j: int)
    requires 0 <= i < n
  {
    exists k: nat :: k < n && Advance(i, n, k) == j
  }

  /** Pressing next `n` times comes back to the same image, and on the way every image is shown. */
  lemma Tour(i: int, n: int)
    requires 0 <= i < n
    ensures Advance(i, n, n as nat) == i
    ensures forall j :: 0 <= j < n ==> Reached(i, n, j)
  {
    AdvanceIs(i, n, n as nat);
    forall j | 0 <= j < n ensures Reached(i, n, j) {
      var k: nat := if j >= i then j - i else j - i + n;
      AdvanceIs(i, n, k);
      assert k < n && Advance(i, n, k) == j;
    }
  }

  class Page {
    var images: seq<GalleryImage>
    var loading: bool
    var selectedIndex: Option<int>

    /** A selected index names one of the loaded images. */
    predicate Valid()
      reads this
    {
      selectedIndex.Some? ==> 0 <= selectedIndex.value < |images|
    }

    /** `isOpen={selectedIndex !== null}`. */
    predicate IsOpen()
      reads this
    {
      selectedIndex.Some?
    }

    constructor()
      ensures images == [] && loading && selectedIndex.None?
      ensures Valid() && !IsOpen()
    {
      images := [];
      loading := true;
      selectedIndex := None;
    }

    /** `loadImages`: `data` is what `fetchGalleryImages` returned. */
    method LoadImages(data: seq<GalleryImage>)
      modifies this
      ensures images == data && !loading && selectedIndex == old(selectedIndex)
      ensures old(selectedIndex).None? ==> Valid()
    {
      loading := true;
      images := data;
      loading := false;
    }

    /** `handleImageClick`: the grid passes the index of an image it shows. */
    method HandleImageClick(index: int)
      requires 0 <= index < |images|
      modifies this
      ensures selectedIndex == Some(index) && images == old(images) && loading == old(loading)
      ensures IsOpen() && Valid()
    {
      selectedIndex := Some(index);
    }

    /** `handleCloseLightbox`. */
    method HandleCloseLightbox()
      modifies this
      ensures selectedIndex.None? && images == old(images) && loading == old(loading)
      ensures !IsOpen() && Valid()
    {
      selectedIndex := None;
    }

    /**
     * `handleNext`: nothing happens while no image is selected. The
     * lightbox offers the button only while it shows an image, so a
     * selected index is in range.
     */
    method HandleNext()
      requires Valid()
      modifies this
      ensures images == old(images) && loading == old(loading) && Valid()
      ensures old(selectedIndex).None? ==> selectedIndex.None?
      ensures old(selectedIndex).Some? ==> selectedIndex == Some(NextIndex(old(selectedIndex).value, |images|))
    {
      if selectedIndex.Some? {
        selectedIndex := Some((selectedIndex.value + 1) % |images|);
      }
    }

    /** `handlePrev`, under the same conditions as `handleNext`. */
    method HandlePrev()
      requires Valid()
      modifies this
      ensures images == old(images) && loading == old(loading) && Valid()
      ensures old(selectedIndex).None? ==> selectedIndex.None?
      ensures old(selectedIndex).Some? ==> selectedIndex == Some(PrevIndex(old(selectedIndex).value, |images|))
    {
      if selectedIndex.Some? {
        selectedIndex := Some((selectedIndex.value - 1 + |images|) % |images|);
      }
    }
  }
}

=== FILE: image_upload.dfy ===
/**
 * The image picker used by the public forms. A chosen file passes a type
 * gate, then a 10 MB size gate, and is then compressed to JPEG at quality
 * 0.8 and at most 1200 pixels wide; only a successful compression reaches
 * the parent through `onChange`. The browser's decoding and encoding come
 * in as parameters, as in `ImageUtils.CompressImage`.
 */
module ImageUpload {
  import opened Wrappers
  import opened Types
  import opened ImageUtils

  const InvalidType := BilingualText(
    "Please select a valid image (JPG, PNG, WebP)",
    "ದಯವಿಟ್ಟು ಮಾನ್ಯ ಚಿತ್ರವನ್ನು ಆಯ್ಕೆಮಾಡಿ (JPG, PNG, WebP)")
  const TooLarge := BilingualText(
    "File too large. Maximum 10MB allowed.",
    "ಫೈಲ್ ತುಂಬಾ ದೊಡ್ಡದು. ಗರಿಷ್ಠ 10MB ಅನುಮತಿಸಲಾಗಿದೆ.")
  const ProcessFailed := BilingualText(
    "Failed to process image. Please try again.",
    "ಚಿತ್ರವನ್ನು ಪ್ರಕ್ರಿಯೆಗೊಳಿಸಲು ವಿಫಲವಾಗಿದೆ. ದಯವಿಟ್ಟು ಮತ್ತೆ ಪ್ರಯತ್ನಿಸಿ.")

  /** The quality and the width limit every picker compresses with. */
  const Quality: real := 0.8
  const MaxWidth: real := 1200.0

  /** A file that passes both gates: an accepted image type, at most 10 MB. */
  predicate Accepted(file: File) {
    IsValidImageType(file) && IsWithinSizeLimit(file, 10)
  }

  /** What the picker settles with for a file that passed the gates. */
  function Compress(file: File, decoding: Decoding, canvasOk: bool, encode: (real, real, real) -> string): Compression
    requires decoding.Loaded? ==> decoding.width >= 0.0
  {
    Compressed(file, Quality, MaxWidth, decoding, canvasOk, encode)
  }

  /** A successful compression yields a JPEG no wider than 1200 pixels, measured from its own payload. */
  lemma CompressResult(file: File, decoding: Decoding, canvasOk: bool, encode: (real, real, real) -> string)
    requires decoding.Loaded? ==> decoding.width >= 0.0
    ensures Compress(file, decoding, canvasOk, encode).Resolved? <==> decoding.Loaded? && canvasOk
    ensures decoding.Loaded? && canvasOk ==>
      var img := Compress(file, decoding, canvasOk, encode).image;
      var (w, h) := Scaled(decoding.width, decoding.height, MaxWidth);
      w <= MaxWidth && img.base64 == encode(w, h, Quality)
      && img.mimeType == "image/jpeg" && img.originalSize == file.size
      && img.compressedSize == GetBase64Size(img.base64)
  {
    if decoding.Loaded? {
      ScaledCases(decoding.width, decoding.height, MaxWidth);
    }
  }

  class Upload {
    const lang: Language
    /** The picker's own message, shown when the parent passes none. */
    var localError: Option<string>
    var isCompressing: bool
    /** The values handed to `onChange`, oldest first. */
    var changes: seq<Option<CompressedImage>>

    constructor(lang: Language)
      ensures this.lang == lang && localError.None? && !isCompressing && changes == []
    {
      this.lang := lang;
      localError := None;
      isCompressing := false;
      changes := [];
    }

    /** `displayError`: `error || localError`, so an empty parent message does not hide the local one. */
    function DisplayError(error: Option<string>): (shown: Option<string>)
      reads this
      ensures error.Some? && error.value != "" ==> shown == error
      ensures error.None? || error.value == "" ==> shown == localError
    {
      if error.Some? && error.value != "" then error else localError
    }

    /**
     * `handleFileChange`. No file: nothing happens. Otherwise the local
     * message is cleared, the type gate runs before the size gate, and a
     * file that passes both is compressed; only a success reaches `onChange`.
     */
    method HandleFileChange(file: Option<File>, decoding: Decoding, canvasOk: bool, encode: (real, real, real) -> string)
      requires decoding.Loaded? ==> decoding.width >= 0.0
      modifies this
      ensures file.None? ==> localError == old(localError) && isCompressing == old(isCompressing) && changes == old(changes)
      ensures file.Some? && !IsValidImageType(file.value) ==>
        localError == Some(Pick(InvalidType, lang)) && changes == old(changes) && isCompressing == old(isCompressing)
      ensures file.Some? && IsValidImageType(file.value) && !IsWithinSizeLimit(file.value, 10) ==>
        localError == Some(Pick(TooLarge, lang)) && changes == old(changes) && isCompressing == old(isCompressing)
      ensures file.Some? && Accepted(file.value) ==>
        var c := Compress(file.value, decoding, canvasOk, encode);
        !isCompressing
        && (c.Resolved? ==> localError.None? && changes == old(changes) + [Some(c.image)])
        && (c.Rejected? ==> localError == Some(Pick(ProcessFailed, lang)) && changes == old(changes))
      // a rejection is what the picker shows whenever the parent passes no message of its own
      ensures file.Some? && (!Accepted(file.value) || Compress(file.value, decoding, canvasOk, encode).Rejected?) ==>
        localError.Some? && DisplayError(None) == localError && DisplayError(Some("")) == localError
    {
      if file.None? {
        return;
      }
      var f := file.value;
      localError := None;
      if !IsValidImageType(f) {
        localError := Some(Pick(InvalidType, lang));
        return;
      }
      if !IsWithinSizeLimit(f, 10) {
        localError := Some(Pick(TooLarge, lang));
        return;
      }
      isCompressing := true;
      var c := CompressImage(f, Quality, MaxWidth, decoding, canvasOk, encode);
      match c {
        case Resolved(image) =>
          changes := changes + [Some(image)];
        case Rejected(_) =>
          localError := Some(Pick(ProcessFailed, lang));
      }
      isCompressing := false;
    }

    /** `handleRemove`: the parent is told the image is gone and the local message is cleared. */
    method HandleRemove()
      modifies this
      ensures changes == old(changes) + [None]
      ensures localError.None? && isCompressing == old(isCompressing)
    {
      changes := changes + [None];
      localError := None;
    }
  }
}

=== FILE: image_utils.dfy ===
/**
 * Image helpers: the payload size of a base64 data URL, the accepted image
 * types, the upload size limit, the `doc_` prefix of document fields, and
 * the resize rule and result record of the browser-side JPEG compressor.
 * Decoding, drawing and encoding happen in the browser and reach the model
 * as parameters.
 */
module ImageUtils {
  import opened Wrappers
  import opened JsText
  import opened Types

  /** The part of a browser `File` the helpers look at. */
  datatype File = File(mimeType: string, size: nat)

  // ---------------------------------------------------------------------------
  // getBase64Size

  /** `s.split(',')[1]`: the text between the first and the second comma, absent without a comma. */
  function SecondPiece(s: string): (r: Option<string>)
    ensures r.None? <==> forall i :: 0 <= i < |s| ==> s[i] != ','
  {
    if s == [] then None
    else if s[0] == ',' then Some(FirstPiece(s[1..]))
    else SecondPiece(s[1..])
  }

  /** The text before the first comma, or all of `s`. */
  function FirstPiece(s: string): (r: string)
    ensures |r| <= |s| && r == s[..|r|]
    ensures forall i :: 0 <= i < |r| ==> r[i] != ','
    ensures |r| < |s| ==> s[|r|] == ','
  {
    if s == [] || s[0] == ',' then [] else [s[0]] + FirstPiece(s[1..])
  }

  /** `base64.split(',')[1] || base64`: the segment that is measured. */
  function MeasuredSegment(s: string): string {
    match SecondPiece(s)
    case Some(p) => if p != [] then p else s
    case None => s
  }

  function CountChar(s: string, c: char): (n: nat)
    ensures n <= |s|
  {
    if s == [] then 0 else (if s[0] == c then 1 else 0) + CountChar(s[1..], c)
  }

  /**
   * `getBase64Size`: three bytes for every four characters of the measured
   * segment (rounded down), less one for every `=` anywhere in it. There is
   * no floor at zero.
   */
  function GetBase64Size(base64: string): int {
    var data := MeasuredSegment(base64);
    (JsLength(data) * 3) / 4 - CountChar(data, '=')
  }

  predicate NoComma(s: string) {
    forall i :: 0 <= i < |s| ==> s[i] != ','
  }

  /** A data URL (section 3 of RFC 2397) is measured by its payload after the comma. */
  lemma {:induction false} SegmentOfDataUrl(prefix: string, payload: string)
    requires NoComma(prefix) && NoComma(payload) && payload != []
    ensures MeasuredSegment(prefix + "," + payload) == payload
  {
    var s := prefix + "," + payload;
    if prefix == [] {
      assert s == "," + payload && s[1..] == payload;
      FirstPieceAll(payload);
    } else {
      assert s[0] == prefix[0] && s[1..] == prefix[1..] + "," + payload;
      SegmentOfDataUrl(prefix[1..], payload);
    }
  }

  lemma {:induction false} FirstPieceAll(s: string)
    requires NoComma(s)
    ensures FirstPiece(s) == s
  {
    if s != [] {
      FirstPieceAll(s[1..]);
    }
  }

  /** Text without a comma, or with nothing between its first two commas, is measured whole. */
  lemma SegmentWhole(s: string)
    requires NoComma(s) || (SecondPiece(s).Some? && SecondPiece(s).value == [])
    ensures MeasuredSegment(s) == s
  {
  }

  lemma {:induction false} CountCharAppend(a: string, b: string, c: char)
    ensures CountChar(a + b, c) == CountChar(a, c) + CountChar(b, c)
  {
    if a == [] {
      assert a + b == b;
    } else {
      assert (a + b)[0] == a[0] && (a + b)[1..] == a[1..] + b;
      CountCharAppend(a[1..], b, c);
    }
  }

  lemma {:induction false} CountCharNone(s: string, c: char)
    requires forall i :: 0 <= i < |s| ==> s[i] != c
    ensures CountChar(s, c) == 0
  {
    if s != [] {
      CountCharNone(s[1..], c);
    }
  }

  lemma {:induction false} CountCharAll(s: string, c: char)
    requires forall i :: 0 <= i < |s| ==> s[i] == c
    ensures CountChar(s, c) == |s|
  {
    if s != [] {
      CountCharAll(s[1..], c);
    }
  }

  /**
   * For a well-formed payload (section 4 of RFC 4648: 4k characters of which
   * the last p <= 2 are `=`), the size is the decoded byte count 3k - p.
   */
  lemma Base64SizeOfPadded(body: string, pad: string, k: nat)
    requires |body| + |pad| == 4 * k && |pad| <= 2
    requires forall i :: 0 <= i < |pad| ==> pad[i] == '='
    requires forall i :: 0 <= i < |body| ==> body[i] != '=' && body[i] != ',' && body[i] as int < 128
    ensures GetBase64Size(body + pad) == 3 * k - |pad|
  {
    var s := body + pad;
    assert NoComma(s) by {
      forall i | 0 <= i < |s| ensures s[i] != ',' {
        if i >= |body| {
          assert s[i] == pad[i - |body|];
        }
      }
    }
    SegmentWhole(s);
    JsLengthOfBmp(s);
    CountCharAppend(body, pad, '=');
    CountCharNone(body, '=');
    CountCharAll(pad, '=');
  }

  /** With the data-URL prefix in front, the size is still that of the payload. */
  lemma Base64SizeOfDataUrl(prefix: string, body: string, pad: string, k: nat)
    requires NoComma(prefix) && k >= 1
    requires |body| + |pad| == 4 * k && |pad| <= 2
    requires forall i :: 0 <= i < |pad| ==> pad[i] == '='
    requires forall i :: 0 <= i < |body| ==> body[i] != '=' && body[i] != ',' && body[i] as int < 128
    ensures GetBase64Size(prefix + "," + (body + pad)) == 3 * k - |pad|
  {
    var s := body + pad;
    assert NoComma(s) by {
      forall i | 0 <= i < |s| ensures s[i] != ',' {
        if i >= |body| {
          assert s[i] == pad[i - |body|];
        }
      }
    }
    SegmentOfDataUrl(prefix, s);
    Base64SizeOfPadded(body, pad, k);
  }

  /** A malformed segment can give a negative size: four `=` measure as -1. */
  lemma Base64SizeNegative()
    ensures GetBase64Size("====") == -1
  {
    assert NoComma("====");
    SegmentWhole("====");
    CountCharAll("====", '=');
    JsLengthOfBmp("====");
  }

  // ---------------------------------------------------------------------------
  // Type and size gates

  const ValidTypes: seq<string> := ["image/jpeg", "image/jpg", "image/png", "image/webp", "image/heic", "image/heif"]

  /** `isValidImageType`: the lower-cased MIME type is one of the six accepted ones. */
  function IsValidImageType(file: File): (r: bool)
    ensures r <==> ToLower(file.mimeType) in ValidTypes
  {
    ToLower(file.mimeType) in ValidTypes
  }

  /** Upper-case spellings of an accepted type are accepted; other image types are not. */
  lemma ValidTypeExamples()
    ensures IsValidImageType(File("IMAGE/PNG", 1))
    ensures IsValidImageType(File("image/heic", 1))
    ensures !IsValidImageType(File("image/gif", 1))
    ensures !IsValidImageType(File("", 1))
  {
    assert ToLower("IMAGE/PNG") == "image/png";
    assert ToLower("image/heic") == "image/heic";
    assert ToLower("image/gif") == "image/gif";
  }

  /** The gate ignores letter case and the file's size: a lower-cased type is judged as the type itself. */
  lemma ValidTypeIgnoresCase(mime: string, size: nat, otherSize: nat)
    ensures IsValidImageType(File(ToLower(mime), otherSize)) == IsValidImageType(File(mime, size))
  {
    assert ToLower(ToLower(mime)) == ToLower(mime);
  }

  /** Every accepted type is an `image/` type. */
  lemma ValidTypeIsImage(file: File)
    requires IsValidImageType(file)
    ensures StartsWith(ToLower(file.mimeType), "image/")
  {
  }

  const Megabyte: nat := 1024 * 1024

  /** `isWithinSizeLimit`: at most `maxSizeMB` mebibytes, the limit itself included. */
  function IsWithinSizeLimit(file: File, maxSizeMB: nat := 10): (r: bool)
    ensures r <==> file.size <= maxSizeMB * 1048576
  {
    file.size <= maxSizeMB * Megabyte
  }

  /** A file within a limit is within every larger limit, and so is every file no larger than it. */
  lemma SizeLimitMonotone(file: File, other: File, maxSizeMB: nat, largerMB: nat)
    requires IsWithinSizeLimit(file, maxSizeMB)
    ensures maxSizeMB <= largerMB ==> IsWithinSizeLimit(file, largerMB)
    ensures other.size <= file.size ==> IsWithinSizeLimit(other, maxSizeMB)
  {
  }

  /** The default limit is 10 MiB inclusive. */
  lemma SizeLimitBoundary(mime: string)
    ensures IsWithinSizeLimit(File(mime, 10485760))
    ensures !IsWithinSizeLimit(File(mime, 10485761))
  {
  }

  // ---------------------------------------------------------------------------
  // getDocumentTypeFromFieldId

  /** `fieldId.replace(/^doc_/, '')`: one leading `doc_` is removed. */
  function GetDocumentTypeFromFieldId(fieldId: string): (r: string)
    ensures StartsWith(fieldId, "doc_") ==> fieldId == "doc_" + r
    ensures !StartsWith(fieldId, "doc_") ==> r == fieldId
  {
    if StartsWith(fieldId, "doc_") then fieldId[4..] else fieldId
  }

  /** Prefixing and stripping are inverse, and only one prefix is stripped. */
  lemma DocumentTypeRoundTrip(docType: string)
    ensures GetDocumentTypeFromFieldId("doc_" + docType) == docType
  {
    assert ("doc_" + docType)[..4] == "doc_";
  }

  // ---------------------------------------------------------------------------
  // compressImage

  /**
   * The resize rule: a picture wider than `maxWidth` is narrowed to
   * `maxWidth` and its height scaled in proportion; any other picture keeps
   * its size. Only the width is capped.
   */
  function Scaled(width: real, height: real, maxWidth: real): (r: (real, real))
    requires width >= 0.0 && maxWidth >= 0.0
  {
    if width > maxWidth then (maxWidth, height * maxWidth / width) else (width, height)
  }

  /** The new width is the smaller of the two, the aspect ratio is kept, and nothing grows. */
  lemma ScaledProperties(width: real, height: real, maxWidth: real)
    requires width >= 0.0 && height >= 0.0 && maxWidth >= 0.0
    ensures var (w, h) := Scaled(width, height, maxWidth);
      w == (if width < maxWidth then width else maxWidth)
      && h * width == height * w
      && w <= width && 0.0 <= h <= height
  {
    if width > maxWidth {
      var h := height * maxWidth / width;
      calc {
        h * width;
        height * maxWidth;
      <= { MulMonotone(maxWidth, width, height); }
        height * width;
      }
      DivBound(h, height, width);
    }
  }

  lemma MulMonotone(a: real, b: real, c: real)
    requires a <= b && c >= 0.0
    ensures c * a <= c * b
  {
  }

  lemma DivBound(a: real, b: real, c: real)
    requires c > 0.0 && a * c <= b * c
    ensures a <= b
  {
  }

  lemma ScaledCases(width: real, height: real, maxWidth: real)
    requires width >= 0.0 && maxWidth >= 0.0
    ensures width > maxWidth ==> Scaled(width, height, maxWidth) == (maxWidth, height * maxWidth / width)
    ensures width <= maxWidth ==> Scaled(width, height, maxWidth) == (width, height)
  {
  }

  /** A tall, narrow picture is not reduced at all: its height stays above the width limit. */
  lemma TallImageNotCapped()
    ensures Scaled(100.0, 5000.0, 1200.0) == (100.0, 5000.0)
  {
  }

  /** How the browser got on with the file: reading it, then decoding it as an image. */
  datatype Decoding = ReadFailed | LoadFailed | Loaded(width: real, height: real)

  /** The promise `compressImage` returns: resolved with a payload or rejected with a message. */
  datatype Compression = Resolved(image: CompressedImage) | Rejected(message: string)

  /**
   * What `compressImage` settles with: the first failing stage's message, or
   * the picture encoded at its scaled size, measured, and labelled JPEG.
   */
  function Compressed(file: File, quality: real, maxWidth: real, decoding: Decoding, canvasOk: bool,
                      encode: (real, real, real) -> string): Compression
    requires maxWidth >= 0.0
    requires decoding.Loaded? ==> decoding.width >= 0.0
  {
    match decoding
    case ReadFailed => Rejected("Failed to read file")
    case LoadFailed => Rejected("Failed to load image")
    case Loaded(w, h) =>
      if !canvasOk then Rejected("Failed to get canvas context")
      else
        var (sw, sh) := Scaled(w, h, maxWidth);
        var base64 := encode(sw, sh, quality);
        Resolved(CompressedImage(base64, file.size, GetBase64Size(base64), "image/jpeg"))
  }

  /**
   * `compressImage`. `decoding` says how reading and decoding went,
   * `canvasOk` whether a 2-D drawing context was available, and `encode`
   * stands for drawing at the given width and height and calling
   * `toDataURL('image/jpeg', quality)`.
   */
  method CompressImage(file: File, quality: real, maxWidth: real, decoding: Decoding, canvasOk: bool,
                       encode: (real, real, real) -> string)
    returns (r: Compression)
    requires maxWidth >= 0.0
    requires decoding.Loaded? ==> decoding.width >= 0.0
    ensures decoding.ReadFailed? ==> r == Rejected("Failed to read file")
    ensures decoding.LoadFailed? ==> r == Rejected("Failed to load image")
    ensures decoding.Loaded? && !canvasOk ==> r == Rejected("Failed to get canvas context")
    ensures decoding.Loaded? && canvasOk ==>
      var (w, h) := Scaled(decoding.width, decoding.height, maxWidth);
      r.Resolved?
      && r.image.base64 == encode(w, h, quality)
      && r.image.originalSize == file.size
      && r.image.compressedSize == GetBase64Size(r.image.base64)
      && r.image.mimeType == "image/jpeg"
    ensures r == Compressed(file, quality, maxWidth, decoding, canvasOk, encode)
  {
    match decoding
    case ReadFailed =>
      return Rejected("Failed to read file");
    case LoadFailed =>
      return Rejected("Failed to load image");
    case Loaded(w0, h0) =>
      var width := w0;
      var height := h0;
      ScaledCases(w0, h0, maxWidth);
      if width > maxWidth {
        height := height * maxWidth / width;
        width := maxWidth;
      }
      if !canvasOk {
        return Rejected("Failed to get canvas context");
      }
      var base64 := encode(width, height, quality);
      return Resolved(CompressedImage(base64, file.size, GetBase64Size(base64), "image/jpeg"));
  }
}

=== FILE: issue_api.dfy ===
/**
 * Submitting a reported civic issue: the issue row is stored first, then
 * the attached images as rows of their own. Only a failure of the first
 * insert fails the submission; a failed document insert is tolerated. The
 * store's answers, and the generated issue id, come in as parameters.
 */
module IssueApi {
  import opened Wrappers
  import opened Types

  /** `IssueFormData`: what the report form hands over. Coordinates are `number`s. */
  datatype IssueFormData = IssueFormData(
    name: string,
    mobile: string,
    category: string,
    customCategory: Option<string>,
    description: string,
    locationText: string,
    latitude: Option<real>,
    longitude: Option<real>,
    issuePhoto: Option<CompressedImage>,
    aadhaar: Option<CompressedImage>)

  /** A row of the `issues` table as inserted. */
  datatype IssueRow = IssueRow(
    id: string,
    reporterName: string,
    mobileNumber: string,
    category: string,
    customCategory: Option<string>,
    description: string,
    locationText: string,
    latitude: Option<real>,
    longitude: Option<real>)

  /** `DocumentData`: an image and the type and name it is filed under. */
  datatype DocumentData = DocumentData(documentType: string, documentName: string, data: CompressedImage)

  /** A row of the `issue_documents` table as inserted. */
  datatype DocumentRow = DocumentRow(
    issueId: string,
    documentType: string,
    documentName: string,
    imageData: string,
    fileSize: nat,
    mimeType: string)

  const FailedMessage := "Failed to submit issue"

  /** `x || null` on an optional string: an empty string is dropped too. */
  function NonEmpty(s: Option<string>): (r: Option<string>)
    ensures r.Some? <==> s.Some? && s.value != ""
    ensures r.Some? ==> r == s
  {
    if s.Some? && s.value != "" then s else None
  }

  /** `x || null` on an optional number: zero is dropped too. */
  function NonZero(x: Option<real>): (r: Option<real>)
    ensures r.Some? <==> x.Some? && x.value != 0.0
    ensures r.Some? ==> r == x
  {
    if x.Some? && x.value != 0.0 then x else None
  }

  /**
   * The `|| null` defaults lose only the difference between absent and empty
   * (or zero): read back with the same default, every value is the one
   * submitted, and applying the default again changes nothing.
   */
  lemma NullDefaults(s: Option<string>, x: Option<real>)
    ensures NonEmpty(s).GetOr("") == s.GetOr("")
    ensures NonZero(x).GetOr(0.0) == x.GetOr(0.0)
    ensures NonEmpty(NonEmpty(s)) == NonEmpty(s) && NonZero(NonZero(x)) == NonZero(x)
  {
  }

  /** The `issues` row of `submitIssue`: the form's columns under the given id, optional ones through `|| null`. */
  function IssueRowOf(f: IssueFormData, id: string): (r: IssueRow)
    ensures r.id == id && r.reporterName == f.name && r.mobileNumber == f.mobile && r.category == f.category
    ensures r.description == f.description && r.locationText == f.locationText
    ensures r.customCategory.GetOr("") == f.customCategory.GetOr("") && (r.customCategory.Some? ==> r.customCategory.value != "")
    ensures r.latitude.GetOr(0.0) == f.latitude.GetOr(0.0) && (r.latitude.Some? ==> r.latitude.value != 0.0)
    ensures r.longitude.GetOr(0.0) == f.longitude.GetOr(0.0) && (r.longitude.Some? ==> r.longitude.value != 0.0)
  {
    IssueRow(id, f.name, f.mobile, f.category, NonEmpty(f.customCategory), f.description, f.locationText,
      NonZero(f.latitude), NonZero(f.longitude))
  }

  function DocumentRowOf(issueId: string, d: DocumentData): (r: DocumentRow)
    ensures r.issueId == issueId && r.documentType == d.documentType
    ensures r.imageData == d.data.base64 && r.fileSize == d.data.originalSize && r.mimeType == d.data.mimeType
  {
    DocumentRow(issueId, d.documentType, d.documentName, d.data.base64, d.data.originalSize, d.data.mimeType)
  }

  /** The documents an issue carries: the photo first, then the Aadhaar card, each only when attached. */
  method CollectDocuments(f: IssueFormData) returns (documents: seq<DocumentData>)
    ensures |documents| <= 2
    ensures |documents| == (if f.issuePhoto.Some? then 1 else 0) + (if f.aadhaar.Some? then 1 else 0)
    ensures f.issuePhoto.Some? ==> documents[0] == DocumentData("issue_photo", "Issue Photo", f.issuePhoto.value)
    ensures f.aadhaar.Some? ==> documents[|documents| - 1] == DocumentData("aadhaar", "Aadhaar Card", f.aadhaar.value)
  {
    documents := [];
    if f.issuePhoto.Some? {
      documents := documents + [DocumentData("issue_photo", "Issue Photo", f.issuePhoto.value)];
    }
    if f.aadhaar.Some? {
      documents := documents + [DocumentData("aadhaar", "Aadhaar Card", f.aadhaar.value)];
    }
  }

  /**
   * `submitIssue`. Returns the outcome together with the issue row and the
   * document rows handed to the store (`None`/empty when nothing was sent).
   */
  method SubmitIssue(f: IssueFormData, configured: bool, issueId: string, issueReply: Reply, docsReply: Reply)
    returns (result: Outcome, issueSent: Option<IssueRow>, docsSent: seq<DocumentRow>)
    ensures !configured ==> result == Outcome(true, None, None) && issueSent.None? && docsSent == []
    ensures configured ==> issueSent == Some(IssueRowOf(f, issueId))
    // the issue insert decides failure, and then no document is sent
    ensures configured && issueReply.Failed? ==> result == Outcome(false, Some(issueReply.message), None) && docsSent == []
    ensures configured && issueReply.Threw? ==> result == Outcome(false, Some(FailedMessage), None) && docsSent == []
    // the documents share the issue's id and carry the image payloads
    ensures configured && issueReply.Ok? ==>
      |docsSent| == (if f.issuePhoto.Some? then 1 else 0) + (if f.aadhaar.Some? then 1 else 0)
      && (forall i :: 0 <= i < |docsSent| ==> docsSent[i].issueId == issueId)
      && (f.issuePhoto.Some? ==> docsSent[0] == DocumentRowOf(issueId, DocumentData("issue_photo", "Issue Photo", f.issuePhoto.value)))
      && (f.aadhaar.Some? ==> docsSent[|docsSent| - 1] == DocumentRowOf(issueId, DocumentData("aadhaar", "Aadhaar Card", f.aadhaar.value)))
    // a failed document insert is tolerated; only an exception fails the submission
    ensures configured && issueReply.Ok? ==>
      result == (if docsSent != [] && docsReply.Threw? then Outcome(false, Some(FailedMessage), None) else Outcome(true, None, None))
  {
    if !configured {
      return Outcome(true, None, None), None, [];
    }
    var documents := CollectDocuments(f);
    var row := IssueRowOf(f, issueId);
    issueSent := Some(row);
    docsSent := [];
    match issueReply {
      case Failed(message) =>
        return Outcome(false, Some(message), None), issueSent, [];
      case Threw =>
        return Outcome(false, Some(FailedMessage), None), issueSent, [];
      case Ok =>
    }
    if |documents| > 0 {
      docsSent := seq(|documents|, i requires 0 <= i < |documents| => DocumentRowOf(issueId, documents[i]));
      if docsReply.Threw? {
        return Outcome(false, Some(FailedMessage), None), issueSent, docsSent;
      }
    }
    result := Outcome(true, None, None);
  }
}

=== FILE: issue_categories.dfy ===
/**
 * The fixed list of civic issue categories, with the lookups that find a
 * category by id and name it in either language.
 */
module IssueCategories {
  import opened Wrappers
  import opened Types

  datatype IssueCategory = IssueCategory(id: string, name: BilingualText, icon: string)

  const Categories: seq<IssueCategory> := [
    IssueCategory("road", BilingualText("Road/Pothole", "ರಸ್ತೆ/ಗುಂಡಿ"), "Construction"),
    IssueCategory("water", BilingualText("Water Supply", "ನೀರು ಪೂರೈಕೆ"), "Droplets"),
    IssueCategory("electricity", BilingualText("Electricity", "ವಿದ್ಯುತ್"), "Zap"),
    IssueCategory("sanitation", BilingualText("Sanitation/Drainage", "ನೈರ್ಮಲ್ಯ/ಒಳಚರಂಡಿ"), "Pipette"),
    IssueCategory("streetlight", BilingualText("Street Light", "ಬೀದಿ ದೀಪ"), "Lightbulb"),
    IssueCategory("garbage", BilingualText("Garbage", "ಕಸ"), "Trash2"),
    IssueCategory("other", BilingualText("Other", "ಇತರೆ"), "HelpCircle")
  ]

  /** The ids, in list order. */
  function CategoryIds(): (ids: seq<string>)
    ensures |ids| == |Categories|
    ensures forall i :: 0 <= i < |Categories| ==> ids[i] == Categories[i].id
  {
    seq(|Categories|, i requires 0 <= i < |Categories| => Categories[i].id)
  }

  /** Seven categories with distinct ids, `other` last. */
  lemma CategoriesShape()
    ensures |Categories| == 7
    ensures CategoryIds() == ["road", "water", "electricity", "sanitation", "streetlight", "garbage", "other"]
    ensures forall i, j :: 0 <= i < j < |Categories| ==> Categories[i].id != Categories[j].id
    ensures Categories[|Categories| - 1].id == "other"
  {
    var ids := CategoryIds();
    assert ids == ["road", "water", "electricity", "sanitation", "streetlight", "garbage", "other"];
    forall i, j | 0 <= i < j < |Categories| ensures Categories[i].id != Categories[j].id {
      assert Categories[i].id == ids[i] && Categories[j].id == ids[j];
      assert ids[i][0] != ids[j][0] || ids[i][1] != ids[j][1] || |ids[i]| != |ids[j]|;
    }
  }

  /** `find`: the first category of `cs` with that id. */
  function Find(cs: seq<IssueCategory>, id: string): (r: Option<IssueCategory>)
    ensures r.Some? ==> r.value in cs && r.value.id == id
    ensures r.None? <==> forall i :: 0 <= i < |cs| ==> cs[i].id != id
    ensures r.Some? ==> exists i :: 0 <= i < |cs| && cs[i] == r.value && forall j :: 0 <= j < i ==> cs[j].id != id
  {
    if cs == [] then None
    else if cs[0].id == id then Some(cs[0])
    else
      var r := Find(cs[1..], id);
      if r.Some? then
        var k :| 0 <= k < |cs[1..]| && cs[1..][k] == r.value && forall j :: 0 <= j < k ==> cs[1..][j].id != id;
        assert cs[k + 1] == r.value;
        r
      else r
  }

  /** `getCategoryById`. */
  function CategoryById(id: string): Option<IssueCategory> {
    Find(Categories, id)
  }

  /** `getCategoryName(id, language = 'en')`: the category's name, or the id itself when no category has it. */
  function CategoryName(id: string, lang: Language := En): (name: string)
    ensures CategoryById(id).Some? ==> name == Pick(CategoryById(id).value.name, lang)
    ensures CategoryById(id).None? ==> name == id
  {
    var c := CategoryById(id);
    if c.Some? then Pick(c.value.name, lang) else id
  }

  /** Every listed id is found, and found as its own category, because the ids are distinct. */
  lemma CategoryByIdOfListed(i: nat)
    requires i < |Categories|
    ensures CategoryById(Categories[i].id) == Some(Categories[i])
  {
    CategoriesShape();
    var c := CategoryById(Categories[i].id);
    var k :| 0 <= k < |Categories| && Categories[k] == c.value && forall j :: 0 <= j < k ==> Categories[j].id != Categories[i].id;
    assert !(i < k);
  }

  /** An id that is not listed names itself, in either language. */
  lemma UnknownIdNamesItself(id: string, lang: Language)
    requires id !in CategoryIds()
    ensures CategoryName(id, lang) == id
  {
  }
}

=== FILE: issue_form.dfy ===
/**
 * The civic-issue report form: six text answers, the optional GPS fix, the
 * two images, and the error shown under each input. Validation runs the
 * checks in a fixed order and each check writes its own key, so the error
 * map lists the failing inputs in that order.
 */
module IssueForm {
  import opened Wrappers
  import opened JsText
  import opened Types
  import opened IssueApi

  /** The six text answers, updated by spreading a new value over one key. */
  datatype Answers = Answers(
    name: string,
    mobile: string,
    category: string,
    customCategory: string,
    description: string,
    locationText: string)

  /** The keys `handleInputChange` is called with. */
  datatype Key = Name | Mobile | Category | CustomCategory | Description | LocationText

  function KeyName(k: Key): string {
    match k
    case Name => "name"
    case Mobile => "mobile"
    case Category => "category"
    case CustomCategory => "customCategory"
    case Description => "description"
    case LocationText => "locationText"
  }

  function Read(a: Answers, k: Key): string {
    match k
    case Name => a.name
    case Mobile => a.mobile
    case Category => a.category
    case CustomCategory => a.customCategory
    case Description => a.description
    case LocationText => a.locationText
  }

  /** `{ ...prev, [field]: value }`. */
  function Write(a: Answers, k: Key, v: string): (r: Answers)
    ensures Read(r, k) == v
    ensures forall other :: other != k ==> Read(r, other) == Read(a, other)
  {
    match k
    case Name => a.(name := v)
    case Mobile => a.(mobile := v)
    case Category => a.(category := v)
    case CustomCategory => a.(customCategory := v)
    case Description => a.(description := v)
    case LocationText => a.(locationText := v)
  }

  /** `/^[6-9]\d{9}$/`: ten ASCII digits, the first of them 6 to 9. */
  predicate MobilePattern(s: string) {
    |s| == 10 && '6' <= s[0] <= '9' && AllDigits(s)
  }

  /** What a keystroke in the mobile input keeps: its digits, at most the first ten. */
  function SanitiseMobile(raw: string): string {
    var d := DigitsOnly(raw);
    if |d| <= 10 then d else d[..10]
  }

  /** The stored mobile text is at most ten digits, and sanitising it again changes nothing. */
  lemma SanitiseMobileShape(raw: string)
    ensures AllDigits(SanitiseMobile(raw)) && |SanitiseMobile(raw)| <= 10
    ensures SanitiseMobile(SanitiseMobile(raw)) == SanitiseMobile(raw)
    ensures |DigitsOnly(raw)| <= 10 ==> SanitiseMobile(raw) == DigitsOnly(raw)
  {
    var r := SanitiseMobile(raw);
    KeepAll(r, IsDigit);
  }

  /** A sanitised input passes the pattern exactly when it has ten digits and starts with 6 to 9. */
  lemma SanitisedMobileValid(raw: string)
    ensures var m := SanitiseMobile(raw);
      MobilePattern(m) <==> |m| == 10 && '6' <= m[0] <= '9'
  {
    SanitiseMobileShape(raw);
  }

  const NameRequired := BilingualText("Name is required", "ಹೆಸರು ಅಗತ್ಯವಿದೆ")
  const MobileRequired := BilingualText("Mobile number is required", "ಮೊಬೈಲ್ ಸಂಖ್ಯೆ ಅಗತ್ಯವಿದೆ")
  const MobileInvalid := BilingualText("Enter valid 10-digit mobile", "ಮಾನ್ಯ 10-ಅಂಕಿಯ ಮೊಬೈಲ್ ನಮೂದಿಸಿ")
  const CategoryRequired := BilingualText("Select a category", "ವರ್ಗವನ್ನು ಆಯ್ಕೆಮಾಡಿ")
  const CustomCategoryRequired := BilingualText("Specify the category", "ವರ್ಗವನ್ನು ನಿರ್ದಿಷ್ಟಪಡಿಸಿ")
  const DescriptionRequired := BilingualText("Description is required", "ವಿವರಣೆ ಅಗತ್ಯವಿದೆ")
  const LocationRequired := BilingualText("Location is required", "ಸ್ಥಳ ಅಗತ್ಯವಿದೆ")
  const AadhaarRequired := BilingualText("Aadhaar card is required", "ಆಧಾರ್ ಕಾರ್ಡ್ ಅಗತ್ಯವಿದೆ")

  /**
   * `if (!s.trim())`: the message when the text is empty after trimming,
   * that is, when it is all white space (`JsText.TrimEmptyIffBlank`).
   */
  function Blank(s: string, message: BilingualText): Option<BilingualText> {
    if IsBlank(s) then Some(message) else None
  }

  /** The mobile input's message, if any: blank first, then the pattern. */
  function MobileError(mobile: string): Option<BilingualText> {
    if IsBlank(mobile) then Some(MobileRequired)
    else if !MobilePattern(mobile) then Some(MobileInvalid)
    else None
  }

  /** The entry a check leaves in the error map, in the chosen language. */
  function Entry(key: string, e: Option<BilingualText>, lang: Language): seq<(string, string)> {
    if e.Some? then [(key, Pick(e.value, lang))] else []
  }

  const ErrorKeys: seq<string> := ["name", "mobile", "category", "customCategory", "description", "locationText", "aadhaar"]

  /** The entries of the seven checks, in the order they run. */
  function Groups(a: Answers, aadhaar: Option<CompressedImage>, lang: Language): (es: seq<seq<(string, string)>>)
    ensures |es| == 7
  {
    [ Entry("name", Blank(a.name, NameRequired), lang),
      Entry("mobile", MobileError(a.mobile), lang),
      Entry("category", if a.category == "" then Some(CategoryRequired) else None, lang),
      Entry("customCategory", if a.category == "other" then Blank(a.customCategory, CustomCategoryRequired) else None, lang),
      Entry("description", Blank(a.description, DescriptionRequired), lang),
      Entry("locationText", Blank(a.locationText, LocationRequired), lang),
      Entry("aadhaar", if aadhaar.None? then Some(AadhaarRequired) else None, lang) ]
  }

  /** The groups laid end to end, the last one appended last. */
  function Flatten(es: seq<seq<(string, string)>>): seq<(string, string)> {
    if es == [] then [] else Flatten(es[..|es| - 1]) + es[|es| - 1]
  }

  /** The error map `validate` builds: one entry per failing check, in the order the checks run. */
  function IssueErrors(a: Answers, aadhaar: Option<CompressedImage>, lang: Language): seq<(string, string)> {
    Flatten(Groups(a, aadhaar, lang))
  }

  /** `if (failed) newErrors[key] = message`, on an error map built by appending. */
  method AddIf(errs: seq<(string, string)>, key: string, failed: bool, message: BilingualText, lang: Language)
    returns (r: seq<(string, string)>)
    ensures r == errs + Entry(key, if failed then Some(message) else None, lang)
  {
    r := errs;
    if failed {
      r := r + [(key, Pick(message, lang))];
    }
  }

  /** The mobile check: a blank input is reported as missing, anything else failing the pattern as invalid. */
  method AddMobileError(errs: seq<(string, string)>, mobile: string, lang: Language) returns (r: seq<(string, string)>)
    ensures r == errs + Entry("mobile", MobileError(mobile), lang)
  {
    var blank := Trim(mobile) == "";
    assert blank <==> IsBlank(mobile) by { TrimEmptyIffBlank(mobile); }
    var e: Option<BilingualText> := None;
    if blank {
      e := Some(MobileRequired);
    } else if !MobilePattern(mobile) {
      e := Some(MobileInvalid);
    }
    assert e == MobileError(mobile);
    r := AddIf(errs, "mobile", e.Some?, e.GetOr(MobileRequired), lang);
  }

  /** `if (!s.trim()) newErrors[key] = message`, on an error map built by appending. */
  method AddIfBlank(errs: seq<(string, string)>, key: string, s: string, message: BilingualText, lang: Language)
    returns (r: seq<(string, string)>)
    ensures r == errs + Entry(key, Blank(s, message), lang)
  {
    TrimEmptyIffBlank(s);
    r := errs;
    if Trim(s) == "" {
      r := r + [(key, Pick(message, lang))];
    }
  }

  /** Every check passes; text answers must hold more than white space. */
  predicate Valid(a: Answers, aadhaar: Option<CompressedImage>) {
    !IsBlank(a.name)
    && MobilePattern(a.mobile)
    && a.category != ""
    && (a.category == "other" ==> !IsBlank(a.customCategory))
    && !IsBlank(a.description)
    && !IsBlank(a.locationText)
    && aadhaar.Some?
  }

  /** Text that passes the mobile pattern is not blank, so only the pattern decides. */
  lemma PatternNotBlank(mobile: string)
    requires MobilePattern(mobile)
    ensures !IsBlank(mobile)
  {
    assert !IsSpace(mobile[0]);
  }

  lemma {:induction false} FlattenEmpty(es: seq<seq<(string, string)>>)
    ensures Flatten(es) == [] <==> forall i :: 0 <= i < |es| ==> es[i] == []
  {
    if es != [] {
      FlattenEmpty(es[..|es| - 1]);
      assert forall i :: 0 <= i < |es| - 1 ==> es[i] == es[..|es| - 1][i];
    }
  }

  /** Appending group k extends the first k groups laid end to end. */
  lemma FlattenStep(es: seq<seq<(string, string)>>, k: nat)
    requires k < |es|
    ensures Flatten(es[..k + 1]) == Flatten(es[..k]) + es[k]
  {
    assert es[..k + 1][..k] == es[..k];
  }

  /** Seven groups laid end to end are their concatenation. */
  lemma FlattenSeven(es: seq<seq<(string, string)>>)
    requires |es| == 7
    ensures Flatten(es) == es[0] + es[1] + es[2] + es[3] + es[4] + es[5] + es[6]
  {
    assert es[..0] == [];
    FlattenStep(es, 0);
    assert Flatten(es[..1]) == es[0];
    FlattenStep(es, 1);
    assert Flatten(es[..2]) == es[0] + es[1];
    FlattenStep(es, 2);
    assert Flatten(es[..3]) == es[0] + es[1] + es[2];
    FlattenStep(es, 3);
    assert Flatten(es[..4]) == es[0] + es[1] + es[2] + es[3];
    FlattenStep(es, 4);
    assert Flatten(es[..5]) == es[0] + es[1] + es[2] + es[3] + es[4];
    FlattenStep(es, 5);
    assert Flatten(es[..6]) == es[0] + es[1] + es[2] + es[3] + es[4] + es[5];
    FlattenStep(es, 6);
    assert es[..7] == es;
  }

  /** The error map is the seven checks' entries appended in the order the checks run. */
  lemma IssueErrorsInOrder(a: Answers, aadhaar: Option<CompressedImage>, lang: Language)
    ensures IssueErrors(a, aadhaar, lang) ==
      Entry("name", Blank(a.name, NameRequired), lang)
      + Entry("mobile", MobileError(a.mobile), lang)
      + Entry("category", if a.category == "" then Some(CategoryRequired) else None, lang)
      + Entry("customCategory", if a.category == "other" then Blank(a.customCategory, CustomCategoryRequired) else None, lang)
      + Entry("description", Blank(a.description, DescriptionRequired), lang)
      + Entry("locationText", Blank(a.locationText, LocationRequired), lang)
      + Entry("aadhaar", if aadhaar.None? then Some(AadhaarRequired) else None, lang)
  {
    FlattenSeven(Groups(a, aadhaar, lang));
  }

  /** When group i holds at most one entry, under key i, and the keys differ, each key finds its own group. */
  lemma {:induction false} LookupGroups(es: seq<seq<(string, string)>>, keys: seq<string>)
    requires |es| == |keys|
    requires forall i :: 0 <= i < |es| ==> |es[i]| <= 1 && (|es[i]| == 1 ==> es[i][0].0 == keys[i])
    requires forall i, j :: 0 <= i < j < |keys| ==> keys[i] != keys[j]
    ensures forall i :: 0 <= i < |es| ==> Get(Flatten(es), keys[i]) == (if es[i] == [] then None else Some(es[i][0].1))
    ensures forall k :: k !in keys ==> Get(Flatten(es), k) == None
  {
    if es != [] {
      var n := |es| - 1;
      var init, initKeys, last := es[..n], keys[..n], es[n];
      LookupGroups(init, initKeys);
      forall k | k !in keys ensures Get(Flatten(es), k) == None {
        GetConcat(Flatten(init), last, k);
        assert k !in initKeys;
        if last != [] {
          assert last == [(keys[n], last[0].1)];
        }
      }
      forall i | 0 <= i < |es| ensures Get(Flatten(es), keys[i]) == (if es[i] == [] then None else Some(es[i][0].1)) {
        GetConcat(Flatten(init), last, keys[i]);
        if i == n {
          assert keys[n] !in initKeys;
        } else {
          assert init[i] == es[i] && initKeys[i] == keys[i];
          if last != [] {
            assert last == [(keys[n], last[0].1)];
          }
        }
      }
    }
  }

  /** No error is recorded exactly when every check passes. */
  lemma IssueErrorsEmptyIff(a: Answers, aadhaar: Option<CompressedImage>, lang: Language)
    ensures IssueErrors(a, aadhaar, lang) == [] <==> Valid(a, aadhaar)
  {
    var es := Groups(a, aadhaar, lang);
    FlattenEmpty(es);
    if MobilePattern(a.mobile) {
      PatternNotBlank(a.mobile);
    }
    assert es[0] == [] <==> !IsBlank(a.name);
    assert es[1] == [] <==> MobilePattern(a.mobile);
    assert es[2] == [] <==> a.category != "";
    assert es[3] == [] <==> (a.category == "other" ==> !IsBlank(a.customCategory));
    assert es[4] == [] <==> !IsBlank(a.description);
    assert es[5] == [] <==> !IsBlank(a.locationText);
    assert es[6] == [] <==> aadhaar.Some?;
  }

  /** The entry under the `i`-th key is the `i`-th check's message, if it failed. */
  lemma GroupLookup(a: Answers, aadhaar: Option<CompressedImage>, lang: Language, i: nat)
    requires i < 7
    ensures var g := Groups(a, aadhaar, lang)[i];
      Get(IssueErrors(a, aadhaar, lang), ErrorKeys[i]) == if g == [] then None else Some(g[0].1)
  {
    LookupGroups(Groups(a, aadhaar, lang), ErrorKeys);
  }

  /** Each input's entry: present exactly when its check fails, holding that check's message. */
  lemma IssueErrorsLookup(a: Answers, aadhaar: Option<CompressedImage>, lang: Language)
    ensures Get(IssueErrors(a, aadhaar, lang), "name") == (if IsBlank(a.name) then Some(Pick(NameRequired, lang)) else None)
    ensures Get(IssueErrors(a, aadhaar, lang), "mobile") ==
      (if IsBlank(a.mobile) then Some(Pick(MobileRequired, lang))
       else if !MobilePattern(a.mobile) then Some(Pick(MobileInvalid, lang))
       else None)
    ensures Get(IssueErrors(a, aadhaar, lang), "category") == (if a.category == "" then Some(Pick(CategoryRequired, lang)) else None)
    ensures Get(IssueErrors(a, aadhaar, lang), "customCategory") ==
      (if a.category == "other" && IsBlank(a.customCategory) then Some(Pick(CustomCategoryRequired, lang)) else None)
    ensures Get(IssueErrors(a, aadhaar, lang), "description") ==
      (if IsBlank(a.description) then Some(Pick(DescriptionRequired, lang)) else None)
    ensures Get(IssueErrors(a, aadhaar, lang), "locationText") ==
      (if IsBlank(a.locationText) then Some(Pick(LocationRequired, lang)) else None)
    ensures Get(IssueErrors(a, aadhaar, lang), "aadhaar") == (if aadhaar.None? then Some(Pick(AadhaarRequired, lang)) else None)
  {
    GroupLookup(a, aadhaar, lang, 0);
    GroupLookup(a, aadhaar, lang, 1);
    GroupLookup(a, aadhaar, lang, 2);
    GroupLookup(a, aadhaar, lang, 3);
    GroupLookup(a, aadhaar, lang, 4);
    GroupLookup(a, aadhaar, lang, 5);
    GroupLookup(a, aadhaar, lang, 6);
  }

  /** `handleSubmit`'s payload: an empty custom category and missing images become `undefined`; text is not trimmed. */
  function Payload(a: Answers, coords: Option<(real, real)>, issuePhoto: Option<CompressedImage>, aadhaar: Option<CompressedImage>): (p: IssueFormData)
    ensures p.name == a.name && p.mobile == a.mobile && p.category == a.category
    ensures p.description == a.description && p.locationText == a.locationText
    ensures p.customCategory == (if a.customCategory == "" then None else Some(a.customCategory))
    ensures coords.Some? ==> p.latitude == Some(coords.value.0) && p.longitude == Some(coords.value.1)
    ensures coords.None? ==> p.latitude.None? && p.longitude.None?
    ensures p.issuePhoto == issuePhoto && p.aadhaar == aadhaar
  {
    IssueFormData(a.name, a.mobile, a.category,
      if a.customCategory != "" then Some(a.customCategory) else None,
      a.description, a.locationText,
      if coords.Some? then Some(coords.value.0) else None,
      if coords.Some? then Some(coords.value.1) else None,
      issuePhoto, aadhaar)
  }

  class Form {
    const lang: Language
    var formData: Answers
    var coords: Option<(real, real)>
    var issuePhoto: Option<CompressedImage>
    var aadhaar: Option<CompressedImage>
    var errors: seq<(string, string)>

    constructor(lang: Language)
      ensures this.lang == lang
      ensures formData == Answers("", "", "", "", "", "")
      ensures coords.None? && issuePhoto.None? && aadhaar.None? && errors == []
    {
      this.lang := lang;
      formData := Answers("", "", "", "", "", "");
      coords := None;
      issuePhoto := None;
      aadhaar := None;
      errors := [];
    }

    /** The issue-photo picker's `onChange`: the picture, or its removal, is stored as it comes. */
    method SetIssuePhoto(image: Option<CompressedImage>)
      modifies this
      ensures issuePhoto == image
      ensures formData == old(formData) && coords == old(coords) && aadhaar == old(aadhaar) && errors == old(errors)
    {
      issuePhoto := image;
    }

    /** The Aadhaar picker's `onChange`: the card, or its removal, is stored; a shown error stays until the next validation. */
    method SetAadhaar(image: Option<CompressedImage>)
      modifies this
      ensures aadhaar == image
      ensures formData == old(formData) && coords == old(coords) && issuePhoto == old(issuePhoto) && errors == old(errors)
    {
      aadhaar := image;
    }

    /** `handleInputChange`: store the value and blank a shown error of that input only. */
    method HandleInputChange(k: Key, value: string)
      modifies this
      ensures formData == Write(old(formData), k, value)
      ensures var e := Get(old(errors), KeyName(k));
        errors == if e.Some? && e.value != "" then Put(old(errors), KeyName(k), "") else old(errors)
      ensures coords == old(coords) && issuePhoto == old(issuePhoto) && aadhaar == old(aadhaar)
    {
      formData := Write(formData, k, value);
      var e := Get(errors, KeyName(k));
      if e.Some? && e.value != "" {
        errors := Put(errors, KeyName(k), "");
      }
    }

    /** The mobile input's `onChange`: the keystrokes are sanitised before they are stored. */
    method HandleMobileInput(raw: string)
      modifies this
      ensures formData == old(formData).(mobile := SanitiseMobile(raw))
      ensures AllDigits(formData.mobile) && |formData.mobile| <= 10
      ensures var e := Get(old(errors), "mobile");
        errors == if e.Some? && e.value != "" then Put(old(errors), "mobile", "") else old(errors)
      ensures coords == old(coords) && issuePhoto == old(issuePhoto) && aadhaar == old(aadhaar)
    {
      SanitiseMobileShape(raw);
      HandleInputChange(Mobile, SanitiseMobile(raw));
    }

    /** `validate`: each failing check writes its own key, in a fixed order. */
    method Validate() returns (ok: bool)
      modifies this
      ensures formData == old(formData) && aadhaar == old(aadhaar) && coords == old(coords) && issuePhoto == old(issuePhoto)
      ensures errors == IssueErrors(formData, aadhaar, lang)
      ensures ok <==> Valid(formData, aadhaar)
    {
      var a, img, l := formData, aadhaar, lang;
      var es := Groups(a, img, l);
      var newErrors := AddIfBlank([], "name", a.name, NameRequired, l);
      assert newErrors == es[0];
      newErrors := AddMobileError(newErrors, a.mobile, l);
      assert newErrors == es[0] + es[1];
      newErrors := AddIf(newErrors, "category", a.category == "", CategoryRequired, l);
      assert newErrors == es[0] + es[1] + es[2];
      if a.category == "other" {
        newErrors := AddIfBlank(newErrors, "customCategory", a.customCategory, CustomCategoryRequired, l);
      } else {
        assert es[3] == [];
      }
      assert newErrors == es[0] + es[1] + es[2] + es[3];
      newErrors := AddIfBlank(newErrors, "description", a.description, DescriptionRequired, l);
      newErrors := AddIfBlank(newErrors, "locationText", a.locationText, LocationRequired, l);
      newErrors := AddIf(newErrors, "aadhaar", img.None?, AadhaarRequired, l);
      FlattenSeven(es);
      assert newErrors == IssueErrors(a, img, l);
      IssueErrorsEmptyIff(a, img, l);
      errors := newErrors;
      ok := newErrors == [];
    }

    /** `handleSubmit`: the payload is handed on only when validation leaves no error. */
    method HandleSubmit() returns (submitted: Option<IssueFormData>)
      modifies this
      ensures formData == old(formData) && aadhaar == old(aadhaar) && coords == old(coords) && issuePhoto == old(issuePhoto)
      ensures errors == IssueErrors(formData, aadhaar, lang)
      ensures submitted.Some? <==> Valid(formData, aadhaar)
      ensures submitted.Some? ==> submitted.value == Payload(formData, coords, issuePhoto, aadhaar)
    {
      var ok := Validate();
      if !ok {
        return None;
      }
      submitted := Some(Payload(formData, coords, issuePhoto, aadhaar));
    }
  }
}

=== FILE: issue_whatsapp.dfy ===
/**
 * The WhatsApp report of a civic issue: a fixed sequence of labelled
 * lines (name, mobile, category, location, the GPS position when both
 * coordinates are set, and the description last), sent to the configured
 * number or a built-in default. Number formatting (`toFixed(6)` and
 * `String(number)`) and URL encoding are parameters.
 */
module IssueWhatsApp {
  import opened Wrappers
  import opened JsText
  import opened Types
  import opened IssueApi
  import opened IssueCategories
  import WhatsApp

  const DefaultNumber := "919876543210"

  /** `VITE_WHATSAPP_NUMBER || '919876543210'`. */
  function IssueNumber(configured: Option<string>): (n: string)
    ensures n != ""
    ensures configured.Some? && configured.value != "" ==> n == configured.value
  {
    MessageOr(configured, DefaultNumber)
  }

  /** The category as the message names it: the reporter's own words for "other", else the English name. */
  function CategoryLabel(data: IssueFormData): (caption: string)
    ensures data.category == "other" && NonEmpty(data.customCategory).Some? ==> caption == data.customCategory.value
    ensures data.category != "other" || NonEmpty(data.customCategory).None? ==> caption == CategoryName(data.category, En)
  {
    if data.category == "other" && data.customCategory.Some? && data.customCategory.value != "" then data.customCategory.value
    else CategoryName(data.category, En)
  }

  /** A listed category other than "other" is named by its English name, whatever the custom text says. */
  lemma ListedCategoryLabel(data: IssueFormData, i: nat)
    requires i < |Categories| && data.category == Categories[i].id && data.category != "other"
    ensures CategoryLabel(data) == Categories[i].name.en
  {
    CategoryByIdOfListed(i);
  }

  /** "other" without custom text is named "Other". */
  lemma OtherWithoutTextLabel(data: IssueFormData)
    requires data.category == "other" && NonEmpty(data.customCategory).None?
    ensures CategoryLabel(data) == "Other"
  {
    CategoryByIdOfListed(6);
  }

  /** Both coordinates are truthy: present and not zero. */
  predicate HasPosition(data: IssueFormData) {
    NonZero(data.latitude).Some? && NonZero(data.longitude).Some?
  }

  const Header := "🚨 *Issue Report*"

  function GpsLine(data: IssueFormData, fixed6: real -> string): string
    requires data.latitude.Some? && data.longitude.Some?
  {
    "*GPS:* " + fixed6(data.latitude.value) + ", " + fixed6(data.longitude.value)
  }

  function MapLine(data: IssueFormData, show: real -> string): string
    requires data.latitude.Some? && data.longitude.Some?
  {
    "*Map:* https://maps.google.com/?q=" + show(data.latitude.value) + "," + show(data.longitude.value)
  }

  function HeadLines(data: IssueFormData): seq<string> {
    [Header, "", "*Name:* " + data.name, "*Mobile:* " + data.mobile,
     "*Category:* " + CategoryLabel(data), "*Location:* " + data.locationText]
  }

  function PositionLines(data: IssueFormData, fixed6: real -> string, show: real -> string): seq<string> {
    if HasPosition(data) then [GpsLine(data, fixed6), MapLine(data, show)] else []
  }

  function DescriptionLines(data: IssueFormData): seq<string> {
    ["", "*Description:*", data.description]
  }

  /** The message's lines, top to bottom. */
  function IssueLines(data: IssueFormData, fixed6: real -> string, show: real -> string): seq<string> {
    HeadLines(data) + PositionLines(data, fixed6, show) + DescriptionLines(data)
  }

  /** The message: the lines joined by line breaks. */
  function IssueMessage(data: IssueFormData, fixed6: real -> string, show: real -> string): string {
    Join(IssueLines(data, fixed6, show), "\n")
  }

  /** Joining two non-empty runs of lines is joining each and putting one separator between. */
  lemma {:induction false} JoinConcat(a: seq<string>, b: seq<string>, sep: string)
    requires |a| >= 1 && |b| >= 1
    ensures Join(a + b, sep) == Join(a, sep) + sep + Join(b, sep)
  {
    if |a| > 1 {
      JoinConcat(a[1..], b, sep);
      assert (a + b)[1..] == a[1..] + b;
    } else {
      assert (a + b)[1..] == b;
    }
  }

  lemma JoinTwo(a: string, b: string, sep: string)
    ensures Join([a, b], sep) == a + sep + b
  {
    assert [a, b][1..] == [b];
  }

  lemma JoinThree(a: string, b: string, c: string, sep: string)
    ensures Join([a, b, c], sep) == a + sep + b + sep + c
  {
    assert [a, b, c][1..] == [b, c];
    JoinTwo(b, c, sep);
  }

  lemma JoinSix(a: string, b: string, c: string, d: string, e: string, f: string, sep: string)
    ensures Join([a, b, c, d, e, f], sep) == a + sep + b + sep + c + sep + d + sep + e + sep + f
  {
    assert [a, b, c, d, e, f] == [a, b, c] + [d, e, f];
    JoinConcat([a, b, c], [d, e, f], sep);
    JoinThree(a, b, c, sep);
    JoinThree(d, e, f, sep);
  }

  /**
   * The lines stand in a fixed order: heading, a blank, name, mobile,
   * category, location, the GPS and map lines exactly when both
   * coordinates are set, a blank, the description heading, and the
   * description last.
   */
  lemma LineOrder(data: IssueFormData, fixed6: real -> string, show: real -> string)
    ensures var lines := IssueLines(data, fixed6, show);
      && |lines| == (if HasPosition(data) then 11 else 9)
      && lines[..6] == HeadLines(data)
      && (HasPosition(data) ==> lines[6] == GpsLine(data, fixed6) && lines[7] == MapLine(data, show))
      && lines[|lines| - 3..] == DescriptionLines(data)
      && lines[|lines| - 1] == data.description
  {
    var h, p, d := HeadLines(data), PositionLines(data, fixed6, show), DescriptionLines(data);
    SplitThree(h, p, d);
    if HasPosition(data) {
      assert p == [GpsLine(data, fixed6), MapLine(data, show)];
    }
  }

  lemma SplitThree<T>(h: seq<T>, p: seq<T>, d: seq<T>)
    ensures (h + p + d)[..|h|] == h
    ensures (h + p + d)[|h| + |p|..] == d
    ensures forall i :: 0 <= i < |p| ==> (h + p + d)[|h| + i] == p[i]
  {
  }

  /** One step of the heading: a label glued to its line break is that break, then the label. */
  lemma Glue(front: string, glued: string, tag: string, v: string)
    requires glued == "\n" + tag
    ensures front + glued + v == front + "\n" + (tag + v)
  {
  }

  lemma NameGlue() ensures "\n\n*Name:* " == "\n" + "" + "\n" + "*Name:* " {}
  lemma MobileGlue() ensures "\n*Mobile:* " == "\n" + "*Mobile:* " {}
  lemma CategoryGlue() ensures "\n*Category:* " == "\n" + "*Category:* " {}
  lemma LocationGlue() ensures "\n*Location:* " == "\n" + "*Location:* " {}

  /** The heading block as the source writes it is the first six lines, joined. */
  lemma HeadText(name: string, mobile: string, category: string, location: string)
    ensures Header + "\n\n*Name:* " + name + "\n*Mobile:* " + mobile + "\n*Category:* " + category + "\n*Location:* " + location
      == Join([Header, "", "*Name:* " + name, "*Mobile:* " + mobile, "*Category:* " + category, "*Location:* " + location], "\n")
  {
    var a, b, c, d := "*Name:* " + name, "*Mobile:* " + mobile, "*Category:* " + category, "*Location:* " + location;
    JoinSix(Header, "", a, b, c, d, "\n");
    var t1 := Header + "\n" + "" + "\n" + a;
    NameGlue();
    assert Header + "\n\n*Name:* " + name == t1;
    var t2 := t1 + "\n" + b;
    MobileGlue();
    Glue(t1, "\n*Mobile:* ", "*Mobile:* ", mobile);
    var t3 := t2 + "\n" + c;
    CategoryGlue();
    Glue(t2, "\n*Category:* ", "*Category:* ", category);
    LocationGlue();
    Glue(t3, "\n*Location:* ", "*Location:* ", location);
  }

  /** The closing block as the source writes it is a separator and the last three lines, joined. */
  lemma TailText(description: string)
    ensures "\n\n*Description:*\n" + description == "\n" + Join(["", "*Description:*", description], "\n")
  {
    JoinThree("", "*Description:*", description, "\n");
    assert "\n\n*Description:*\n" == "\n" + "" + "\n" + "*Description:*" + "\n";
  }

  /** The message ends with the description, after its heading on a line of its own. */
  lemma DescriptionLast(data: IssueFormData, fixed6: real -> string, show: real -> string)
    ensures var m := IssueMessage(data, fixed6, show);
      var tail := "\n\n*Description:*\n" + data.description;
      |tail| <= |m| && m[|m| - |tail|..] == tail
  {
    var m := IssueMessage(data, fixed6, show);
    var front := HeadLines(data) + PositionLines(data, fixed6, show);
    var desc := DescriptionLines(data);
    var glued := "\n\n*Description:*\n";
    assert m == Join(front + desc, "\n");
    JoinConcat(front, desc, "\n");
    TailText(data.description);
    var head := Join(front, "\n");
    AppendGlued(head, glued, data.description, Join(desc, "\n"));
    assert m == head + glued + data.description;
    SuffixOf(head, glued, data.description);
  }

  /** What is appended last is what the text ends with. */
  lemma SuffixOf(head: string, glued: string, v: string)
    ensures var m, tail := head + glued + v, glued + v;
      |tail| <= |m| && m[|m| - |tail|..] == tail
  {
    assert head + glued + v == head + (glued + v);
  }

  /** Appending the two position lines to joined lines joins them onto the end. */
  lemma AppendPosition(lines: seq<string>, text: string, gps: string, mapLine: string)
    requires |lines| >= 1 && text == Join(lines, "\n")
    ensures text + "\n" + gps + "\n" + mapLine == Join(lines + [gps, mapLine], "\n")
  {
    JoinConcat(lines, [gps, mapLine], "\n");
    JoinTwo(gps, mapLine, "\n");
  }

  /** Text glued onto a run of lines after a line break can be appended either way round. */
  lemma AppendGlued(text: string, glued: string, v: string, joined: string)
    requires glued + v == "\n" + joined
    ensures text + glued + v == text + "\n" + joined
  {
    assert text + glued + v == text + (glued + v);
  }

  /** Appending the closing block to joined lines joins its three lines onto the end. */
  lemma AppendDescription(lines: seq<string>, text: string, description: string)
    requires |lines| >= 1 && text == Join(lines, "\n")
    ensures text + "\n\n*Description:*\n" + description == Join(lines + ["", "*Description:*", description], "\n")
  {
    var tail := ["", "*Description:*", description];
    JoinConcat(lines, tail, "\n");
    TailText(description);
    AppendGlued(text, "\n\n*Description:*\n", description, Join(tail, "\n"));
  }

  /** The message text of `sendIssueToWhatsApp`, built by appending to it. */
  method BuildIssueMessage(data: IssueFormData, fixed6: real -> string, show: real -> string) returns (message: string)
    ensures message == IssueMessage(data, fixed6, show)
  {
    var categoryName := if data.category == "other" && data.customCategory.Some? && data.customCategory.value != ""
      then data.customCategory.value else CategoryName(data.category, En);
    message := Header + "\n\n*Name:* " + data.name + "\n*Mobile:* " + data.mobile
      + "\n*Category:* " + categoryName + "\n*Location:* " + data.locationText;
    HeadText(data.name, data.mobile, categoryName, data.locationText);
    ghost var lines := HeadLines(data);
    if data.latitude.Some? && data.latitude.value != 0.0 && data.longitude.Some? && data.longitude.value != 0.0 {
      var gps := "*GPS:* " + fixed6(data.latitude.value) + ", " + fixed6(data.longitude.value);
      var mapLine := "*Map:* https://maps.google.com/?q=" + show(data.latitude.value) + "," + show(data.longitude.value);
      AppendPosition(lines, message, gps, mapLine);
      message := message + "\n" + gps + "\n" + mapLine;
      lines := lines + [gps, mapLine];
    }
    assert lines == HeadLines(data) + PositionLines(data, fixed6, show);
    AppendDescription(lines, message, data.description);
    message := message + "\n\n*Description:*\n" + data.description;
  }

  /** `sendIssueToWhatsApp`: the message, opened in a new tab on the issue number. */
  method SendIssueToWhatsApp(window: WhatsApp.Window, data: IssueFormData, configured: Option<string>,
                             fixed6: real -> string, show: real -> string, encode: string -> string)
    modifies window
    ensures window.tabs == old(window.tabs) +
      [(WhatsApp.WhatsAppUrl(IssueMessage(data, fixed6, show), Some(IssueNumber(configured)), encode), "_blank")]
  {
    var message := BuildIssueMessage(data, fixed6, show);
    var url := WhatsApp.WaBase + IssueNumber(configured) + WhatsApp.TextParam + encode(message);
    window.Open(url, "_blank");
  }

  /** The link names the issue number, never an empty one, and carries the encoded message. */
  lemma IssueUrlRoundTrip(message: string, configured: Option<string>, encode: string -> string)
    requires configured.Some? ==> forall i :: 0 <= i < |configured.value| ==> configured.value[i] != '?'
    ensures WhatsApp.SplitUrl(WhatsApp.WhatsAppUrl(message, Some(IssueNumber(configured)), encode))
      == Some((IssueNumber(configured), encode(message)))
  {
    var n := IssueNumber(configured);
    assert forall i :: 0 <= i < |DefaultNumber| ==> DefaultNumber[i] != '?';
    assert forall i :: 0 <= i < |n| ==> n[i] != '?';
    WhatsApp.UrlRoundTrip(message, Some(n), encode);
  }
}

=== FILE: issues_list.dfy ===
/**
 * The admin list of reported issues: the filter record its controls
 * write, the loaded list, and the CSV export of that list.
 */
module IssuesList {
  import opened Wrappers
  import opened JsText
  import opened IssueCategories
  import Csv

  /** An issue as the list shows it. */
  datatype Issue = Issue(
    id: string,
    createdAt: string,
    reporterName: string,
    mobileNumber: string,
    category: string,
    locationText: string,
    status: string)

  /** The issue filter record; an absent member is `None`. */
  datatype IssueFilters = IssueFilters(
    search: Option<string>,
    category: Option<string>,
    status: Option<string>,
    dateFrom: Option<string>)

  datatype IssueFilterKey = SearchFilter | CategoryFilter | StatusFilter | DateFromFilter

  const IssueHeaders: seq<string> := ["ID", "Date", "Reporter", "Mobile", "Category", "Location", "Status"]

  /** One issue's cells; `formatDate` stands for `toLocaleDateString`. The category column is its English name. */
  function IssueCells(issue: Issue, formatDate: string -> string): (row: seq<string>)
    ensures |row| == |IssueHeaders|
    ensures row[0] == issue.id && row[1] == formatDate(issue.createdAt) && row[2] == issue.reporterName
    ensures row[3] == issue.mobileNumber && row[5] == issue.locationText && row[6] == issue.status
    ensures CategoryById(issue.category).Some? ==> row[4] == CategoryById(issue.category).value.name.en
    ensures CategoryById(issue.category).None? ==> row[4] == issue.category
  {
    [issue.id, formatDate(issue.createdAt), issue.reporterName, issue.mobileNumber,
     CategoryName(issue.category), issue.locationText, issue.status]
  }

  function IssueRows(issues: seq<Issue>, formatDate: string -> string): (rows: seq<seq<string>>)
    ensures |rows| == |issues|
    ensures forall i :: 0 <= i < |issues| ==> rows[i] == IssueCells(issues[i], formatDate)
  {
    seq(|issues|, i requires 0 <= i < |issues| => IssueCells(issues[i], formatDate))
  }

  /** The text `exportCSV` downloads. */
  function IssuesCsv(issues: seq<Issue>, formatDate: string -> string): string {
    Csv.Document(Join(IssueHeaders, ","), IssueRows(issues, formatDate))
  }

  /** Reading the export back yields the seven bare column names and each issue's cells. */
  lemma IssuesCsvRoundTrip(issues: seq<Issue>, formatDate: string -> string)
    ensures Csv.ParseDocument(IssuesCsv(issues, formatDate)) == Some((Join(IssueHeaders, ","), IssueRows(issues, formatDate)))
  {
    Csv.JoinAvoids(IssueHeaders, ",", '\n');
    Csv.DocumentRoundTrip(Join(IssueHeaders, ","), IssueRows(issues, formatDate));
  }

  class List {
    var issues: seq<Issue>
    var loading: bool
    var filters: IssueFilters

    constructor()
      ensures issues == [] && loading && filters == IssueFilters(None, None, None, None)
    {
      issues := [];
      loading := true;
      filters := IssueFilters(None, None, None, None);
    }

    /** `handleFilterChange(key, value)`: the key is set to the value, or removed when the value is empty. */
    method HandleFilterChange(key: IssueFilterKey, value: string)
      modifies this
      ensures issues == old(issues) && loading == old(loading)
      ensures var v := if value == "" then None else Some(value);
        filters == match key
          case SearchFilter => old(filters).(search := v)
          case CategoryFilter => old(filters).(category := v)
          case StatusFilter => old(filters).(status := v)
          case DateFromFilter => old(filters).(dateFrom := v)
    {
      var v := if value == "" then None else Some(value);
      match key {
        case SearchFilter => filters := filters.(search := v);
        case CategoryFilter => filters := filters.(category := v);
        case StatusFilter => filters := filters.(status := v);
        case DateFromFilter => filters := filters.(dateFrom := v);
      }
    }

    /** `loadIssues`: `data` is what the store's issue query returned. */
    method LoadIssues(data: seq<Issue>)
      modifies this
      ensures issues == data && !loading && filters == old(filters)
    {
      loading := true;
      issues := data;
      loading := false;
    }

    /** The export button is enabled only when there is something to export. */
    function ExportEnabled(): (enabled: bool)
      reads this
      ensures enabled <==> |issues| > 0
    {
      |issues| != 0
    }
  }
}

=== FILE: js_text.dfy ===
/**
 * The JavaScript string operations the application relies on, stated over
 * Dafny strings (sequences of Unicode scalar values): `trim` and the `\s`
 * class, `.length` in UTF-16 code units, `toLowerCase` on ASCII letters,
 * `startsWith`, `indexOf`/`replace` with a string pattern, `join`, and the
 * character order in which text columns are compared.
 */
module JsText {
  import opened Wrappers

  // ---------------------------------------------------------------------------
  // White space, trim

  /**
   * The characters ECMAScript counts as WhiteSpace or LineTerminator: what
   * `String.prototype.trim` strips and what the regular-expression class `\s`
   * matches.
   */
  predicate IsSpace(c: char) {
    c == '\t' || c == '\n' || c == '\U{000B}' || c == '\U{000C}' || c == '\r' || c == ' '
    || c == '\U{00A0}' || c == '\U{1680}' || ('\U{2000}' <= c <= '\U{200A}')
    || c == '\U{2028}' || c == '\U{2029}' || c == '\U{202F}' || c == '\U{205F}'
    || c == '\U{3000}' || c == '\U{FEFF}'
  }

  /** Every character is white space (this includes the empty string). */
  predicate IsBlank(s: string) {
    forall i :: 0 <= i < |s| ==> IsSpace(s[i])
  }

  /** `trimStart`: drops the white space at the start. */
  function TrimStart(s: string): string {
    if |s| > 0 && IsSpace(s[0]) then TrimStart(s[1..]) else s
  }

  /** `trimEnd`: drops the white space at the end. */
  function TrimEnd(s: string): string {
    if |s| > 0 && IsSpace(s[|s| - 1]) then TrimEnd(s[..|s| - 1]) else s
  }

  /** `String.prototype.trim`. */
  function Trim(s: string): string {
    TrimEnd(TrimStart(s))
  }

  /** `trimStart` keeps the longest suffix that does not begin with white space. */
  lemma {:induction false} TrimStartShape(s: string)
    ensures var r := TrimStart(s);
      |r| <= |s| && r == s[|s| - |r|..] && IsBlank(s[..|s| - |r|]) && (r == [] || !IsSpace(r[0]))
  {
    if |s| > 0 && IsSpace(s[0]) {
      TrimStartShape(s[1..]);
      var r := TrimStart(s);
      assert s[1..][|s| - 1 - |r|..] == s[|s| - |r|..];
      assert s[..|s| - |r|] == [s[0]] + s[1..][..|s| - 1 - |r|];
    } else {
      assert s[..0] == [];
    }
  }

  /** `trimEnd` keeps the longest prefix that does not end with white space. */
  lemma {:induction false} TrimEndShape(s: string)
    ensures var r := TrimEnd(s);
      |r| <= |s| && r == s[..|r|] && IsBlank(s[|r|..]) && (r == [] || !IsSpace(r[|r| - 1]))
  {
    if |s| > 0 && IsSpace(s[|s| - 1]) {
      var t := s[..|s| - 1];
      TrimEndShape(t);
      var r := TrimEnd(s);
      assert t[..|r|] == s[..|r|];
      assert s[|r|..] == t[|r|..] + [s[|s| - 1]];
    } else {
      assert s[|s|..] == [];
    }
  }

  /** A trimmed string is empty exactly when the input was all white space. */
  lemma {:induction false} TrimEmptyIffBlank(s: string)
    ensures Trim(s) == [] <==> IsBlank(s)
  {
    var t := TrimStart(s);
    TrimStartShape(s);
    TrimEndShape(t);
    assert s == s[..|s| - |t|] + t;
    if Trim(s) == [] {
      assert t[0..] == t;
      assert t == [];
      assert s[..|s|] == s;
    }
  }

  /** A string with no white space at either end is its own trim. */
  lemma TrimOfUnpadded(s: string)
    requires s == [] || (!IsSpace(s[0]) && !IsSpace(s[|s| - 1]))
    ensures Trim(s) == s
  {
  }

  /** Trimming twice is trimming once. */
  lemma TrimIdempotent(s: string)
    ensures Trim(Trim(s)) == Trim(s)
  {
    var t := TrimStart(s);
    var r := TrimEnd(t);
    TrimStartShape(s);
    TrimEndShape(t);
    if r != [] {
      assert r[0] == t[0];
    }
    TrimOfUnpadded(r);
  }

  // ---------------------------------------------------------------------------
  // Length, case, characters

  /**
   * `.length` of a JavaScript string: UTF-16 code units, so a character
   * outside the Basic Multilingual Plane counts twice.
   */
  function JsLength(s: string): (n: nat)
    ensures |s| <= n <= 2 * |s|
  {
    if s == [] then 0 else (if s[0] as int > 0xFFFF then 2 else 1) + JsLength(s[1..])
  }

  /** For text made only of Basic Multilingual Plane characters, `.length` is the character count. */
  lemma {:induction false} JsLengthOfBmp(s: string)
    requires forall i :: 0 <= i < |s| ==> s[i] as int <= 0xFFFF
    ensures JsLength(s) == |s|
  {
    if s != [] {
      JsLengthOfBmp(s[1..]);
    }
  }

  function LowerChar(c: char): char {
    if 'A' <= c <= 'Z' then (c as int + 32) as char else c
  }

  /** `toLowerCase`, restricted to the ASCII letters. */
  function ToLower(s: string): (r: string)
    ensures |r| == |s|
    ensures forall i :: 0 <= i < |s| ==> r[i] == LowerChar(s[i])
  {
    seq(|s|, i requires 0 <= i < |s| => LowerChar(s[i]))
  }

  predicate IsDigit(c: char) {
    '0' <= c <= '9'
  }

  predicate AllDigits(s: string) {
    forall i :: 0 <= i < |s| ==> IsDigit(s[i])
  }

  // ---------------------------------------------------------------------------
  // Keeping the characters that satisfy a predicate (`replace(/[...]/g, '')`)

  /** The characters of `s` that satisfy `keep`, in their original order. */
  function Keep(s: string, keep: char -> bool): (r: string)
    ensures |r| <= |s|
    ensures forall i :: 0 <= i < |r| ==> keep(r[i])
  {
    if s == [] then [] else (if keep(s[0]) then [s[0]] else []) + Keep(s[1..], keep)
  }

  /** Filtering distributes over concatenation, so it keeps order and drops nothing it should keep. */
  lemma {:induction false} KeepAppend(a: string, b: string, keep: char -> bool)
    ensures Keep(a + b, keep) == Keep(a, keep) + Keep(b, keep)
  {
    if a != [] {
      assert (a + b)[0] == a[0] && (a + b)[1..] == a[1..] + b;
      KeepAppend(a[1..], b, keep);
      var h := if keep(a[0]) then [a[0]] else [];
      calc {
        Keep(a + b, keep);
        h + Keep(a[1..] + b, keep);
        h + (Keep(a[1..], keep) + Keep(b, keep));
        (h + Keep(a[1..], keep)) + Keep(b, keep);
        Keep(a, keep) + Keep(b, keep);
      }
    } else {
      assert a + b == b;
    }
  }

  /** A string all of whose characters are kept comes back unchanged. */
  lemma {:induction false} KeepAll(s: string, keep: char -> bool)
    requires forall i :: 0 <= i < |s| ==> keep(s[i])
    ensures Keep(s, keep) == s
  {
    if s != [] {
      KeepAll(s[1..], keep);
    }
  }

  /** Filtering twice is filtering once. */
  lemma KeepIdempotent(s: string, keep: char -> bool)
    ensures Keep(Keep(s, keep), keep) == Keep(s, keep)
  {
    KeepAll(Keep(s, keep), keep);
  }

  /** `replace(/\D/g, '')`: the ASCII digits of `s`, in order. */
  function DigitsOnly(s: string): (r: string)
    ensures AllDigits(r) && |r| <= |s|
  {
    Keep(s, IsDigit)
  }

  // ---------------------------------------------------------------------------
  // Searching and replacing

  predicate StartsWith(s: string, prefix: string) {
    |prefix| <= |s| && s[..|prefix|] == prefix
  }

  /** `p` occurs in `s` starting at index `i`. */
  predicate OccursAt(s: string, p: string, i: int) {
    0 <= i && i + |p| <= |s| && s[i..i + |p|] == p
  }

  predicate Contains(s: string, p: string) {
    exists i :: 0 <= i <= |s| && OccursAt(s, p, i)
  }

  function IndexFrom(s: string, p: string, k: nat): (r: Option<nat>)
    ensures r.Some? ==> k <= r.value && OccursAt(s, p, r.value)
    ensures r.Some? ==> forall j :: k <= j < r.value ==> !OccursAt(s, p, j)
    ensures r.None? ==> forall j :: k <= j ==> !OccursAt(s, p, j)
    decreases |s| - k
  {
    if k + |p| > |s| then None
    else if s[k..k + |p|] == p then Some(k)
    else IndexFrom(s, p, k + 1)
  }

  /** `indexOf`: the first index at which `p` occurs, if any. */
  function IndexOf(s: string, p: string): (r: Option<nat>)
    ensures r.Some? ==> OccursAt(s, p, r.value) && forall j :: 0 <= j < r.value ==> !OccursAt(s, p, j)
    ensures r.None? ==> !Contains(s, p)
  {
    IndexFrom(s, p, 0)
  }

  /**
   * `String.prototype.replace` with a string pattern: only the first
   * occurrence is replaced. The replacement text is inserted as it is: the
   * `$&`, `$$`, `` $` `` and `$'` patterns that JavaScript expands in a
   * replacement string are not modelled.
   */
  function ReplaceFirst(s: string, p: string, v: string): string {
    match IndexOf(s, p)
    case None => s
    case Some(i) => s[..i] + v + s[i + |p|..]
  }

  // ---------------------------------------------------------------------------
  // Joining and numbers

  /** `Array.prototype.join`. */
  function Join(parts: seq<string>, sep: string): string {
    if |parts| == 0 then ""
    else if |parts| == 1 then parts[0]
    else parts[0] + sep + Join(parts[1..], sep)
  }

  function DigitChar(d: nat): char
    requires d < 10
  {
    ('0' as int + d) as char
  }

  /** The decimal text of a natural number, as a template literal prints it. */
  function NatToString(n: nat): (r: string)
    ensures |r| >= 1 && AllDigits(r)
  {
    if n < 10 then [DigitChar(n)] else NatToString(n / 10) + [DigitChar(n % 10)]
  }

  // ---------------------------------------------------------------------------
  // Character order of text

  /**
   * `a` sorts no later than `b` when compared character by character, by
   * Unicode scalar value. This differs from UTF-16 code-unit order only
   * between astral characters and U+E000-U+FFFF.
   */
  predicate LexLe(a: string, b: string) {
    |a| == 0 || (|b| > 0 && (a[0] < b[0] || (a[0] == b[0] && LexLe(a[1..], b[1..]))))
  }

  lemma {:induction false} LexLeReflexive(a: string)
    ensures LexLe(a, a)
  {
    if |a| > 0 {
      LexLeReflexive(a[1..]);
    }
  }

  lemma {:induction false} LexLeTotal(a: string, b: string)
    ensures LexLe(a, b) || LexLe(b, a)
  {
    if |a| > 0 && |b| > 0 && a[0] == b[0] {
      LexLeTotal(a[1..], b[1..]);
    }
  }

  lemma {:induction false} LexLeTransitive(a: string, b: string, c: string)
    requires LexLe(a, b) && LexLe(b, c)
    ensures LexLe(a, c)
  {
    if |a| > 0 && a[0] == b[0] && b[0] == c[0] {
      LexLeTransitive(a[1..], b[1..], c[1..]);
    }
  }

  lemma {:induction false} LexLeAntisymmetric(a: string, b: string)
    requires LexLe(a, b) && LexLe(b, a)
    ensures a == b
  {
    if |a| > 0 && |b| > 0 {
      LexLeAntisymmetric(a[1..], b[1..]);
      assert a == [a[0]] + a[1..] && b == [b[0]] + b[1..];
    }
  }

  /** A proper extension sorts after the text it extends. */
  lemma {:induction false} LexLeExtension(a: string, rest: string)
    requires |rest| > 0
    ensures LexLe(a, a + rest) && !LexLe(a + rest, a)
  {
    if |a| > 0 {
      assert (a + rest)[1..] == a[1..] + rest;
      LexLeExtension(a[1..], rest);
    }
  }
}

=== FILE: language.dfy ===
/**
 * The language provider: the current language code, the browser's local
 * storage it is saved to, and the `lang` attribute of the page. The stored
 * code is taken as it is found, without checking that it names a language.
 */
module LanguageProvider {
  import opened Wrappers
  import opened Types

  const StorageKey: string := "janaseva-language"

  /** The code a language is stored and selected under. */
  function Code(lang: Language): string {
    match lang
    case En => "en"
    case Kn => "kn"
  }

  /** What `localStorage.getItem` answers for the language key. */
  function StoredCode(storage: map<string, string>): Option<string> {
    if StorageKey in storage then Some(storage[StorageKey]) else None
  }

  /** `(stored as Language) || 'kn'`: a non-empty stored code wins, anything else falls back to Kannada. */
  function InitialCode(stored: Option<string>): (code: string)
    ensures stored.Some? && stored.value != [] ==> code == stored.value
    ensures (stored.None? || stored.value == []) ==> code == "kn"
  {
    match stored
    case Some(s) => if s != [] then s else "kn"
    case None => "kn"
  }

  /** `text[language]`: the English or Kannada text, or `undefined` for any other code. */
  function Translate(code: string, text: BilingualText): Option<string> {
    if code == "en" then Some(text.en)
    else if code == "kn" then Some(text.kn)
    else None
  }

  /** For a real language, `t` is the selector `Pick`. */
  lemma TranslateCode(lang: Language, text: BilingualText)
    ensures Translate(Code(lang), text) == Some(Pick(text, lang))
  {
  }

  /** A stored code that is neither `en` nor `kn` is kept, and `t` then yields `undefined`. */
  lemma UnknownStoredCode(text: BilingualText)
    ensures InitialCode(Some("fr")) == "fr"
    ensures Translate(InitialCode(Some("fr")), text) == None
  {
  }

  /**
   * The choice persists: whatever code a provider settles on, and whatever
   * language is chosen later, once the effect has stored it the next mount
   * starts on that same code, so `t` selects the same text.
   */
  lemma ReloadRestores(storage: map<string, string>, stored: Option<string>, lang: Language, text: BilingualText)
    ensures InitialCode(stored) != ""
    ensures InitialCode(StoredCode(storage[StorageKey := InitialCode(stored)])) == InitialCode(stored)
    ensures InitialCode(StoredCode(storage[StorageKey := Code(lang)])) == Code(lang)
    ensures Translate(InitialCode(StoredCode(storage[StorageKey := Code(lang)])), text) == Some(Pick(text, lang))
  {
    TranslateCode(lang, text);
  }

  class Provider {
    /** The current language code. */
    var language: string
    /** The browser's local storage. */
    var storage: map<string, string>
    /** `document.documentElement.lang`. */
    var documentLang: string

    /** `t`. */
    function T(text: BilingualText): Option<string>
      reads this
    {
      Translate(language, text)
    }

    /** Mounting: read the stored code, then let the effect write it back and set the page language. */
    constructor(initialStorage: map<string, string>)
      ensures language == InitialCode(StoredCode(initialStorage))
      ensures storage == initialStorage[StorageKey := language]
      ensures documentLang == language
    {
      language := InitialCode(StoredCode(initialStorage));
      storage := initialStorage;
      new;
      Effect();
    }

    /** The effect that runs whenever the language changes. */
    method Effect()
      modifies this
      ensures language == old(language)
      ensures storage == old(storage)[StorageKey := language]
      ensures documentLang == language
    {
      storage := storage[StorageKey := language];
      documentLang := language;
    }

    /** `setLanguage`, followed by the effect it triggers. */
    method SetLanguage(lang: Language)
      modifies this
      ensures language == Code(lang)
      ensures storage == old(storage)[StorageKey := Code(lang)]
      ensures documentLang == Code(lang)
      ensures forall text :: T(text) == Some(Pick(text, lang))
    {
      language := Code(lang);
      Effect();
    }
  }
}

=== FILE: leader_form.dfy ===
/**
 * The admin form for adding or editing a leader. It is seeded from the
 * leader being edited, takes a photo through the same gates and
 * compression as the public picker, and submits only when the four texts
 * are non-blank and a photo is present, reporting the first failing check.
 */
module LeaderForm {
  import opened Wrappers
  import opened JsText
  import opened Types
  import opened ImageUtils
  import opened ImageUpload
  import opened LeadersApi

  /** What `onSubmit` receives. */
  datatype LeaderPayload = LeaderPayload(
    nameEn: string,
    nameKn: string,
    positionEn: string,
    positionKn: string,
    imageData: string,
    fileSize: nat,
    compressedSize: int,
    mimeType: string,
    category: LeaderCategory)

  const NameEnMissing := "Please enter name in English"
  const NameKnMissing := "Please enter name in Kannada"
  const PositionEnMissing := "Please enter position in English"
  const PositionKnMissing := "Please enter position in Kannada"
  const ImageMissing := "Please upload an image"

  /** The photo an edit starts with: the stored payload, with a missing or zero size read as 0. */
  function InitialImage(initialData: Option<Leader>): (img: Option<CompressedImage>)
    ensures img.Some? <==> initialData.Some?
    ensures initialData.Some? ==>
      img.value.base64 == initialData.value.imageData && img.value.mimeType == initialData.value.mimeType
      && img.value.originalSize == initialData.value.fileSize.GetOr(0)
      && img.value.compressedSize == initialData.value.compressedSize.GetOr(0)
  {
    match initialData
    case None => None
    case Some(d) =>
      Some(CompressedImage(d.imageData,
        if d.fileSize.Some? && d.fileSize.value != 0 then d.fileSize.value else 0,
        if d.compressedSize.Some? && d.compressedSize.value != 0 then d.compressedSize.value else 0,
        d.mimeType))
  }

  /** The message `handleSubmit` shows: the first of the five checks that fails, in order. */
  function SubmitError(nameEn: string, nameKn: string, positionEn: string, positionKn: string, image: Option<CompressedImage>)
    : Option<string>
  {
    if IsBlank(nameEn) then Some(NameEnMissing)
    else if IsBlank(nameKn) then Some(NameKnMissing)
    else if IsBlank(positionEn) then Some(PositionEnMissing)
    else if IsBlank(positionKn) then Some(PositionKnMissing)
    else if image.None? then Some(ImageMissing)
    else None
  }

  /** No message exactly when every text holds more than white space and a photo is present. */
  lemma SubmitErrorNoneIff(nameEn: string, nameKn: string, positionEn: string, positionKn: string, image: Option<CompressedImage>)
    ensures SubmitError(nameEn, nameKn, positionEn, positionKn, image).None? <==>
      !IsBlank(nameEn) && !IsBlank(nameKn) && !IsBlank(positionEn) && !IsBlank(positionKn) && image.Some?
  {
  }

  /** Only the first failure is reported: a later check's message needs every earlier check to pass. */
  lemma SubmitErrorFirstFailure(nameEn: string, nameKn: string, positionEn: string, positionKn: string, image: Option<CompressedImage>)
    ensures IsBlank(nameEn) ==> SubmitError(nameEn, nameKn, positionEn, positionKn, image) == Some(NameEnMissing)
    ensures SubmitError(nameEn, nameKn, positionEn, positionKn, image) == Some(ImageMissing) <==>
      !IsBlank(nameEn) && !IsBlank(nameKn) && !IsBlank(positionEn) && !IsBlank(positionKn) && image.None?
    ensures SubmitError(nameEn, nameKn, positionEn, positionKn, image) == Some(PositionKnMissing) <==>
      !IsBlank(nameEn) && !IsBlank(nameKn) && !IsBlank(positionEn) && IsBlank(positionKn)
  {
  }

  /** The payload: trimmed texts and the photo's payload, sizes and type. */
  function Payload(nameEn: string, nameKn: string, positionEn: string, positionKn: string, image: CompressedImage,
                   category: LeaderCategory): LeaderPayload
  {
    LeaderPayload(Trim(nameEn), Trim(nameKn), Trim(positionEn), Trim(positionKn),
      image.base64, image.originalSize, image.compressedSize, image.mimeType, category)
  }

  /** The submitted texts are trimmed already, and non-empty when the checks passed. */
  lemma PayloadTrimmed(nameEn: string, nameKn: string, positionEn: string, positionKn: string, image: CompressedImage,
                       category: LeaderCategory)
    requires SubmitError(nameEn, nameKn, positionEn, positionKn, Some(image)).None?
    ensures var p := Payload(nameEn, nameKn, positionEn, positionKn, image, category);
      Trim(p.nameEn) == p.nameEn && Trim(p.positionKn) == p.positionKn
      && p.nameEn != "" && p.nameKn != "" && p.positionEn != "" && p.positionKn != ""
  {
    TrimIdempotent(nameEn);
    TrimIdempotent(positionKn);
    TrimEmptyIffBlank(nameEn);
    TrimEmptyIffBlank(nameKn);
    TrimEmptyIffBlank(positionEn);
    TrimEmptyIffBlank(positionKn);
  }

  class Form {
    var nameEn: string
    var nameKn: string
    var positionEn: string
    var positionKn: string
    var category: LeaderCategory
    var image: Option<CompressedImage>
    var isCompressing: bool
    var error: Option<string>
    /** The payloads handed to `onSubmit`, oldest first. */
    var submitted: seq<LeaderPayload>

    /** The form for a new leader, or for editing `initialData`. */
    constructor(initialData: Option<Leader>)
      ensures initialData.None? ==>
        nameEn == "" && nameKn == "" && positionEn == "" && positionKn == "" && category == Ward
      ensures initialData.Some? ==>
        var d := initialData.value;
        nameEn == d.nameEn && nameKn == d.nameKn && positionEn == d.positionEn && positionKn == d.positionKn
        && category == d.category
      ensures image == InitialImage(initialData)
      ensures !isCompressing && error.None? && submitted == []
    {
      match initialData {
        case None =>
          nameEn, nameKn, positionEn, positionKn, category := "", "", "", "", Ward;
        case Some(d) =>
          nameEn, nameKn, positionEn, positionKn, category := d.nameEn, d.nameKn, d.positionEn, d.positionKn, d.category;
      }
      image := InitialImage(initialData);
      isCompressing := false;
      error := None;
      submitted := [];
    }

    /**
     * `handleFileChange`: the picker's gates, in English only. A rejected
     * or failed file leaves the current photo as it was.
     */
    method HandleFileChange(file: Option<File>, decoding: Decoding, canvasOk: bool, encode: (real, real, real) -> string)
      requires decoding.Loaded? ==> decoding.width >= 0.0
      modifies this
      ensures nameEn == old(nameEn) && nameKn == old(nameKn) && positionEn == old(positionEn)
        && positionKn == old(positionKn) && category == old(category) && submitted == old(submitted)
      ensures file.None? ==> image == old(image) && error == old(error) && isCompressing == old(isCompressing)
      ensures file.Some? && !IsValidImageType(file.value) ==>
        error == Some(InvalidType.en) && image == old(image) && isCompressing == old(isCompressing)
      ensures file.Some? && IsValidImageType(file.value) && !IsWithinSizeLimit(file.value, 10) ==>
        error == Some(TooLarge.en) && image == old(image) && isCompressing == old(isCompressing)
      ensures file.Some? && Accepted(file.value) ==>
        var c := Compress(file.value, decoding, canvasOk, encode);
        !isCompressing
        && (c.Resolved? ==> error.None? && image == Some(c.image))
        && (c.Rejected? ==> error == Some(ProcessFailed.en) && image == old(image))
    {
      if file.None? {
        return;
      }
      var f := file.value;
      error := None;
      if !IsValidImageType(f) {
        error := Some(InvalidType.en);
        return;
      }
      if !IsWithinSizeLimit(f, 10) {
        error := Some(TooLarge.en);
        return;
      }
      isCompressing := true;
      var c := CompressImage(f, Quality, MaxWidth, decoding, canvasOk, encode);
      match c {
        case Resolved(compressed) =>
          image := Some(compressed);
        case Rejected(_) =>
          error := Some(ProcessFailed.en);
      }
      isCompressing := false;
    }

    /** `handleRemoveImage`. */
    method HandleRemoveImage()
      modifies this
      ensures image.None? && error.None?
      ensures nameEn == old(nameEn) && nameKn == old(nameKn) && positionEn == old(positionEn)
        && positionKn == old(positionKn) && category == old(category) && submitted == old(submitted)
        && isCompressing == old(isCompressing)
    {
      image := None;
      error := None;
    }

    /** `handleSubmit`: the first failing check sets the message and stops; otherwise the payload is submitted. */
    method HandleSubmit()
      modifies this
      ensures nameEn == old(nameEn) && nameKn == old(nameKn) && positionEn == old(positionEn)
        && positionKn == old(positionKn) && category == old(category) && image == old(image)
        && isCompressing == old(isCompressing)
      ensures var e := SubmitError(nameEn, nameKn, positionEn, positionKn, image);
        e.Some? ==> error == e && submitted == old(submitted)
      ensures var e := SubmitError(nameEn, nameKn, positionEn, positionKn, image);
        e.None? ==> (error == old(error)
                     && submitted == old(submitted) + [Payload(nameEn, nameKn, positionEn, positionKn, image.value, category)])
    {
      var blankNameEn := Trim(nameEn) == "";
      assert blankNameEn <==> IsBlank(nameEn) by { TrimEmptyIffBlank(nameEn); }
      if blankNameEn {
        error := Some(NameEnMissing);
        return;
      }
      var blankNameKn := Trim(nameKn) == "";
      assert blankNameKn <==> IsBlank(nameKn) by { TrimEmptyIffBlank(nameKn); }
      if blankNameKn {
        error := Some(NameKnMissing);
        return;
      }
      var blankPositionEn := Trim(positionEn) == "";
      assert blankPositionEn <==> IsBlank(positionEn) by { TrimEmptyIffBlank(positionEn); }
      if blankPositionEn {
        error := Some(PositionEnMissing);
        return;
      }
      var blankPositionKn := Trim(positionKn) == "";
      assert blankPositionKn <==> IsBlank(positionKn) by { TrimEmptyIffBlank(positionKn); }
      if blankPositionKn {
        error := Some(PositionKnMissing);
        return;
      }
      if image.None? {
        error := Some(ImageMissing);
        return;
      }
      submitted := submitted + [Payload(nameEn, nameKn, positionEn, positionKn, image.value, category)];
    }
  }
}

=== FILE: leaders_api.dfy ===
/**
 * The leaders table: the public and the admin queries (which rows, in
 * which order), the row `addLeader` inserts with its defaults, the column
 * changes `updateLeader`, `toggleLeaderActive` and `reorderLeaders` send,
 * and the results each reports. The store's replies are parameters:
 * `configured` says whether a client exists and `error` what the call
 * reported.
 */
module LeadersApi {
  import opened Wrappers
  import opened JsText
  import opened Ordering

  /** `'state' | 'district' | 'ward' | 'area'`. */
  datatype LeaderCategory = State | District | Ward | Area

  function CategoryCode(c: LeaderCategory): string {
    match c
    case State => "state"
    case District => "district"
    case Ward => "ward"
    case Area => "area"
  }

  /** A row of the `leaders` table. Sizes may be null. */
  datatype Leader = Leader(
    id: string,
    createdAt: string,
    nameEn: string,
    nameKn: string,
    positionEn: string,
    positionKn: string,
    imageData: string,
    fileSize: Option<nat>,
    compressedSize: Option<int>,
    mimeType: string,
    category: LeaderCategory,
    displayOrder: int,
    isActive: bool)

  const NotConfigured := "Supabase not configured"

  // Queries

  /** The key of `order('display_order').order('created_at', { ascending: false })`. */
  function OrderKey(l: Leader): (int, string) {
    (l.displayOrder, l.createdAt)
  }

  /** The public order: display order ascending, then newest first. */
  predicate PublicLe(a: Leader, b: Leader) {
    KeyLe(OrderKey(a), OrderKey(b))
  }

  /** The position of a category in `ORDER BY category`: its code's alphabetical place. */
  function CategoryRank(c: LeaderCategory): nat {
    match c
    case Area => 0
    case District => 1
    case State => 2
    case Ward => 3
  }

  /** The rank agrees with comparing the stored codes as text. */
  lemma CategoryRankAlphabetical(a: LeaderCategory, b: LeaderCategory)
    ensures CategoryRank(a) <= CategoryRank(b) <==> LexLe(CategoryCode(a), CategoryCode(b))
  {
    LexLeReflexive(CategoryCode(a));
  }

  /** The admin order: category, then the public order within it. */
  predicate AdminLe(a: Leader, b: Leader) {
    CategoryRank(a.category) < CategoryRank(b.category)
    || (a.category == b.category && PublicLe(a, b))
  }

  lemma PublicOrderTotal()
    ensures TotalPreorder(PublicLe)
  {
    forall a, b ensures PublicLe(a, b) || PublicLe(b, a) {
      KeyLeTotal(OrderKey(a), OrderKey(b));
    }
    forall a, b, c | PublicLe(a, b) && PublicLe(b, c) ensures PublicLe(a, c) {
      KeyLeTransitive(OrderKey(a), OrderKey(b), OrderKey(c));
    }
  }

  lemma AdminOrderTotal()
    ensures TotalPreorder(AdminLe)
  {
    PublicOrderTotal();
    forall a, b ensures AdminLe(a, b) || AdminLe(b, a) {
      assert PublicLe(a, b) || PublicLe(b, a);
    }
    forall a, b, c | AdminLe(a, b) && AdminLe(b, c) ensures AdminLe(a, c) {
      if a.category == b.category && b.category == c.category {
        assert PublicLe(a, c);
      }
    }
  }

  /** Whether the public query returns a row: active, and of the requested category if one is given. */
  predicate Shown(l: Leader, category: Option<LeaderCategory>) {
    l.isActive && (category.Some? ==> l.category == category.value)
  }

  /**
   * `fetchLeaders`: the query is narrowed to active rows, ordered, and
   * narrowed again to one category when one is given. An unconfigured
   * store or a failed query yields no rows.
   */
  method FetchLeaders(configured: bool, category: Option<LeaderCategory>, table: seq<Leader>, error: bool)
    returns (rows: seq<Leader>)
    ensures !configured || error ==> rows == []
    ensures configured && !error ==> SortedBy(rows, PublicLe)
    ensures configured && !error ==>
      forall l :: multiset(rows)[l] == if Shown(l, category) then multiset(table)[l] else 0
  {
    if !configured {
      return [];
    }
    var active := Where(table, (l: Leader) => l.isActive);
    var query := SortBy(active, PublicLe);
    PublicOrderTotal();
    SortBySorted(active, PublicLe);
    var p := (l: Leader) => category.Some? ==> l.category == category.value;
    if category.Some? {
      WhereSorted(query, p, PublicLe);
      forall l ensures multiset(Where(query, p))[l] == if Shown(l, category) then multiset(table)[l] else 0 {
        WhereCount(query, p, l);
        WhereCount(table, (l: Leader) => l.isActive, l);
      }
      query := Where(query, p);
    } else {
      forall l ensures multiset(query)[l] == if Shown(l, category) then multiset(table)[l] else 0 {
        WhereCount(table, (l: Leader) => l.isActive, l);
      }
    }
    if error {
      return [];
    }
    rows := query;
  }

  /** `fetchAllLeaders`: every row, active or not, in the admin order; nothing on failure. */
  function FetchAllLeaders(configured: bool, table: seq<Leader>, error: bool): seq<Leader> {
    if !configured || error then [] else SortBy(table, AdminLe)
  }

  lemma FetchAllLeadersResult(configured: bool, table: seq<Leader>, error: bool)
    ensures var rows := FetchAllLeaders(configured, table, error);
      if !configured || error then rows == []
      else SortedBy(rows, AdminLe) && multiset(rows) == multiset(table)
  {
    if configured && !error {
      AdminOrderTotal();
      SortBySorted(table, AdminLe);
    }
  }

  // Inserting

  /** `AddLeaderParams`: optional members are `None` when absent. */
  datatype AddLeaderParams = AddLeaderParams(
    nameEn: string,
    nameKn: string,
    positionEn: string,
    positionKn: string,
    imageData: string,
    fileSize: Option<int>,
    compressedSize: Option<int>,
    mimeType: Option<string>,
    category: LeaderCategory,
    displayOrder: Option<int>,
    isActive: Option<bool>)

  /** The record `addLeader` inserts. */
  datatype LeaderInsert = LeaderInsert(
    id: string,
    nameEn: string,
    nameKn: string,
    positionEn: string,
    positionKn: string,
    imageData: string,
    fileSize: Option<int>,
    compressedSize: Option<int>,
    mimeType: string,
    category: LeaderCategory,
    displayOrder: int,
    isActive: bool)

  /** `n || null` on an optional number: zero is dropped too. */
  function SizeOrNull(n: Option<int>): (r: Option<int>)
    ensures r.Some? <==> n.Some? && n.value != 0
    ensures r.Some? ==> r == n
  {
    if n.Some? && n.value != 0 then n else None
  }

  /** `mime || 'image/jpeg'`: an absent or empty type becomes JPEG. */
  function MimeOrJpeg(m: Option<string>): (r: string)
    ensures m.Some? && m.value != "" ==> r == m.value
    ensures m.None? || m.value == "" ==> r == "image/jpeg"
  {
    if m.Some? && m.value != "" then m.value else "image/jpeg"
  }

  /** The inserted record: the given details, with each optional column defaulted as the store call does. */
  function LeaderInsertOf(id: string, p: AddLeaderParams): (row: LeaderInsert)
    ensures row.id == id && row.category == p.category
    ensures row.nameEn == p.nameEn && row.nameKn == p.nameKn && row.positionEn == p.positionEn && row.positionKn == p.positionKn
    ensures row.imageData == p.imageData
    ensures row.fileSize == SizeOrNull(p.fileSize) && row.compressedSize == SizeOrNull(p.compressedSize)
    ensures row.mimeType == MimeOrJpeg(p.mimeType)
    // `display_order || 0` and `is_active ?? true`: an explicit `false` stays
    ensures row.displayOrder == p.displayOrder.GetOr(0)
    ensures row.isActive == (p.isActive != Some(false))
  {
    LeaderInsert(id, p.nameEn, p.nameKn, p.positionEn, p.positionKn, p.imageData,
      SizeOrNull(p.fileSize), SizeOrNull(p.compressedSize), MimeOrJpeg(p.mimeType), p.category,
      if p.displayOrder.Some? && p.displayOrder.value != 0 then p.displayOrder.value else 0,
      if p.isActive.Some? then p.isActive.value else true)
  }

  /**
   * `addLeader`, with `id` standing for the generated UUID: the outcome and
   * the record handed to the store, if any.
   */
  function AddLeader(p: AddLeaderParams, configured: bool, id: string, error: Option<string>): (r: (Outcome, Option<LeaderInsert>))
    ensures !configured ==> r == (Outcome(false, Some(NotConfigured), None), None)
    ensures configured ==> r.1 == Some(LeaderInsertOf(id, p))
    ensures configured ==> (r.0.success <==> error.None?)
    ensures configured && error.Some? ==> r.0.error == error && r.0.id.None?
    ensures configured && error.None? ==> r.0.id == Some(id) && r.0.error.None?
  {
    if !configured then (Outcome(false, Some(NotConfigured), None), None)
    else if error.Some? then (Outcome(false, Some(error.value), None), Some(LeaderInsertOf(id, p)))
    else (Outcome(true, None, Some(id)), Some(LeaderInsertOf(id, p)))
  }

  // Updating

  /** One column an update sets. */
  datatype Change = SetActive(active: bool) | SetDisplayOrder(order: int)

  /** A row after an update record is applied to it, column by column. */
  function Apply(l: Leader, changes: seq<Change>): Leader
    decreases |changes|
  {
    if changes == [] then l
    else
      var l' := match changes[0]
        case SetActive(b) => l.(isActive := b)
        case SetDisplayOrder(n) => l.(displayOrder := n);
      Apply(l', changes[1..])
  }

  /** `update(changes).eq('id', id)` on the table: the rows with that id change, and only those. */
  function UpdateWhereId(table: seq<Leader>, id: string, changes: seq<Change>): (r: seq<Leader>)
    ensures |r| == |table|
    ensures forall i :: 0 <= i < |table| ==> r[i] == if table[i].id == id then Apply(table[i], changes) else table[i]
  {
    seq(|table|, i requires 0 <= i < |table| => if table[i].id == id then Apply(table[i], changes) else table[i])
  }

  /**
   * `updateLeader` on the table: it reports success exactly when a client
   * exists and the store reported no error, and only then do the rows with
   * that id take the changes.
   */
  function UpdateLeader(table: seq<Leader>, id: string, changes: seq<Change>, configured: bool, error: bool)
    : (r: (bool, seq<Leader>))
    ensures r.0 <==> configured && !error
    ensures r.0 ==> r.1 == UpdateWhereId(table, id, changes)
    ensures !r.0 ==> r.1 == table
  {
    if !configured || error then (false, table) else (true, UpdateWhereId(table, id, changes))
  }

  /**
   * `deleteLeader` on the table: on success no row with that id is left and
   * every other row stays; on failure nothing changes.
   */
  function DeleteLeader(table: seq<Leader>, id: string, configured: bool, error: bool): (r: (bool, seq<Leader>))
    ensures r.0 <==> configured && !error
    ensures r.0 ==> forall l :: l in r.1 <==> l in table && l.id != id
    ensures !r.0 ==> r.1 == table
  {
    if !configured || error then (false, table) else (true, Where(table, (l: Leader) => l.id != id))
  }

  /** A successful delete keeps every copy of each row with another id and no copy of a row with that id. */
  lemma DeleteLeaderCount(table: seq<Leader>, id: string, configured: bool, error: bool, l: Leader)
    ensures var r := DeleteLeader(table, id, configured, error);
      r.0 ==> multiset(r.1)[l] == if l.id != id then multiset(table)[l] else 0
  {
    WhereCount(table, (x: Leader) => x.id != id, l);
  }

  /** `toggleLeaderActive`: `updateLeader` with only `is_active` set. */
  function ToggleChanges(isActive: bool): seq<Change> {
    [SetActive(isActive)]
  }

  /** Toggling changes the active flag of the matching rows and nothing else. */
  lemma ToggleOnlyActive(table: seq<Leader>, id: string, isActive: bool)
    ensures var r := UpdateWhereId(table, id, ToggleChanges(isActive));
      forall i :: 0 <= i < |table| ==>
        r[i] == if table[i].id == id then table[i].(isActive := isActive) else table[i]
  {
    forall i | 0 <= i < |table| && table[i].id == id
      ensures Apply(table[i], ToggleChanges(isActive)) == table[i].(isActive := isActive)
    {
      assert ToggleChanges(isActive)[1..] == [];
    }
  }

  /** The updates `reorderLeaders` issues: one `display_order` change per entry, in the given order. */
  function ReorderUpdates(orderedIds: seq<(string, int)>): (r: seq<(string, seq<Change>)>)
    ensures |r| == |orderedIds|
    ensures forall i :: 0 <= i < |r| ==> r[i] == (orderedIds[i].0, [SetDisplayOrder(orderedIds[i].1)])
  {
    seq(|orderedIds|, i requires 0 <= i < |orderedIds| => (orderedIds[i].0, [SetDisplayOrder(orderedIds[i].1)]))
  }

  /** `results.every(r => !r.error)`. */
  function NoneFailed(failed: seq<bool>): (ok: bool)
    ensures ok <==> forall i :: 0 <= i < |failed| ==> !failed[i]
  {
    if failed == [] then true else !failed[0] && NoneFailed(failed[1..])
  }

  /**
   * `reorderLeaders`: `failed[i]` is whether update i reported an error. It
   * succeeds exactly when a client exists and no update failed.
   */
  function ReorderLeaders(orderedIds: seq<(string, int)>, configured: bool, failed: seq<bool>): (ok: bool)
    requires |failed| == |orderedIds|
  {
    configured && NoneFailed(failed)
  }

  /** One failed update fails the batch; an empty batch succeeds whenever a client exists. */
  lemma ReorderLeadersResult(orderedIds: seq<(string, int)>, configured: bool, failed: seq<bool>, k: nat)
    requires |failed| == |orderedIds|
    ensures ReorderLeaders(orderedIds, configured, failed) <==> configured && forall i :: 0 <= i < |failed| ==> !failed[i]
    ensures k < |failed| && failed[k] ==> !ReorderLeaders(orderedIds, configured, failed)
    ensures orderedIds == [] ==> ReorderLeaders(orderedIds, configured, failed) == configured
  {
  }
}

=== FILE: leaders_manager.dfy ===
/**
 * The admin list of leaders. Dragging a leader within its category moves
 * it (`arrayMove`), puts the category's block after the other leaders in
 * the local list, and persists a dense 0-based `display_order` for the
 * block; the persistence result is not looked at. Toggling and deleting
 * change the local list only after the store call succeeds.
 */
module LeadersManager {
  import opened Wrappers
  import opened Ordering
  import opened LeadersApi

  function InCategory(c: LeaderCategory): Leader -> bool {
    (l: Leader) => l.category == c
  }

  function NotInCategory(c: LeaderCategory): Leader -> bool {
    (l: Leader) => l.category != c
  }

  /** `getLeadersByCategory`: the leaders of one category, in list order. */
  function ByCategory(leaders: seq<Leader>, c: LeaderCategory): seq<Leader> {
    Where(leaders, InCategory(c))
  }

  /** The leaders of every other category, in list order. */
  function OtherCategories(leaders: seq<Leader>, c: LeaderCategory): seq<Leader> {
    Where(leaders, NotInCategory(c))
  }

  function Ids(leaders: seq<Leader>): (ids: seq<string>)
    ensures |ids| == |leaders|
    ensures forall i :: 0 <= i < |leaders| ==> ids[i] == leaders[i].id
  {
    seq(|leaders|, i requires 0 <= i < |leaders| => leaders[i].id)
  }

  /** `findIndex(l => l.id === id)`: the first position holding that id, or -1. */
  function FindIndex(leaders: seq<Leader>, id: string): (i: int)
    ensures -1 <= i < |leaders|
    ensures i >= 0 ==> leaders[i].id == id && forall j :: 0 <= j < i ==> leaders[j].id != id
    ensures i == -1 <==> id !in Ids(leaders)
  {
    if leaders == [] then -1
    else if leaders[0].id == id then
      assert Ids(leaders)[0] == id;
      0
    else
      var k := FindIndex(leaders[1..], id);
      FindIndexShift(leaders, id, k);
      if k == -1 then -1 else k + 1
  }

  /** A first position in the tail, shifted by one, is the first position in the whole list when the head differs. */
  lemma FindIndexShift(leaders: seq<Leader>, id: string, k: int)
    requires |leaders| > 0 && leaders[0].id != id && -1 <= k < |leaders| - 1
    requires k >= 0 ==> leaders[1..][k].id == id && forall j :: 0 <= j < k ==> leaders[1..][j].id != id
    requires k == -1 <==> id !in Ids(leaders[1..])
    ensures k >= 0 ==> leaders[k + 1].id == id && forall j :: 0 <= j < k + 1 ==> leaders[j].id != id
    ensures k == -1 <==> id !in Ids(leaders)
  {
    assert Ids(leaders) == [leaders[0].id] + Ids(leaders[1..]);
    if k >= 0 {
      forall j | 1 <= j < k + 1 ensures leaders[j].id != id {
        assert leaders[j] == leaders[1..][j - 1];
      }
    }
  }

  /** `arrayMove(s, from, to)`: take the element at `from` out and insert it at `to`. */
  function ArrayMove<T>(s: seq<T>, from: nat, to: nat): (r: seq<T>)
    requires from < |s| && to < |s|
    ensures |r| == |s| && r[to] == s[from]
    ensures multiset(r) == multiset(s)
  {
    var rest := s[..from] + s[from + 1..];
    assert s == s[..from] + [s[from]] + s[from + 1..];
    assert multiset(s) == multiset(rest) + multiset{s[from]};
    assert rest == rest[..to] + rest[to..];
    assert multiset(rest) == multiset(rest[..to]) + multiset(rest[to..]);
    rest[..to] + [s[from]] + rest[to..]
  }

  /** Moving an element back to where it came from restores the list. */
  lemma ArrayMoveBack<T>(s: seq<T>, from: nat, to: nat)
    requires from < |s| && to < |s|
    ensures ArrayMove(ArrayMove(s, from, to), to, from) == s
  {
    var rest := s[..from] + s[from + 1..];
    var r := ArrayMove(s, from, to);
    assert r[..to] + r[to + 1..] == rest;
    assert rest[..from] == s[..from] && rest[from..] == s[from + 1..];
    assert s == s[..from] + [s[from]] + s[from + 1..];
  }

  /** Moving an element onto its own place changes nothing. */
  lemma ArrayMoveSame<T>(s: seq<T>, i: nat)
    requires i < |s|
    ensures ArrayMove(s, i, i) == s
  {
    assert s == s[..i] + [s[i]] + s[i + 1..];
  }

  /** The `display_order` assignments persisted for a block: each leader gets its position. */
  function DenseOrder(block: seq<Leader>): (r: seq<(string, int)>)
    ensures |r| == |block|
    ensures forall i :: 0 <= i < |r| ==> r[i] == (block[i].id, i)
  {
    seq(|block|, i requires 0 <= i < |block| => (block[i].id, i))
  }

  /** The local list after a drag in category `c`: the other leaders, then the moved block. */
  function Dragged(leaders: seq<Leader>, c: LeaderCategory, from: nat, to: nat): seq<Leader>
    requires from < |ByCategory(leaders, c)| && to < |ByCategory(leaders, c)|
  {
    OtherCategories(leaders, c) + ArrayMove(ByCategory(leaders, c), from, to)
  }

  /** A drag keeps exactly the same leaders. */
  lemma DraggedIsPermutation(leaders: seq<Leader>, c: LeaderCategory, from: nat, to: nat)
    requires from < |ByCategory(leaders, c)| && to < |ByCategory(leaders, c)|
    ensures multiset(Dragged(leaders, c, from, to)) == multiset(leaders)
  {
    WhereSplit(leaders, InCategory(c), NotInCategory(c));
  }

  /** After a drag, the dragged category reads as the moved block. */
  lemma DraggedCategory(leaders: seq<Leader>, c: LeaderCategory, from: nat, to: nat)
    requires from < |ByCategory(leaders, c)| && to < |ByCategory(leaders, c)|
    ensures ByCategory(Dragged(leaders, c, from, to), c) == ArrayMove(ByCategory(leaders, c), from, to)
  {
    var others := OtherCategories(leaders, c);
    var block := ArrayMove(ByCategory(leaders, c), from, to);
    var isC := InCategory(c);
    WhereAppend(others, block, isC);
    forall i | 0 <= i < |block| ensures isC(block[i]) {
      assert block[i] in multiset(ByCategory(leaders, c));
    }
    WhereAll(block, isC);
    forall i | 0 <= i < |others| ensures !isC(others[i]) {
      assert others[i] in others;
    }
    WhereNone(others, isC);
  }

  /** After a drag, every other category keeps its leaders in their previous relative order. */
  lemma DraggedOtherCategory(leaders: seq<Leader>, c: LeaderCategory, from: nat, to: nat, d: LeaderCategory)
    requires from < |ByCategory(leaders, c)| && to < |ByCategory(leaders, c)|
    requires d != c
    ensures ByCategory(Dragged(leaders, c, from, to), d) == ByCategory(leaders, d)
  {
    var inC := ByCategory(leaders, c);
    var block := ArrayMove(inC, from, to);
    var others := OtherCategories(leaders, c);
    var isD := InCategory(d);
    WhereAppend(others, block, isD);
    forall i | 0 <= i < |block| ensures !isD(block[i]) {
      var b := block[i];
      assert b in multiset(inC);
      assert b in inC;
    }
    WhereNone(block, isD);
    WhereWhere(leaders, NotInCategory(c), isD);
    assert Where(others + block, isD) == Where(others, isD) + [];
  }

  /** The four category tabs together count every leader the "All" tab counts. */
  lemma {:induction false} CategoryCounts(leaders: seq<Leader>)
    ensures |ByCategory(leaders, State)| + |ByCategory(leaders, District)| + |ByCategory(leaders, Ward)|
      + |ByCategory(leaders, Area)| == |leaders|
  {
    if leaders != [] {
      CategoryCounts(leaders[1..]);
    }
  }

  /** The list on screen: every leader for the "all" tab (`None`), else one category. */
  function Filtered(leaders: seq<Leader>, filter: Option<LeaderCategory>): (shown: seq<Leader>)
    ensures filter.None? ==> shown == leaders
    ensures filter.Some? ==> forall l :: l in shown <==> l in leaders && l.category == filter.value
  {
    if filter.None? then leaders else ByCategory(leaders, filter.value)
  }

  class Manager {
    var leaders: seq<Leader>
    var showForm: bool
    /** The leader whose edit form is open, if any. */
    var editingLeader: Option<Leader>
    var isSubmitting: bool
    var deletingId: Option<string>
    var togglingId: Option<string>
    /** The `alert` messages shown, oldest first. */
    var alerts: seq<string>
    /** The batches handed to `reorderLeaders`, oldest first. */
    var reorders: seq<seq<(string, int)>>

    /** The list as loaded by `fetchAllLeaders`. */
    constructor(loaded: seq<Leader>)
      ensures leaders == loaded && !showForm && editingLeader.None? && !isSubmitting
      ensures deletingId.None? && togglingId.None? && alerts == [] && reorders == []
    {
      leaders := loaded;
      showForm, editingLeader, isSubmitting := false, None, false;
      deletingId, togglingId := None, None;
      alerts, reorders := [], [];
    }

    /**
     * `handleDragEnd` for the list of category `c`. Both ids come from that
     * list, which is what its drag context offers. A drop outside the list
     * or onto the dragged leader itself does nothing.
     */
    method HandleDragEnd(activeId: string, overId: Option<string>, c: LeaderCategory)
      requires overId.Some? ==> activeId in Ids(ByCategory(leaders, c)) && overId.value in Ids(ByCategory(leaders, c))
      modifies this
      ensures deletingId == old(deletingId) && togglingId == old(togglingId) && alerts == old(alerts)
      ensures showForm == old(showForm) && editingLeader == old(editingLeader) && isSubmitting == old(isSubmitting)
      ensures overId.None? || overId.value == activeId ==> leaders == old(leaders) && reorders == old(reorders)
      ensures overId.Some? && overId.value != activeId ==>
        var block := ByCategory(old(leaders), c);
        var from, to := FindIndex(block, activeId), FindIndex(block, overId.value);
        0 <= from < |block| && 0 <= to < |block|
        && leaders == Dragged(old(leaders), c, from, to)
        && reorders == old(reorders) + [DenseOrder(ArrayMove(block, from, to))]
    {
      if overId.None? || activeId == overId.value {
        return;
      }
      var categoryLeaders := ByCategory(leaders, c);
      var oldIndex := FindIndex(categoryLeaders, activeId);
      var newIndex := FindIndex(categoryLeaders, overId.value);
      var reordered := ArrayMove(categoryLeaders, oldIndex, newIndex);
      leaders := OtherCategories(leaders, c) + reordered;
      reorders := reorders + [DenseOrder(reordered)];
    }

    /**
     * `handleAddLeader`: `result` is what `addLeader` returned and `reloaded`
     * what the following `fetchAllLeaders` returns. Success closes the form
     * and reloads; failure shows the store's message, or a fixed one.
     */
    method HandleAddLeader(result: Outcome, reloaded: seq<Leader>)
      modifies this
      ensures !isSubmitting && editingLeader == old(editingLeader)
      ensures deletingId == old(deletingId) && togglingId == old(togglingId) && reorders == old(reorders)
      ensures result.success ==> !showForm && leaders == reloaded && alerts == old(alerts)
      ensures !result.success ==> (showForm == old(showForm) && leaders == old(leaders)
        && alerts == old(alerts) + [MessageOr(result.error, "Failed to add leader")])
    {
      isSubmitting := true;
      isSubmitting := false;
      if result.success {
        showForm := false;
        leaders := reloaded;
      } else {
        alerts := alerts + [MessageOr(result.error, "Failed to add leader")];
      }
    }

    /**
     * `handleUpdateLeader`: does nothing unless an edit is open; `success` is
     * what `updateLeader` returned for the edited leader's id.
     */
    method HandleUpdateLeader(success: bool, reloaded: seq<Leader>)
      modifies this
      ensures showForm == old(showForm) && deletingId == old(deletingId) && togglingId == old(togglingId)
      ensures reorders == old(reorders)
      ensures old(editingLeader).None? ==> (leaders == old(leaders) && alerts == old(alerts)
        && editingLeader.None? && isSubmitting == old(isSubmitting))
      ensures old(editingLeader).Some? && success ==> (!isSubmitting && editingLeader.None? && leaders == reloaded
        && alerts == old(alerts))
      ensures old(editingLeader).Some? && !success ==> (!isSubmitting && editingLeader == old(editingLeader)
        && leaders == old(leaders) && alerts == old(alerts) + ["Failed to update leader"])
    {
      if editingLeader.None? {
        return;
      }
      isSubmitting := true;
      isSubmitting := false;
      if success {
        editingLeader := None;
        leaders := reloaded;
      } else {
        alerts := alerts + ["Failed to update leader"];
      }
    }

    /** `handleToggleActive`: `success` is what `toggleLeaderActive` returned. */
    method HandleToggleActive(id: string, currentActive: bool, success: bool)
      modifies this
      ensures togglingId.None? && deletingId == old(deletingId) && reorders == old(reorders)
      ensures showForm == old(showForm) && editingLeader == old(editingLeader) && isSubmitting == old(isSubmitting)
      ensures success ==> (|leaders| == |old(leaders)| && alerts == old(alerts)
        && forall i :: 0 <= i < |leaders| ==>
          leaders[i] == if old(leaders)[i].id == id then old(leaders)[i].(isActive := !currentActive) else old(leaders)[i])
      ensures !success ==> leaders == old(leaders) && alerts == old(alerts) + ["Failed to update leader status"]
    {
      togglingId := Some(id);
      togglingId := None;
      if success {
        var current := leaders;
        leaders := seq(|current|, i requires 0 <= i < |current| =>
          if current[i].id == id then current[i].(isActive := !currentActive) else current[i]);
      } else {
        alerts := alerts + ["Failed to update leader status"];
      }
    }

    /** `handleDelete`: `confirmed` is the dialog's answer and `success` what `deleteLeader` returned. */
    method HandleDelete(id: string, confirmed: bool, success: bool)
      modifies this
      ensures togglingId == old(togglingId) && reorders == old(reorders)
      ensures showForm == old(showForm) && editingLeader == old(editingLeader) && isSubmitting == old(isSubmitting)
      ensures !confirmed ==> leaders == old(leaders) && alerts == old(alerts) && deletingId == old(deletingId)
      ensures confirmed ==> deletingId.None?
      ensures confirmed && success ==> leaders == Where(old(leaders), (l: Leader) => l.id != id) && alerts == old(alerts)
      ensures confirmed && !success ==> leaders == old(leaders) && alerts == old(alerts) + ["Failed to delete leader"]
    {
      if !confirmed {
        return;
      }
      deletingId := Some(id);
      deletingId := None;
      if success {
        leaders := Where(leaders, (l: Leader) => l.id != id);
      } else {
        alerts := alerts + ["Failed to delete leader"];
      }
    }
  }

  /** Deleting removes every row with that id and keeps every copy of each other row. */
  lemma DeleteRemovesOnly(leaders: seq<Leader>, id: string, other: Leader)
    ensures id !in Ids(Where(leaders, (l: Leader) => l.id != id))
    ensures other.id != id ==> (other in Where(leaders, (l: Leader) => l.id != id) <==> other in leaders)
    ensures multiset(Where(leaders, (l: Leader) => l.id != id))[other] ==
      if other.id != id then multiset(leaders)[other] else 0
  {
    WhereCount(leaders, (l: Leader) => l.id != id, other);
    var kept := Where(leaders, (l: Leader) => l.id != id);
    forall i | 0 <= i < |kept| ensures Ids(kept)[i] != id {
      assert kept[i] in kept;
    }
  }
}

=== FILE: ordering.dfy ===
/**
 * The order in which the hosted data store hands rows back (`ORDER BY`):
 * a stable insertion sort under a caller-supplied "sorts no later than"
 * relation, with its two promises proved once for every query that uses
 * it: the result is sorted, and it holds exactly the rows it was given.
 */
module Ordering {
  import opened JsText

  /** `le` is total and transitive: every pair of rows can be placed, consistently. */
  ghost predicate TotalPreorder<T(!new)>(le: (T, T) -> bool) {
    (forall a, b :: le(a, b) || le(b, a))
    && (forall a, b, c :: le(a, b) && le(b, c) ==> le(a, c))
  }

  predicate SortedBy<T>(s: seq<T>, le: (T, T) -> bool) {
    forall i, j :: 0 <= i < j < |s| ==> le(s[i], s[j])
  }

  /** Places `x` before the first element it sorts no later than. */
  function Insert<T>(x: T, s: seq<T>, le: (T, T) -> bool): (r: seq<T>)
    ensures |r| == |s| + 1
    ensures multiset(r) == multiset(s) + multiset{x}
  {
    if s == [] then [x]
    else if le(x, s[0]) then [x] + s
    else
      assert s == [s[0]] + s[1..];
      [s[0]] + Insert(x, s[1..], le)
  }

  /** The rows of `s` in the order `le` describes. */
  function SortBy<T>(s: seq<T>, le: (T, T) -> bool): (r: seq<T>)
    ensures multiset(r) == multiset(s)
  {
    if s == [] then []
    else
      assert s == [s[0]] + s[1..];
      Insert(s[0], SortBy(s[1..], le), le)
  }

  lemma {:induction false} InsertSorted<T(!new)>(x: T, s: seq<T>, le: (T, T) -> bool)
    requires TotalPreorder(le)
    requires SortedBy(s, le)
    ensures SortedBy(Insert(x, s, le), le)
  {
    if s != [] && !le(x, s[0]) {
      InsertSorted(x, s[1..], le);
      var t := Insert(x, s[1..], le);
      assert le(s[0], x);
      forall k | 0 <= k < |t| ensures le(s[0], t[k]) {
        assert t[k] in multiset(t);
        assert t[k] == x || t[k] in multiset(s[1..]);
        if t[k] != x {
          var m :| 0 <= m < |s[1..]| && s[1..][m] == t[k];
          assert s[m + 1] == t[k];
        }
      }
    }
  }

  /** The result is sorted. */
  lemma {:induction false} SortBySorted<T(!new)>(s: seq<T>, le: (T, T) -> bool)
    requires TotalPreorder(le)
    ensures SortedBy(SortBy(s, le), le)
  {
    if s != [] {
      SortBySorted(s[1..], le);
      InsertSorted(s[0], SortBy(s[1..], le), le);
    }
  }

  /** A row sorts into the result exactly when it was in the input. */
  lemma SortByMembers<T>(s: seq<T>, le: (T, T) -> bool, x: T)
    ensures x in SortBy(s, le) <==> x in s
  {
    assert x in multiset(SortBy(s, le)) <==> x in multiset(s);
  }

  // Filters (`WHERE`, `Array.prototype.filter`)

  /** The elements of `s` that satisfy `p`, in their order in `s`. */
  function Where<T(!new)>(s: seq<T>, p: T -> bool): (r: seq<T>)
    ensures |r| <= |s|
    ensures forall x :: x in r <==> x in s && p(x)
  {
    if s == [] then []
    else if p(s[0]) then [s[0]] + Where(s[1..], p)
    else Where(s[1..], p)
  }

  /** Filtering distributes over concatenation, so it keeps the relative order of what it keeps. */
  lemma {:induction false} WhereAppend<T(!new)>(a: seq<T>, b: seq<T>, p: T -> bool)
    ensures Where(a + b, p) == Where(a, p) + Where(b, p)
  {
    if a != [] {
      assert (a + b)[1..] == a[1..] + b;
      WhereAppend(a[1..], b, p);
    } else {
      assert a + b == b;
    }
  }

  /** Filtering keeps every copy of an element it accepts and none of one it rejects. */
  lemma {:induction false} WhereCount<T(!new)>(s: seq<T>, p: T -> bool, x: T)
    ensures multiset(Where(s, p))[x] == if p(x) then multiset(s)[x] else 0
  {
    if s != [] {
      WhereCount(s[1..], p, x);
      assert s == [s[0]] + s[1..];
      assert multiset(s) == multiset{s[0]} + multiset(s[1..]);
      if p(s[0]) {
        assert multiset(Where(s, p)) == multiset{s[0]} + multiset(Where(s[1..], p));
      }
    }
  }

  /** Splitting by a test and its negation loses and adds nothing. */
  lemma WhereSplit<T(!new)>(s: seq<T>, p: T -> bool, q: T -> bool)
    requires forall x :: q(x) <==> !p(x)
    ensures multiset(Where(s, p)) + multiset(Where(s, q)) == multiset(s)
  {
    forall x ensures (multiset(Where(s, p)) + multiset(Where(s, q)))[x] == multiset(s)[x] {
      WhereCount(s, p, x);
      WhereCount(s, q, x);
    }
  }

  /** A filter that accepts everything in `s` returns `s`. */
  lemma {:induction false} WhereAll<T(!new)>(s: seq<T>, p: T -> bool)
    requires forall i :: 0 <= i < |s| ==> p(s[i])
    ensures Where(s, p) == s
  {
    if s != [] {
      WhereAll(s[1..], p);
    }
  }

  /** A filter that accepts nothing in `s` returns nothing. */
  lemma {:induction false} WhereNone<T(!new)>(s: seq<T>, p: T -> bool)
    requires forall i :: 0 <= i < |s| ==> !p(s[i])
    ensures Where(s, p) == []
  {
    if s != [] {
      WhereNone(s[1..], p);
    }
  }

  /** Filtering by a weaker test first changes nothing. */
  lemma {:induction false} WhereWhere<T(!new)>(s: seq<T>, p: T -> bool, q: T -> bool)
    requires forall x :: q(x) ==> p(x)
    ensures Where(Where(s, p), q) == Where(s, q)
  {
    if s != [] {
      WhereWhere(s[1..], p, q);
      if p(s[0]) {
        assert Where(s, p) == [s[0]] + Where(s[1..], p);
        assert Where(s, p)[1..] == Where(s[1..], p);
      }
    }
  }

  /** In a sorted sequence the first element sorts no later than any later one. */
  lemma SortedHead<T>(s: seq<T>, le: (T, T) -> bool, x: T)
    requires SortedBy(s, le) && |s| > 0 && x in s[1..]
    ensures le(s[0], x)
  {
    var k :| 0 <= k < |s[1..]| && s[1..][k] == x;
    assert s[k + 1] == x;
  }

  lemma SortedTail<T>(s: seq<T>, le: (T, T) -> bool)
    requires SortedBy(s, le) && |s| > 0
    ensures SortedBy(s[1..], le)
  {
    forall i, j | 0 <= i < j < |s[1..]| ensures le(s[1..][i], s[1..][j]) {
      assert s[1..][i] == s[i + 1] && s[1..][j] == s[j + 1];
    }
  }

  /** A filtered sorted sequence is still sorted. */
  lemma {:induction false} WhereSorted<T(!new)>(s: seq<T>, p: T -> bool, le: (T, T) -> bool)
    requires SortedBy(s, le)
    ensures SortedBy(Where(s, p), le)
  {
    if s != [] {
      var t := Where(s[1..], p);
      SortedTail(s, le);
      WhereSorted(s[1..], p, le);
      if p(s[0]) {
        var r := [s[0]] + t;
        assert Where(s, p) == r;
        forall i, j | 0 <= i < j < |r| ensures le(r[i], r[j]) {
          assert r[j] == t[j - 1] && t[j - 1] in t;
          if i == 0 {
            SortedHead(s, le, t[j - 1]);
          } else {
            assert r[i] == t[i - 1];
          }
        }
      }
    }
  }

  // Sort keys

  /** `ORDER BY display_order ASC, created_at DESC` on a key pair; ISO timestamps order as text. */
  predicate KeyLe(a: (int, string), b: (int, string)) {
    a.0 < b.0 || (a.0 == b.0 && LexLe(b.1, a.1))
  }

  lemma KeyLeTotal(a: (int, string), b: (int, string))
    ensures KeyLe(a, b) || KeyLe(b, a)
  {
    LexLeTotal(a.1, b.1);
  }

  lemma KeyLeTransitive(a: (int, string), b: (int, string), c: (int, string))
    requires KeyLe(a, b) && KeyLe(b, c)
    ensures KeyLe(a, c)
  {
    if a.0 == b.0 && b.0 == c.0 {
      LexLeTransitive(c.1, b.1, a.1);
    }
  }
}

=== FILE: scheme_form.dfy ===
/**
 * The application form of one scheme: the answers collected so far, the
 * error shown under each field, and the validation run on submit. The
 * validator walks the scheme's fields in order and, for each, runs the
 * required check and then the length checks; a later failing check
 * replaces the message of an earlier one.
 */
module SchemeForm {
  import opened Wrappers
  import opened JsText
  import opened Types

  // ---------------------------------------------------------------------------
  // Values and messages

  /** JavaScript falsiness of an answer (`undefined` is `None`). */
  predicate Falsy(v: Option<FieldValue>) {
    match v
    case None => true
    case Some(Null) => true
    case Some(Str(s)) => s == []
    case Some(Bool(b)) => !b
    case Some(Upload(_)) => false
  }

  /** `value === '' || value === undefined || value === null`. */
  predicate Missing(v: Option<FieldValue>) {
    v == None || v == Some(Null) || v == Some(Str(""))
  }

  const UploadMessage := BilingualText("Please upload this document", "ದಯವಿಟ್ಟು ಈ ದಾಖಲೆಯನ್ನು ಅಪ್‌ಲೋಡ್ ಮಾಡಿ")
  const RequiredMessage := BilingualText("This field is required", "ಈ ಕ್ಷೇತ್ರ ಅಗತ್ಯವಿದೆ")

  function MinMessage(n: nat): BilingualText {
    BilingualText("Minimum " + NatToString(n) + " characters required", "ಕನಿಷ್ಠ " + NatToString(n) + " ಅಕ್ಷರಗಳು ಅಗತ್ಯ")
  }

  function MaxMessage(n: nat): BilingualText {
    BilingualText("Maximum " + NatToString(n) + " characters allowed", "ಗರಿಷ್ಠ " + NatToString(n) + " ಅಕ್ಷರಗಳು ಅನುಮತಿಸಲಾಗಿದೆ")
  }

  /** The value a field starts with when the form opens. */
  function InitialValue(f: FormField): (v: FieldValue)
    ensures f.kind == CheckboxField ==> v == Bool(false)
    ensures f.kind == ImageField ==> v == Null
    ensures f.kind != CheckboxField && f.kind != ImageField ==> v == Str("")
  {
    if f.kind == CheckboxField then Bool(false)
    else if f.kind == ImageField then Null
    else Str("")
  }

  // ---------------------------------------------------------------------------
  // The checks of one field

  /** The required check: an image needs a truthy value, any other field one that is not '', undefined or null. */
  function RequiredError(f: FormField, v: Option<FieldValue>): Option<BilingualText> {
    if !f.required then None
    else if f.kind == ImageField then (if Falsy(v) then Some(UploadMessage) else None)
    else if Missing(v) then Some(RequiredMessage)
    else None
  }

  /** A string shorter than a non-zero minimum. */
  predicate TooShort(f: FormField, v: Option<FieldValue>) {
    f.validation.Some? && v.Some? && v.value.Str? && f.validation.value.minLength != 0
    && JsLength(v.value.s) < f.validation.value.minLength
  }

  /** A string longer than a non-zero maximum. */
  predicate TooLong(f: FormField, v: Option<FieldValue>) {
    f.validation.Some? && v.Some? && v.value.Str? && f.validation.value.maxLength != 0
    && JsLength(v.value.s) > f.validation.value.maxLength
  }

  /** The message the field ends up with: the last of the three checks that fails. */
  function FieldError(f: FormField, v: Option<FieldValue>): Option<BilingualText> {
    if TooLong(f, v) then Some(MaxMessage(f.validation.value.maxLength))
    else if TooShort(f, v) then Some(MinMessage(f.validation.value.minLength))
    else RequiredError(f, v)
  }

  /** One step of the validator: record the field's message, in the chosen language, if it has one. */
  function Step(acc: seq<(string, string)>, f: FormField, data: FormData, lang: Language): seq<(string, string)> {
    var e := FieldError(f, Get(data, f.id));
    if e.Some? then Put(acc, f.id, Pick(e.value, lang)) else acc
  }

  /** The error map `validate` builds from the answers, field by field. */
  function Errors(fields: seq<FormField>, data: FormData, lang: Language): seq<(string, string)> {
    if fields == [] then []
    else Step(Errors(fields[..|fields| - 1], data, lang), fields[|fields| - 1], data, lang)
  }

  /** The answers the form starts with, field by field. */
  function InitialData(fields: seq<FormField>): FormData {
    if fields == [] then []
    else Put(InitialData(fields[..|fields| - 1]), fields[|fields| - 1].id, InitialValue(fields[|fields| - 1]))
  }

  // ---------------------------------------------------------------------------
  // What validation promises

  predicate NoneFail(fields: seq<FormField>, data: FormData) {
    forall i :: 0 <= i < |fields| ==> FieldError(fields[i], Get(data, fields[i].id)).None?
  }

  /** The form is valid exactly when no field fails any of its checks. */
  lemma {:induction false} ErrorsEmptyIff(fields: seq<FormField>, data: FormData, lang: Language)
    ensures Errors(fields, data, lang) == [] <==> NoneFail(fields, data)
  {
    if fields != [] {
      var init := fields[..|fields| - 1];
      var f := fields[|fields| - 1];
      ErrorsEmptyIff(init, data, lang);
      var e := FieldError(f, Get(data, f.id));
      if e.Some? {
        assert |Put(Errors(init, data, lang), f.id, Pick(e.value, lang))| >= 1;
      }
      assert forall i :: 0 <= i < |init| ==> init[i] == fields[i];
    }
  }

  /** Only field ids appear as keys, each at most once. */
  lemma {:induction false} ErrorKeys(fields: seq<FormField>, data: FormData, lang: Language)
    ensures KeysUnique(Errors(fields, data, lang))
    ensures forall k :: k in Keys(Errors(fields, data, lang)) ==> exists i :: 0 <= i < |fields| && fields[i].id == k
  {
    if fields != [] {
      var init := fields[..|fields| - 1];
      var f := fields[|fields| - 1];
      ErrorKeys(init, data, lang);
      var acc := Errors(init, data, lang);
      var e := FieldError(f, Get(data, f.id));
      if e.Some? {
        KeysUniquePut(acc, f.id, Pick(e.value, lang));
        KeysPut(acc, f.id, Pick(e.value, lang));
      }
      forall k | k in Keys(Errors(fields, data, lang)) ensures exists i :: 0 <= i < |fields| && fields[i].id == k {
        if k == f.id {
          assert fields[|fields| - 1].id == k;
        } else {
          assert k in Keys(acc);
          var i :| 0 <= i < |init| && init[i].id == k;
          assert fields[i].id == k;
        }
      }
    }
  }

  /** With distinct field ids, each field's entry is exactly its own check result. */
  lemma {:induction false} ErrorOfField(fields: seq<FormField>, data: FormData, lang: Language, j: nat)
    requires forall a, b :: 0 <= a < b < |fields| ==> fields[a].id != fields[b].id
    requires j < |fields|
    ensures Get(Errors(fields, data, lang), fields[j].id) ==
      (var e := FieldError(fields[j], Get(data, fields[j].id)); if e.Some? then Some(Pick(e.value, lang)) else None)
  {
    var init := fields[..|fields| - 1];
    var f := fields[|fields| - 1];
    var acc := Errors(init, data, lang);
    var e := FieldError(f, Get(data, f.id));
    if j == |fields| - 1 {
      ErrorKeys(init, data, lang);
      if e.Some? {
        GetPut(acc, f.id, Pick(e.value, lang), f.id);
      } else {
        GetIn(acc, f.id);
      }
    } else {
      assert init[j] == fields[j];
      ErrorOfField(init, data, lang, j);
      if e.Some? {
        GetPut(acc, f.id, Pick(e.value, lang), fields[j].id);
      }
    }
  }

  /** With distinct field ids, every field starts out holding its initial value. */
  lemma {:induction false} InitialDataOfField(fields: seq<FormField>, j: nat)
    requires forall a, b :: 0 <= a < b < |fields| ==> fields[a].id != fields[b].id
    requires j < |fields|
    ensures Get(InitialData(fields), fields[j].id) == Some(InitialValue(fields[j]))
  {
    var init := fields[..|fields| - 1];
    var f := fields[|fields| - 1];
    if j == |fields| - 1 {
      GetPut(InitialData(init), f.id, InitialValue(f), f.id);
    } else {
      assert init[j] == fields[j];
      InitialDataOfField(init, j);
      GetPut(InitialData(init), f.id, InitialValue(f), fields[j].id);
    }
  }

  // ---------------------------------------------------------------------------
  // Edge cases of the required check

  /** An unticked checkbox counts as answered, and so does a string of spaces. */
  lemma RequiredQuirks(f: FormField)
    requires f.required && f.kind != ImageField
    ensures RequiredError(f, Some(Bool(false))).None?
    ensures RequiredError(f, Some(Str("   "))).None?
    ensures RequiredError(f, Some(Str(""))) == Some(RequiredMessage)
    ensures RequiredError(f, None) == Some(RequiredMessage)
  {
  }

  /** A required image without a document asks for the upload; a document satisfies it. */
  lemma ImageRequired(f: FormField, v: Option<FieldValue>)
    requires f.required && f.kind == ImageField && f.validation.None?
    ensures FieldError(f, v) == (if Falsy(v) then Some(UploadMessage) else None)
    ensures forall img :: FieldError(f, Some(Upload(img))).None?
  {
  }

  /** An empty required mobile number shows the minimum-length message, not the required one. */
  lemma EmptyMobileShowsMinimum(f: FormField)
    requires f.required && f.kind == NumberField && f.validation == Some(Validation(10, 10))
    ensures FieldError(f, Some(Str(""))) == Some(MinMessage(10))
    ensures FieldError(f, None) == Some(RequiredMessage)
  {
  }

  /** A ten-character field: shorter text gets the minimum message, longer text the maximum one. */
  lemma ExactLengthChecks(f: FormField, s: string)
    requires f.validation == Some(Validation(10, 10))
    requires forall i :: 0 <= i < |s| ==> s[i] as int <= 0xFFFF
    ensures |s| < 10 ==> FieldError(f, Some(Str(s))) == Some(MinMessage(10))
    ensures |s| > 10 ==> FieldError(f, Some(Str(s))) == Some(MaxMessage(10))
    ensures |s| == 10 ==> FieldError(f, Some(Str(s))) == RequiredError(f, Some(Str(s))) == None
  {
    JsLengthOfBmp(s);
  }

  /** A limit of 0 is no limit. */
  lemma ZeroLimitsIgnored(f: FormField, v: Option<FieldValue>)
    requires f.validation == Some(Validation(0, 0))
    ensures FieldError(f, v) == RequiredError(f, v)
  {
  }

  /** The same check gives its message in the language chosen. */
  lemma MessagesFollowLanguage(fields: seq<FormField>, data: FormData, j: nat)
    requires forall a, b :: 0 <= a < b < |fields| ==> fields[a].id != fields[b].id
    requires j < |fields|
    ensures Keys(Errors(fields, data, En)) == Keys(Errors(fields, data, Kn))
    ensures var e := FieldError(fields[j], Get(data, fields[j].id));
      && Get(Errors(fields, data, En), fields[j].id) == (if e.Some? then Some(e.value.en) else None)
      && Get(Errors(fields, data, Kn), fields[j].id) == (if e.Some? then Some(e.value.kn) else None)
  {
    SameKeys(fields, data);
    ErrorOfField(fields, data, En, j);
    ErrorOfField(fields, data, Kn, j);
  }

  lemma {:induction false} SameKeys(fields: seq<FormField>, data: FormData)
    ensures Keys(Errors(fields, data, En)) == Keys(Errors(fields, data, Kn))
  {
    if fields != [] {
      var init := fields[..|fields| - 1];
      var f := fields[|fields| - 1];
      SameKeys(init, data);
      var e := FieldError(f, Get(data, f.id));
      if e.Some? {
        KeysPut(Errors(init, data, En), f.id, e.value.en);
        KeysPut(Errors(init, data, Kn), f.id, e.value.kn);
      }
    }
  }

  // ---------------------------------------------------------------------------
  // The form component

  class Form {
    const scheme: Scheme
    const lang: Language
    var formData: FormData
    var errors: seq<(string, string)>

    /** Opening the form: every field gets its initial value and no error is shown. */
    constructor(scheme: Scheme, lang: Language)
      ensures this.scheme == scheme && this.lang == lang
      ensures formData == InitialData(scheme.fields)
      ensures errors == []
    {
      this.scheme := scheme;
      this.lang := lang;
      var data: FormData := [];
      var i := 0;
      while i < |scheme.fields|
        invariant 0 <= i <= |scheme.fields|
        invariant data == InitialData(scheme.fields[..i])
      {
        var f := scheme.fields[i];
        data := Put(data, f.id, InitialValue(f));
        assert scheme.fields[..i + 1][..i] == scheme.fields[..i];
        i := i + 1;
      }
      assert scheme.fields[..|scheme.fields|] == scheme.fields;
      formData := data;
      errors := [];
    }

    /** `handleChange`: store the new answer and blank a shown error of that field. */
    method HandleChange(fieldId: string, value: FieldValue)
      modifies this
      ensures formData == Put(old(formData), fieldId, value)
      ensures var e := Get(old(errors), fieldId);
        errors == if e.Some? && e.value != [] then Put(old(errors), fieldId, "") else old(errors)
    {
      formData := Put(formData, fieldId, value);
      var e := Get(errors, fieldId);
      if e.Some? && e.value != [] {
        errors := Put(errors, fieldId, "");
      }
    }

    /** `validate`: rebuild the error map from the answers and report whether it is empty. */
    method Validate() returns (ok: bool)
      modifies this
      ensures formData == old(formData)
      ensures errors == Errors(scheme.fields, formData, lang)
      ensures ok <==> NoneFail(scheme.fields, formData)
    {
      var newErrors: seq<(string, string)> := [];
      var i := 0;
      while i < |scheme.fields|
        invariant 0 <= i <= |scheme.fields|
        invariant newErrors == Errors(scheme.fields[..i], formData, lang)
      {
        var f := scheme.fields[i];
        var value := Get(formData, f.id);
        var e := FieldError(f, value);
        if e.Some? {
          newErrors := Put(newErrors, f.id, Pick(e.value, lang));
        }
        assert scheme.fields[..i + 1][..i] == scheme.fields[..i];
        i := i + 1;
      }
      assert scheme.fields[..|scheme.fields|] == scheme.fields;
      errors := newErrors;
      ErrorsEmptyIff(scheme.fields, formData, lang);
      ok := |newErrors| == 0;
    }

    /** `handleSubmit`: the answers are handed on only when validation passes. */
    method HandleSubmit() returns (submitted: Option<FormData>)
      modifies this
      ensures formData == old(formData)
      ensures errors == Errors(scheme.fields, formData, lang)
      ensures submitted.Some? <==> NoneFail(scheme.fields, formData)
      ensures submitted.Some? ==> submitted.value == formData
    {
      var ok := Validate();
      if ok {
        submitted := Some(formData);
      } else {
        submitted := None;
      }
    }
  }
}

=== FILE: schemes.dfy ===
/**
 * The static catalogue of the five welfare schemes: for each, its id, the
 * fields of its application form and the WhatsApp message template whose
 * `{field}` placeholders are filled from the answers. Names, taglines,
 * descriptions, eligibility lists, colours and icons are presentation only
 * and are not part of this model. The lemmas state the catalogue's
 * invariants that the form validator and the message builder rely on.
 */
module Schemes {
  import opened Wrappers
  import opened JsText
  import opened Types
  import opened Template

  // ---------------------------------------------------------------------------
  // Field shorthands

  function Required(id: string, kind: FieldType): FormField {
    FormField(id, kind, true, [], None)
  }

  function Choice(id: string, kind: FieldType, options: seq<FieldOption>): FormField {
    FormField(id, kind, true, options, None)
  }

  /** A required field of exactly `n` characters. */
  function Exact(id: string, kind: FieldType, n: nat): FormField {
    FormField(id, kind, true, [], Some(Validation(n, n)))
  }

  function Document(id: string, required: bool): FormField {
    FormField(id, ImageField, required, [], None)
  }

  const YesNo: seq<FieldOption> := [
    FieldOption("yes", BilingualText("Yes", "ಹೌದು")),
    FieldOption("no", BilingualText("No", "ಇಲ್ಲ"))
  ]

  // ---------------------------------------------------------------------------
  // Forms

  const GLFields: seq<FormField> := [
    Required("name", TextField),
    Required("ration_card", TextField),
    Exact("mobile", NumberField, 10),
    Choice("is_head", RadioField, YesNo),
    Document("doc_aadhaar_wife", true),
    Document("doc_aadhaar_husband", true),
    Document("doc_ration_card", true),
    Document("doc_bank_passbook", true)
  ]

  const GJFields: seq<FormField> := [
    Required("name", TextField),
    Exact("bescom_id", TextField, 10),
    Choice("occupancy", SelectField, [
      FieldOption("owner", BilingualText("Owner", "ಮಾಲೀಕರು")),
      FieldOption("tenant", BilingualText("Tenant", "ಬಾಡಿಗೆದಾರರು"))]),
    Exact("mobile", NumberField, 10),
    Document("doc_electricity_bill", true),
    Document("doc_aadhaar", true),
    Document("doc_tenancy_agreement", false)
  ]

  const YNFields: seq<FormField> := [
    Required("name", TextField),
    Choice("qualification", SelectField, [
      FieldOption("degree", BilingualText("Degree (₹3,000)", "ಪದವಿ (₹3,000)")),
      FieldOption("diploma", BilingualText("Diploma (₹1,500)", "ಡಿಪ್ಲೊಮಾ (₹1,500)"))]),
    Choice("year", SelectField, [
      FieldOption("2023", BilingualText("2023", "2023")),
      FieldOption("2024", BilingualText("2024", "2024")),
      FieldOption("2025", BilingualText("2025", "2025"))]),
    Required("usn", TextField),
    Document("doc_degree_certificate", true),
    Document("doc_tc", true),
    Document("doc_aadhaar", true),
    Document("doc_bank_passbook", true)
  ]

  const SHFields: seq<FormField> := [
    Required("name", TextField),
    Exact("mobile", NumberField, 10),
    Required("address", TextareaField),
    FormField("id_proof", CheckboxField, false, [], None),
    Document("doc_id_proof", true),
    Document("doc_passport_photo", true)
  ]

  const ABFields: seq<FormField> := [
    Required("ration_card", TextField),
    Exact("mobile", NumberField, 10),
    Choice("issue", SelectField, [
      FieldOption("money_not_received", BilingualText("Money Not Received", "ಹಣ ಬಂದಿಲ್ಲ")),
      FieldOption("rice_not_received", BilingualText("Rice Not Received", "ಅಕ್ಕಿ ಬಂದಿಲ್ಲ")),
      FieldOption("card_issue", BilingualText("Card Issue", "ಕಾರ್ಡ್ ಸಮಸ್ಯೆ")),
      FieldOption("add_member", BilingualText("Add Member", "ಹೆಸರು ಸೇರ್ಪಡೆ"))]),
    Choice("bank_linked", RadioField, YesNo),
    Document("doc_ration_card", true),
    Document("doc_aadhaar", true)
  ]

  // ---------------------------------------------------------------------------
  // Message templates, piece by piece; line breaks end the pieces they follow.

  /** A template is well formed when every line of it is. */
  lemma WellFormedConcat(lines: seq<seq<Piece>>)
    requires forall k :: 0 <= k < |lines| ==> WellFormed(lines[k])
    ensures WellFormed(Concat(lines))
  {
    if lines != [] {
      WellFormedConcat(lines[1..]);
      var ps := Concat(lines);
      forall i | 0 <= i < |ps| ensures PieceOk(ps[i]) {
        if i < |lines[0]| {
          assert ps[i] == lines[0][i];
        } else {
          assert ps[i] == Concat(lines[1..])[i - |lines[0]|];
        }
      }
    }
  }

  function Concat(lines: seq<seq<Piece>>): seq<Piece> {
    if lines == [] then [] else lines[0] + Concat(lines[1..])
  }

  const GLLine0: seq<Piece> := [Text("#GL "), Text("- "), Text("New "), Text("Request\n")]
  const GLLine1: seq<Piece> := [Text("ನಮಸ್ಕಾರ, "), Text("ಗೃಹ "), Text("ಲಕ್ಷ್ಮಿ "), Text("ಯೋಜನೆಗೆ "), Text("ನನ್ನ "), Text("ವಿವರಗಳು:\n")]
  const GLLine2: seq<Piece> := [Text("• "), Text("*ಹೆಸರು:* "), Slot("name"), Text("\n")]
  const GLLine3: seq<Piece> := [Text("• "), Text("*ರೇಷನ್ "), Text("ಕಾರ್ಡ್:* "), Slot("ration_card"), Text("\n")]
  const GLLine4: seq<Piece> := [Text("• "), Text("*ಮೊಬೈಲ್:* "), Slot("mobile"), Text("\n")]
  const GLLine5: seq<Piece> := [Text("• "), Text("*ಕುಟುಂಬದ "), Text("ಮುಖ್ಯಸ್ಥರೇ?:* "), Slot("is_head")]
  const GLTemplate: seq<Piece> := GLLine0 + GLLine1 + GLLine2 + GLLine3 + GLLine4 + GLLine5

  lemma GLLine0Ok() ensures WellFormed(GLLine0) {
    assert PieceOk(GLLine0[0]) && PieceOk(GLLine0[1]) && PieceOk(GLLine0[2]) && PieceOk(GLLine0[3]);
  }
  lemma GLLine1Ok() ensures WellFormed(GLLine1) {
    assert PieceOk(GLLine1[0]) && PieceOk(GLLine1[1]) && PieceOk(GLLine1[2]) && PieceOk(GLLine1[3]) && PieceOk(GLLine1[4]) && PieceOk(GLLine1[5]);
  }
  lemma GLLine2Ok() ensures WellFormed(GLLine2) {
    assert PieceOk(GLLine2[0]) && PieceOk(GLLine2[1]) && PieceOk(GLLine2[2]) && PieceOk(GLLine2[3]);
  }
  lemma GLLine3Ok() ensures WellFormed(GLLine3) {
    assert PieceOk(GLLine3[0]) && PieceOk(GLLine3[1]) && PieceOk(GLLine3[2]) && PieceOk(GLLine3[3]) && PieceOk(GLLine3[4]);
  }
  lemma GLLine4Ok() ensures WellFormed(GLLine4) {
    assert PieceOk(GLLine4[0]) && PieceOk(GLLine4[1]) && PieceOk(GLLine4[2]) && PieceOk(GLLine4[3]);
  }
  lemma GLLine5Ok() ensures WellFormed(GLLine5) {
    assert PieceOk(GLLine5[0]) && PieceOk(GLLine5[1]) && PieceOk(GLLine5[2]) && PieceOk(GLLine5[3]);
  }

  lemma GLWellFormed() ensures WellFormed(GLTemplate) {
    GLLine0Ok(); GLLine1Ok(); GLLine2Ok(); GLLine3Ok(); GLLine4Ok(); GLLine5Ok();
    WellFormedConcat([GLLine0, GLLine1, GLLine2, GLLine3, GLLine4, GLLine5]);
  }

  const GJLine0: seq<Piece> := [Text("#GJ "), Text("- "), Text("New "), Text("Request\n")]
  const GJLine1: seq<Piece> := [Text("ನಮಸ್ಕಾರ, "), Text("ಗೃಹ "), Text("ಜ್ಯೋತಿ "), Text("ಯೋಜನೆಗೆ "), Text("ವಿವರಗಳು:\n")]
  const GJLine2: seq<Piece> := [Text("• "), Text("*ಗ್ರಾಹಕರ "), Text("ಹೆಸರು:* "), Slot("name"), Text("\n")]
  const GJLine3: seq<Piece> := [Text("• "), Text("*ಬೆಸ್ಕಾಂ "), Text("ಖಾತೆ "), Text("ID:* "), Slot("bescom_id"), Text("\n")]
  const GJLine4: seq<Piece> := [Text("• "), Text("*ಬಗೆ:* "), Slot("occupancy"), Text("\n")]
  const GJLine5: seq<Piece> := [Text("• "), Text("*ಮೊಬೈಲ್:* "), Slot("mobile")]
  const GJTemplate: seq<Piece> := GJLine0 + GJLine1 + GJLine2 + GJLine3 + GJLine4 + GJLine5

  lemma GJLine0Ok() ensures WellFormed(GJLine0) {
    assert PieceOk(GJLine0[0]) && PieceOk(GJLine0[1]) && PieceOk(GJLine0[2]) && PieceOk(GJLine0[3]);
  }
  lemma GJLine1Ok() ensures WellFormed(GJLine1) {
    assert PieceOk(GJLine1[0]) && PieceOk(GJLine1[1]) && PieceOk(GJLine1[2]) && PieceOk(GJLine1[3]) && PieceOk(GJLine1[4]);
  }
  lemma GJLine2Ok() ensures WellFormed(GJLine2) {
    assert PieceOk(GJLine2[0]) && PieceOk(GJLine2[1]) && PieceOk(GJLine2[2]) && PieceOk(GJLine2[3]) && PieceOk(GJLine2[4]);
  }
  lemma GJLine3Ok() ensures WellFormed(GJLine3) {
    assert PieceOk(GJLine3[0]) && PieceOk(GJLine3[1]) && PieceOk(GJLine3[2]) && PieceOk(GJLine3[3]) && PieceOk(GJLine3[4]) && PieceOk(GJLine3[5]);
  }
  lemma GJLine4Ok() ensures WellFormed(GJLine4) {
    assert PieceOk(GJLine4[0]) && PieceOk(GJLine4[1]) && PieceOk(GJLine4[2]) && PieceOk(GJLine4[3]);
  }
  lemma GJLine5Ok() ensures WellFormed(GJLine5) {
    assert PieceOk(GJLine5[0]) && PieceOk(GJLine5[1]) && PieceOk(GJLine5[2]);
  }

  lemma GJWellFormed() ensures WellFormed(GJTemplate) {
    GJLine0Ok(); GJLine1Ok(); GJLine2Ok(); GJLine3Ok(); GJLine4Ok(); GJLine5Ok();
    WellFormedConcat([GJLine0, GJLine1, GJLine2, GJLine3, GJLine4, GJLine5]);
  }

  const YNLine0: seq<Piece> := [Text("#YN "), Text("- "), Text("New "), Text("Request\n")]
  const YNLine1: seq<Piece> := [Text("ನಮಸ್ಕಾರ, "), Text("ಯುವ "), Text("ನಿಧಿ "), Text("ಭತ್ಯೆಗೆ "), Text("ವಿವರಗಳು:\n")]
  const YNLine2: seq<Piece> := [Text("• "), Text("*ಹೆಸರು:* "), Slot("name"), Text("\n")]
  const YNLine3: seq<Piece> := [Text("• "), Text("*ವಿದ್ಯಾರ್ಹತೆ:* "), Slot("qualification"), Text(" ")]
  const YNLine4: seq<Piece> := [Text("("), Slot("year"), Text(")\n")]
  const YNLine5: seq<Piece> := [Text("• "), Text("*USN:* "), Slot("usn")]
  const YNTemplate: seq<Piece> := YNLine0 + YNLine1 + YNLine2 + YNLine3 + YNLine4 + YNLine5

  lemma YNLine0Ok() ensures WellFormed(YNLine0) {
    assert PieceOk(YNLine0[0]) && PieceOk(YNLine0[1]) && PieceOk(YNLine0[2]) && PieceOk(YNLine0[3]);
  }
  lemma YNLine1Ok() ensures WellFormed(YNLine1) {
    assert PieceOk(YNLine1[0]) && PieceOk(YNLine1[1]) && PieceOk(YNLine1[2]) && PieceOk(YNLine1[3]) && PieceOk(YNLine1[4]);
  }
  lemma YNLine2Ok() ensures WellFormed(YNLine2) {
    assert PieceOk(YNLine2[0]) && PieceOk(YNLine2[1]) && PieceOk(YNLine2[2]) && PieceOk(YNLine2[3]);
  }
  lemma YNLine3Ok() ensures WellFormed(YNLine3) {
    assert PieceOk(YNLine3[0]) && PieceOk(YNLine3[1]) && PieceOk(YNLine3[2]) && PieceOk(YNLine3[3]);
  }
  lemma YNLine4Ok() ensures WellFormed(YNLine4) {
    assert PieceOk(YNLine4[0]) && PieceOk(YNLine4[1]) && PieceOk(YNLine4[2]);
  }
  lemma YNLine5Ok() ensures WellFormed(YNLine5) {
    assert PieceOk(YNLine5[0]) && PieceOk(YNLine5[1]) && PieceOk(YNLine5[2]);
  }

  lemma YNWellFormed() ensures WellFormed(YNTemplate) {
    YNLine0Ok(); YNLine1Ok(); YNLine2Ok(); YNLine3Ok(); YNLine4Ok(); YNLine5Ok();
    WellFormedConcat([YNLine0, YNLine1, YNLine2, YNLine3, YNLine4, YNLine5]);
  }

  const SHLine0: seq<Piece> := [Text("#SH "), Text("- "), Text("Smart "), Text("Card\n")]
  const SHLine1: seq<Piece> := [Text("ನಮಸ್ಕಾರ, "), Text("ಶಕ್ತಿ "), Text("ಸ್ಮಾರ್ಟ್ "), Text("ಕಾರ್ಡ್ "), Text("ಪಡೆಯಲು "), Text("ವಿವರಗಳು:\n")]
  const SHLine2: seq<Piece> := [Text("• "), Text("*ಹೆಸರು:* "), Slot("name"), Text("\n")]
  const SHLine3: seq<Piece> := [Text("• "), Text("*ಮೊಬೈಲ್:* "), Slot("mobile"), Text("\n")]
  const SHLine4: seq<Piece> := [Text("• "), Text("*ವಿಳಾಸ:* "), Slot("address"), Text("\n")]
  const SHLine5: seq<Piece> := [Text("• "), Text("*ಗುರುತಿನ "), Text("ಚೀಟಿ:* "), Slot("id_proof")]
  const SHTemplate: seq<Piece> := SHLine0 + SHLine1 + SHLine2 + SHLine3 + SHLine4 + SHLine5

  lemma SHLine0Ok() ensures WellFormed(SHLine0) {
    assert PieceOk(SHLine0[0]) && PieceOk(SHLine0[1]) && PieceOk(SHLine0[2]) && PieceOk(SHLine0[3]);
  }
  lemma SHLine1Ok() ensures WellFormed(SHLine1) {
    assert PieceOk(SHLine1[0]) && PieceOk(SHLine1[1]) && PieceOk(SHLine1[2]) && PieceOk(SHLine1[3]) && PieceOk(SHLine1[4]) && PieceOk(SHLine1[5]);
  }
  lemma SHLine2Ok() ensures WellFormed(SHLine2) {
    assert PieceOk(SHLine2[0]) && PieceOk(SHLine2[1]) && PieceOk(SHLine2[2]) && PieceOk(SHLine2[3]);
  }
  lemma SHLine3Ok() ensures WellFormed(SHLine3) {
    assert PieceOk(SHLine3[0]) && PieceOk(SHLine3[1]) && PieceOk(SHLine3[2]) && PieceOk(SHLine3[3]);
  }
  lemma SHLine4Ok() ensures WellFormed(SHLine4) {
    assert PieceOk(SHLine4[0]) && PieceOk(SHLine4[1]) && PieceOk(SHLine4[2]) && PieceOk(SHLine4[3]);
  }
  lemma SHLine5Ok() ensures WellFormed(SHLine5) {
    assert PieceOk(SHLine5[0]) && PieceOk(SHLine5[1]) && PieceOk(SHLine5[2]) && PieceOk(SHLine5[3]);
  }

  lemma SHWellFormed() ensures WellFormed(SHTemplate) {
    SHLine0Ok(); SHLine1Ok(); SHLine2Ok(); SHLine3Ok(); SHLine4Ok(); SHLine5Ok();
    WellFormedConcat([SHLine0, SHLine1, SHLine2, SHLine3, SHLine4, SHLine5]);
  }

  const ABLine0: seq<Piece> := [Text("#AB "), Text("- "), Text("Grievance\n")]
  const ABLine1: seq<Piece> := [Text("ನಮಸ್ಕಾರ, "), Text("ಅನ್ನ "), Text("ಭಾಗ್ಯ "), Text("ಯೋಜನೆಯ "), Text("ಸಮಸ್ಯೆ:\n")]
  const ABLine2: seq<Piece> := [Text("• "), Text("*ರೇಷನ್ "), Text("ಕಾರ್ಡ್:* "), Slot("ration_card"), Text("\n")]
  const ABLine3: seq<Piece> := [Text("• "), Text("*ಮೊಬೈಲ್:* "), Slot("mobile"), Text("\n")]
  const ABLine4: seq<Piece> := [Text("• "), Text("*ಸಮಸ್ಯೆ:* "), Slot("issue"), Text("\n")]
  const ABLine5: seq<Piece> := [Text("• "), Text("*ಬ್ಯಾಂಕ್ "), Text("ಲಿಂಕ್:* "), Slot("bank_linked")]
  const ABTemplate: seq<Piece> := ABLine0 + ABLine1 + ABLine2 + ABLine3 + ABLine4 + ABLine5

  lemma ABLine0Ok() ensures WellFormed(ABLine0) {
    assert PieceOk(ABLine0[0]) && PieceOk(ABLine0[1]) && PieceOk(ABLine0[2]);
  }
  lemma ABLine1Ok() ensures WellFormed(ABLine1) {
    assert PieceOk(ABLine1[0]) && PieceOk(ABLine1[1]) && PieceOk(ABLine1[2]) && PieceOk(ABLine1[3]) && PieceOk(ABLine1[4]);
  }
  lemma ABLine2Ok() ensures WellFormed(ABLine2) {
    assert PieceOk(ABLine2[0]) && PieceOk(ABLine2[1]) && PieceOk(ABLine2[2]) && PieceOk(ABLine2[3]) && PieceOk(ABLine2[4]);
  }
  lemma ABLine3Ok() ensures WellFormed(ABLine3) {
    assert PieceOk(ABLine3[0]) && PieceOk(ABLine3[1]) && PieceOk(ABLine3[2]) && PieceOk(ABLine3[3]);
  }
  lemma ABLine4Ok() ensures WellFormed(ABLine4) {
    assert PieceOk(ABLine4[0]) && PieceOk(ABLine4[1]) && PieceOk(ABLine4[2]) && PieceOk(ABLine4[3]);
  }
  lemma ABLine5Ok() ensures WellFormed(ABLine5) {
    assert PieceOk(ABLine5[0]) && PieceOk(ABLine5[1]) && PieceOk(ABLine5[2]) && PieceOk(ABLine5[3]);
  }

  lemma ABWellFormed() ensures WellFormed(ABTemplate) {
    ABLine0Ok(); ABLine1Ok(); ABLine2Ok(); ABLine3Ok(); ABLine4Ok(); ABLine5Ok();
    WellFormedConcat([ABLine0, ABLine1, ABLine2, ABLine3, ABLine4, ABLine5]);
  }

  // ---------------------------------------------------------------------------
  // The catalogue

  const Catalogue: seq<Scheme> := [
    Scheme("GL", GLFields, GLTemplate),
    Scheme("GJ", GJFields, GJTemplate),
    Scheme("YN", YNFields, YNTemplate),
    Scheme("SH", SHFields, SHTemplate),
    Scheme("AB", ABFields, ABTemplate)
  ]

  /** `schemes.find((s) => s.id === id)`. */
  function FindScheme(schemes: seq<Scheme>, id: string): (r: Option<Scheme>)
    ensures r.Some? ==> r.value in schemes && r.value.id == id
    ensures r.None? <==> forall i :: 0 <= i < |schemes| ==> schemes[i].id != id
    ensures forall i :: (0 <= i < |schemes| && schemes[i].id == id && (forall j :: 0 <= j < i ==> schemes[j].id != id))
                   ==> r == Some(schemes[i])
  {
    if schemes == [] then None
    else if schemes[0].id == id then Some(schemes[0])
    else
      var r := FindScheme(schemes[1..], id);
      assert forall i :: 1 <= i < |schemes| ==> schemes[i] == schemes[1..][i - 1];
      r
  }

  /** `getSchemeById`. */
  function GetSchemeById(id: string): Option<Scheme> {
    FindScheme(Catalogue, id)
  }

  function SchemeIds(schemes: seq<Scheme>): (r: seq<string>)
    ensures |r| == |schemes|
    ensures forall i :: 0 <= i < |schemes| ==> r[i] == schemes[i].id
  {
    seq(|schemes|, i requires 0 <= i < |schemes| => schemes[i].id)
  }

  function FieldIds(fields: seq<FormField>): (r: seq<string>)
    ensures |r| == |fields|
    ensures forall i :: 0 <= i < |fields| ==> r[i] == fields[i].id
  {
    seq(|fields|, i requires 0 <= i < |fields| => fields[i].id)
  }

  predicate Distinct(xs: seq<string>) {
    forall i, j :: 0 <= i < j < |xs| ==> xs[i] != xs[j]
  }

  /** The schemes are GL, GJ, YN, SH and AB, in that order, so their ids are distinct. */
  lemma CatalogueIds()
    ensures SchemeIds(Catalogue) == ["GL", "GJ", "YN", "SH", "AB"]
    ensures Distinct(SchemeIds(Catalogue))
  {
  }

  /** Looking up a catalogued id finds that scheme; any other id finds nothing. */
  lemma GetSchemeByIdFinds(id: string)
    ensures GetSchemeById(id).Some? <==> id in SchemeIds(Catalogue)
    ensures forall i :: 0 <= i < |Catalogue| && Catalogue[i].id == id ==> GetSchemeById(id) == Some(Catalogue[i])
  {
    CatalogueIds();
    if GetSchemeById(id).Some? {
      assert GetSchemeById(id).value.id in SchemeIds(Catalogue);
    }
  }

  /** No two fields of a form share an id. */
  predicate DistinctFieldIds(fields: seq<FormField>) {
    forall i, j :: 0 <= i < j < |fields| ==> fields[i].id != fields[j].id
  }

  /** A field is a document upload exactly when its id starts with `doc_`. */
  predicate DocumentsPrefixed(fields: seq<FormField>) {
    forall i :: 0 <= i < |fields| ==> (fields[i].kind == ImageField <==> StartsWith(fields[i].id, "doc_"))
  }

  /** Every mobile-number field takes exactly 10 characters. */
  predicate MobileTenDigits(fields: seq<FormField>) {
    forall i :: 0 <= i < |fields| && fields[i].id == "mobile" ==> fields[i].validation == Some(Validation(10, 10))
  }

  /** Each placeholder names a field of the form. */
  predicate SlotsAreFields(s: Scheme) {
    forall i :: 0 <= i < |s.template| && s.template[i].Slot? ==> exists j :: 0 <= j < |s.fields| && s.fields[j].id == s.template[i].id
  }

  /** What every form in the catalogue satisfies. */
  predicate FormInvariant(s: Scheme) {
    DistinctFieldIds(s.fields)
    && DocumentsPrefixed(s.fields)
    && MobileTenDigits(s.fields)
    && WellFormed(s.template)
    && SlotsUnique(s.template)
    && SlotsAreFields(s)
  }

  lemma FirstCharDiffers(s: string, p: string)
    requires |s| > 0 && |p| > 0 && s[0] != p[0]
    ensures !StartsWith(s, p)
  {
    if |p| <= |s| {
      assert s[..|p|][0] == s[0];
    }
  }

  /** Every answer field is named without the `doc_` prefix, every upload with it. */
  lemma DocumentsPrefixedBy(fields: seq<FormField>)
    requires forall i :: 0 <= i < |fields| ==> |fields[i].id| > 0
    requires forall i :: 0 <= i < |fields| && fields[i].kind != ImageField ==> fields[i].id[0] != 'd'
    requires forall i :: 0 <= i < |fields| && fields[i].kind == ImageField ==> StartsWith(fields[i].id, "doc_")
    ensures DocumentsPrefixed(fields)
  {
    forall i | 0 <= i < |fields| && fields[i].kind != ImageField ensures !StartsWith(fields[i].id, "doc_") {
      FirstCharDiffers(fields[i].id, "doc_");
    }
  }

  lemma GLSlotsAreFields() ensures SlotsAreFields(Catalogue[0]) {
    forall i | 0 <= i < |GLTemplate| && GLTemplate[i].Slot?
      ensures exists j :: 0 <= j < |GLFields| && GLFields[j].id == GLTemplate[i].id
    {
      var id := GLTemplate[i].id;
      if id == "name" {
        assert GLFields[0].id == id;
      } else if id == "ration_card" {
        assert GLFields[1].id == id;
      } else if id == "mobile" {
        assert GLFields[2].id == id;
      } else if id == "is_head" {
        assert GLFields[3].id == id;
      }
    }
  }

  lemma GLDistinct() ensures DistinctFieldIds(GLFields) {}
  lemma GLMobile() ensures MobileTenDigits(GLFields) {}
  lemma GLSlotsUnique() ensures SlotsUnique(GLTemplate) {}

  lemma GLInvariant() ensures FormInvariant(Catalogue[0]) {
    GLDistinct(); GLMobile(); GLSlotsUnique();
    DocumentsPrefixedBy(GLFields);
    GLWellFormed();
    GLSlotsAreFields();
  }

  lemma GJSlotsAreFields() ensures SlotsAreFields(Catalogue[1]) {
    forall i | 0 <= i < |GJTemplate| && GJTemplate[i].Slot?
      ensures exists j :: 0 <= j < |GJFields| && GJFields[j].id == GJTemplate[i].id
    {
      var id := GJTemplate[i].id;
      if id == "name" {
        assert GJFields[0].id == id;
      } else if id == "bescom_id" {
        assert GJFields[1].id == id;
      } else if id == "occupancy" {
        assert GJFields[2].id == id;
      } else if id == "mobile" {
        assert GJFields[3].id == id;
      }
    }
  }

  lemma GJDistinct() ensures DistinctFieldIds(GJFields) {}
  lemma GJMobile() ensures MobileTenDigits(GJFields) {}
  lemma GJSlotsUnique() ensures SlotsUnique(GJTemplate) {}

  lemma GJInvariant() ensures FormInvariant(Catalogue[1]) {
    GJDistinct(); GJMobile(); GJSlotsUnique();
    DocumentsPrefixedBy(GJFields);
    GJWellFormed();
    GJSlotsAreFields();
  }

  lemma YNSlotsAreFields() ensures SlotsAreFields(Catalogue[2]) {
    forall i | 0 <= i < |YNTemplate| && YNTemplate[i].Slot?
      ensures exists j :: 0 <= j < |YNFields| && YNFields[j].id == YNTemplate[i].id
    {
      var id := YNTemplate[i].id;
      if id == "name" {
        assert YNFields[0].id == id;
      } else if id == "qualification" {
        assert YNFields[1].id == id;
      } else if id == "year" {
        assert YNFields[2].id == id;
      } else if id == "usn" {
        assert YNFields[3].id == id;
      }
    }
  }

  lemma YNDistinct() ensures DistinctFieldIds(YNFields) {}
  lemma YNMobile() ensures MobileTenDigits(YNFields) {}
  lemma YNSlotsUnique() ensures SlotsUnique(YNTemplate) {}

  lemma YNInvariant() ensures FormInvariant(Catalogue[2]) {
    YNDistinct(); YNMobile(); YNSlotsUnique();
    DocumentsPrefixedBy(YNFields);
    YNWellFormed();
    YNSlotsAreFields();
  }

  lemma SHSlotsAreFields() ensures SlotsAreFields(Catalogue[3]) {
    forall i | 0 <= i < |SHTemplate| && SHTemplate[i].Slot?
      ensures exists j :: 0 <= j < |SHFields| && SHFields[j].id == SHTemplate[i].id
    {
      var id := SHTemplate[i].id;
      if id == "name" {
        assert SHFields[0].id == id;
      } else if id == "mobile" {
        assert SHFields[1].id == id;
      } else if id == "address" {
        assert SHFields[2].id == id;
      } else if id == "id_proof" {
        assert SHFields[3].id == id;
      }
    }
  }

  lemma SHDistinct() ensures DistinctFieldIds(SHFields) {}
  lemma SHMobile() ensures MobileTenDigits(SHFields) {}
  lemma SHSlotsUnique() ensures SlotsUnique(SHTemplate) {}

  lemma SHInvariant() ensures FormInvariant(Catalogue[3]) {
    SHDistinct(); SHMobile(); SHSlotsUnique();
    DocumentsPrefixedBy(SHFields);
    SHWellFormed();
    SHSlotsAreFields();
  }

  lemma ABSlotsAreFields() ensures SlotsAreFields(Catalogue[4]) {
    forall i | 0 <= i < |ABTemplate| && ABTemplate[i].Slot?
      ensures exists j :: 0 <= j < |ABFields| && ABFields[j].id == ABTemplate[i].id
    {
      var id := ABTemplate[i].id;
      if id == "ration_card" {
        assert ABFields[0].id == id;
      } else if id == "mobile" {
        assert ABFields[1].id == id;
      } else if id == "issue" {
        assert ABFields[2].id == id;
      } else if id == "bank_linked" {
        assert ABFields[3].id == id;
      }
    }
  }

  lemma ABDistinct() ensures DistinctFieldIds(ABFields) {}
  lemma ABMobile() ensures MobileTenDigits(ABFields) {}
  lemma ABSlotsUnique() ensures SlotsUnique(ABTemplate) {}

  lemma ABInvariant() ensures FormInvariant(Catalogue[4]) {
    ABDistinct(); ABMobile(); ABSlotsUnique();
    DocumentsPrefixedBy(ABFields);
    ABWellFormed();
    ABSlotsAreFields();
  }

  /** Every scheme in the catalogue keeps the form invariant. */
  lemma CatalogueInvariant()
    ensures forall i :: 0 <= i < |Catalogue| ==> FormInvariant(Catalogue[i])
  {
    GLInvariant();
    GJInvariant();
    YNInvariant();
    SHInvariant();
    ABInvariant();
  }

  /** The only optional fields are GJ's tenancy agreement and SH's ID-proof checkbox. */
  lemma OptionalFields()
    ensures forall i, j :: 0 <= i < |Catalogue| && 0 <= j < |Catalogue[i].fields| && !Catalogue[i].fields[j].required ==>
      (Catalogue[i].id, Catalogue[i].fields[j].id) in {("GJ", "doc_tenancy_agreement"), ("SH", "id_proof")}
    ensures !GJFields[6].required && GJFields[6].id == "doc_tenancy_agreement"
    ensures !SHFields[3].required && SHFields[3].id == "id_proof" && SHFields[3].kind == CheckboxField
  {
  }
}

=== FILE: settings_api.dfy ===
/**
 * The settings store client: a module-level cache of key/value pairs with
 * ONE timestamp shared by every key and a time-to-live of 60000 ms. Reads
 * try the cache, then the store; writes go to the store (update, and an
 * insert when the update reports an error) and then into the cache.
 *
 * The clock (`Date.now()`) and the store's replies are parameters. The
 * store calls a method makes are logged in `storeCalls`, so "no store
 * call" is a statement about that log.
 */
module SettingsApi {
  import opened Wrappers

  const CacheTtl: int := 60000
  const WhatsAppKey: string := "whatsapp_number"

  /** A call into the `settings` table. */
  datatype StoreCall = SelectValue(key: string) | UpdateValue(key: string, value: string) | InsertRow(key: string, value: string)

  /**
   * What `getSetting` may answer from the cache at time `now`: the cached
   * value when the key is present and the shared timestamp is less than
   * the time-to-live old.
   */
  function CacheHit(cache: map<string, string>, timestamp: int, key: string, now: int): (hit: Option<string>)
    ensures hit.Some? <==> key in cache && now - timestamp < CacheTtl
    ensures hit.Some? ==> hit.value == cache[key]
  {
    if key in cache && now - timestamp < CacheTtl then Some(cache[key]) else None
  }

  /** A value written at time `t` is served from the cache at every `now` before `t + 60000`. */
  lemma ReadYourWrite(cache: map<string, string>, key: string, value: string, t: int, now: int)
    requires now < t + CacheTtl
    ensures CacheHit(cache[key := value], t, key, now) == Some(value)
  {
  }

  /**
   * The timestamp is shared: storing one key at time `t` makes every other
   * cached key fresh again until `t + 60000`, with its old value.
   */
  lemma SharedTimestamp(cache: map<string, string>, timestamp: int, key: string, value: string, t: int,
                        other: string, now: int)
    requires other != key && other in cache
    requires now < t + CacheTtl
    ensures CacheHit(cache[key := value], t, other, now) == Some(cache[other])
  {
  }

  /** Nothing is served once the time-to-live has run out, whatever is cached. */
  lemma StaleMisses(cache: map<string, string>, timestamp: int, key: string, now: int)
    requires now >= timestamp + CacheTtl
    ensures CacheHit(cache, timestamp, key, now).None?
  {
  }

  /** `getAllSettings`' result: the rows folded into a record, a later row overwriting an earlier one with its key. */
  function Collect(rows: seq<(string, string)>): map<string, string> {
    if rows == [] then map[]
    else Collect(rows[..|rows| - 1])[rows[|rows| - 1].0 := rows[|rows| - 1].1]
  }

  /** Every key of a row is present, with the value of the LAST row carrying it; no other key is. */
  lemma {:induction false} CollectLast(rows: seq<(string, string)>, k: string)
    ensures k in Collect(rows) <==> exists i :: 0 <= i < |rows| && rows[i].0 == k
    ensures forall i :: 0 <= i < |rows| && rows[i].0 == k && (forall j :: i < j < |rows| ==> rows[j].0 != k) ==>
      k in Collect(rows) && Collect(rows)[k] == rows[i].1
  {
    if rows != [] {
      var init := rows[..|rows| - 1];
      var last := rows[|rows| - 1];
      CollectLast(init, k);
      assert forall i :: 0 <= i < |init| ==> init[i] == rows[i];
      if last.0 != k {
        forall i | 0 <= i < |rows| && rows[i].0 == k && (forall j :: i < j < |rows| ==> rows[j].0 != k)
          ensures k in Collect(rows) && Collect(rows)[k] == rows[i].1
        {
          assert i < |init|;
          assert forall j :: i < j < |init| ==> init[j].0 != k;
        }
      }
    }
  }

  class SettingsCache {
    var cache: map<string, string>
    var cacheTimestamp: int
    /** The store calls made, oldest first. */
    var storeCalls: seq<StoreCall>

    /** The module as loaded: an empty cache stamped 0. */
    constructor()
      ensures cache == map[] && cacheTimestamp == 0 && storeCalls == []
    {
      cache := map[];
      cacheTimestamp := 0;
      storeCalls := [];
    }

    /**
     * `getSetting(key)` at time `now`. On a miss the store is asked for the
     * row: `error` says whether that reply was an error (no row, say) and
     * `value` is the row's value column.
     */
    method GetSetting(key: string, now: int, configured: bool, error: bool, value: Option<string>) returns (r: string)
      modifies this
      ensures var hit := CacheHit(old(cache), old(cacheTimestamp), key, now);
        hit.Some? ==> (r == hit.value && cache == old(cache) && cacheTimestamp == old(cacheTimestamp)
                       && storeCalls == old(storeCalls))
      ensures CacheHit(old(cache), old(cacheTimestamp), key, now).None? && !configured ==>
        r == "" && cache == old(cache) && cacheTimestamp == old(cacheTimestamp) && storeCalls == old(storeCalls)
      ensures CacheHit(old(cache), old(cacheTimestamp), key, now).None? && configured ==>
        storeCalls == old(storeCalls) + [SelectValue(key)]
        && (error ==> r == "" && cache == old(cache) && cacheTimestamp == old(cacheTimestamp))
        && (!error ==> r == MessageOr(value, "") && cache == old(cache)[key := r] && cacheTimestamp == now)
    {
      if key in cache && now - cacheTimestamp < CacheTtl {
        return cache[key];
      }
      if !configured {
        return "";
      }
      storeCalls := storeCalls + [SelectValue(key)];
      if error {
        return "";
      }
      cache := cache[key := MessageOr(value, "")];
      cacheTimestamp := now;
      r := MessageOr(value, "");
    }

    /** `getWhatsAppNumber`. */
    method GetWhatsAppNumber(now: int, configured: bool, error: bool, value: Option<string>) returns (r: string)
      modifies this
      ensures var hit := CacheHit(old(cache), old(cacheTimestamp), WhatsAppKey, now);
        hit.Some? ==> (r == hit.value && cache == old(cache) && cacheTimestamp == old(cacheTimestamp)
                       && storeCalls == old(storeCalls))
      ensures CacheHit(old(cache), old(cacheTimestamp), WhatsAppKey, now).None? && !configured ==>
        r == "" && cache == old(cache) && cacheTimestamp == old(cacheTimestamp) && storeCalls == old(storeCalls)
      ensures CacheHit(old(cache), old(cacheTimestamp), WhatsAppKey, now).None? && configured ==>
        storeCalls == old(storeCalls) + [SelectValue(WhatsAppKey)]
        && (error ==> r == "" && cache == old(cache) && cacheTimestamp == old(cacheTimestamp))
        && (!error ==> r == MessageOr(value, "") && cache == old(cache)[WhatsAppKey := r] && cacheTimestamp == now)
    {
      r := GetSetting(WhatsAppKey, now, configured, error, value);
    }

    /**
     * `updateSetting(key, value)` at time `now`: `updateFailed` and
     * `insertFailed` say whether the store reported an error for the update
     * and for the insert tried after it.
     */
    method UpdateSetting(key: string, value: string, now: int, configured: bool, updateFailed: bool, insertFailed: bool)
      returns (ok: bool)
      modifies this
      ensures !configured ==> !ok && cache == old(cache) && cacheTimestamp == old(cacheTimestamp) && storeCalls == old(storeCalls)
      ensures configured && !updateFailed ==> storeCalls == old(storeCalls) + [UpdateValue(key, value)]
      ensures configured && updateFailed ==>
        storeCalls == old(storeCalls) + [UpdateValue(key, value), InsertRow(key, value)]
      ensures configured ==> (ok <==> !updateFailed || !insertFailed)
      ensures configured && !ok ==> cache == old(cache) && cacheTimestamp == old(cacheTimestamp)
      ensures ok ==> cache == old(cache)[key := value] && cacheTimestamp == now
    {
      if !configured {
        return false;
      }
      storeCalls := storeCalls + [UpdateValue(key, value)];
      if updateFailed {
        storeCalls := storeCalls + [InsertRow(key, value)];
        if insertFailed {
          return false;
        }
      }
      cache := cache[key := value];
      cacheTimestamp := now;
      ok := true;
    }

    /** `updateWhatsAppNumber`. */
    method UpdateWhatsAppNumber(number: string, now: int, configured: bool, updateFailed: bool, insertFailed: bool)
      returns (ok: bool)
      modifies this
      ensures !configured ==> !ok && cache == old(cache) && cacheTimestamp == old(cacheTimestamp) && storeCalls == old(storeCalls)
      ensures configured && !updateFailed ==> storeCalls == old(storeCalls) + [UpdateValue(WhatsAppKey, number)]
      ensures configured && updateFailed ==>
        storeCalls == old(storeCalls) + [UpdateValue(WhatsAppKey, number), InsertRow(WhatsAppKey, number)]
      ensures configured ==> (ok <==> !updateFailed || !insertFailed)
      ensures !ok ==> cache == old(cache) && cacheTimestamp == old(cacheTimestamp)
      ensures ok ==> cache == old(cache)[WhatsAppKey := number] && cacheTimestamp == now
    {
      ok := UpdateSetting(WhatsAppKey, number, now, configured, updateFailed, insertFailed);
    }

    /**
     * `getAllSettings`: `rows` is the store's `key, value` listing. The
     * cache is neither read nor written.
     */
    method GetAllSettings(configured: bool, error: bool, rows: seq<(string, string)>) returns (settings: map<string, string>)
      ensures !configured || error ==> settings == map[]
      ensures configured && !error ==> settings == Collect(rows)
    {
      settings := map[];
      if !configured || error {
        return;
      }
      var i := 0;
      while i < |rows|
        invariant 0 <= i <= |rows|
        invariant settings == Collect(rows[..i])
      {
        assert rows[..i + 1][..i] == rows[..i];
        settings := settings[rows[i].0 := rows[i].1];
        i := i + 1;
      }
      assert rows[..|rows|] == rows;
    }
  }
}

=== FILE: settings_page.dfy ===
/**
 * The admin settings page: it loads the WhatsApp number through the
 * settings cache, and on save strips white space, dashes and parentheses
 * from the number, writes it, and reports the outcome.
 */
module SettingsPage {
  import opened Wrappers
  import opened JsText
  import opened SettingsApi

  /** The characters `/[\s\-\(\)]/g` removes. */
  predicate Removed(c: char) {
    IsSpace(c) || c == '-' || c == '(' || c == ')'
  }

  function Kept(): char -> bool {
    (c: char) => !Removed(c)
  }

  /** The number as saved: every other character (digits, `+`, letters) stays, in order. */
  function CleanNumber(raw: string): (clean: string)
    ensures |clean| <= |raw|
    ensures forall i :: 0 <= i < |clean| ==> !Removed(clean[i])
  {
    Keep(raw, Kept())
  }

  /** Cleaning drops every removed character and keeps every copy of each other one. */
  lemma {:induction false} CleanNumberCount(raw: string, c: char)
    ensures multiset(CleanNumber(raw))[c] == if Removed(c) then 0 else multiset(raw)[c]
  {
    if raw != [] {
      CleanNumberCount(raw[1..], c);
      assert raw == [raw[0]] + raw[1..];
    }
  }

  /** Cleaning keeps the order of what it keeps: it distributes over concatenation. */
  lemma CleanNumberAppend(a: string, b: string)
    ensures CleanNumber(a + b) == CleanNumber(a) + CleanNumber(b)
  {
    KeepAppend(a, b, Kept());
  }

  /** Cleaning an already cleaned number changes nothing. */
  lemma CleanNumberIdempotent(raw: string)
    ensures CleanNumber(CleanNumber(raw)) == CleanNumber(raw)
  {
    KeepIdempotent(raw, Kept());
  }

  datatype MessageKind = Success | Error
  datatype Message = Message(kind: MessageKind, text: string)

  const Saved := Message(Success, "Settings saved successfully!")
  const NotSaved := Message(Error, "Failed to save settings. Please try again.")

  class Page {
    var whatsappNumber: string
    var loading: bool
    var saving: bool
    var message: Option<Message>

    constructor()
      ensures whatsappNumber == "" && loading && !saving && message.None?
    {
      whatsappNumber := "";
      loading := true;
      saving := false;
      message := None;
    }

    /** `loadSettings`: the field shows whatever `getWhatsAppNumber` answers. */
    method LoadSettings(store: SettingsCache, now: int, configured: bool, error: bool, value: Option<string>)
      modifies this, store
      ensures !loading && saving == old(saving) && message == old(message)
      ensures var hit := CacheHit(old(store.cache), old(store.cacheTimestamp), WhatsAppKey, now);
        hit.Some? ==> (whatsappNumber == hit.value && store.cache == old(store.cache)
                       && store.cacheTimestamp == old(store.cacheTimestamp))
      ensures CacheHit(old(store.cache), old(store.cacheTimestamp), WhatsAppKey, now).None? && (!configured || error) ==>
        whatsappNumber == "" && store.cache == old(store.cache) && store.cacheTimestamp == old(store.cacheTimestamp)
      ensures CacheHit(old(store.cache), old(store.cacheTimestamp), WhatsAppKey, now).None? && configured && !error ==>
        whatsappNumber == MessageOr(value, "") && store.cache == old(store.cache)[WhatsAppKey := whatsappNumber]
        && store.cacheTimestamp == now
      ensures CacheHit(old(store.cache), old(store.cacheTimestamp), WhatsAppKey, now).Some? || !configured ==>
        store.storeCalls == old(store.storeCalls)
      ensures CacheHit(old(store.cache), old(store.cacheTimestamp), WhatsAppKey, now).None? && configured ==>
        store.storeCalls == old(store.storeCalls) + [SelectValue(WhatsAppKey)]
    {
      loading := true;
      var number := store.GetWhatsAppNumber(now, configured, error, value);
      whatsappNumber := number;
      loading := false;
    }

    /**
     * `handleSave`: the cleaned number is written; on success the field
     * shows it, on failure the field keeps what was typed.
     */
    method HandleSave(store: SettingsCache, now: int, configured: bool, updateFailed: bool, insertFailed: bool)
      modifies this, store
      ensures !saving && loading == old(loading)
      ensures var ok := configured && (!updateFailed || !insertFailed);
        ok ==> (whatsappNumber == CleanNumber(old(whatsappNumber)) && message == Some(Saved)
                && store.cache == old(store.cache)[WhatsAppKey := CleanNumber(old(whatsappNumber))]
                && store.cacheTimestamp == now)
      ensures var ok := configured && (!updateFailed || !insertFailed);
        !ok ==> (whatsappNumber == old(whatsappNumber) && message == Some(NotSaved) && store.cache == old(store.cache)
                 && store.cacheTimestamp == old(store.cacheTimestamp))
      ensures var clean := CleanNumber(old(whatsappNumber));
        store.storeCalls == old(store.storeCalls) +
          (if !configured then [] else if !updateFailed then [UpdateValue(WhatsAppKey, clean)]
           else [UpdateValue(WhatsAppKey, clean), InsertRow(WhatsAppKey, clean)])
    {
      saving := true;
      message := None;
      var cleanNumber := CleanNumber(whatsappNumber);
      var success := store.UpdateWhatsAppNumber(cleanNumber, now, configured, updateFailed, insertFailed);
      if success {
        whatsappNumber := cleanNumber;
        message := Some(Saved);
      } else {
        message := Some(NotSaved);
      }
      saving := false;
    }

    /** The timer three seconds after a save. */
    method ClearMessage()
      modifies this
      ensures message.None? && whatsappNumber == old(whatsappNumber) && saving == old(saving) && loading == old(loading)
    {
      message := None;
    }
  }
}

=== FILE: supabase.dfy ===
/**
 * The data-store client and the submission of a scheme application
 * ("lead"). Without both connection settings there is no client, and a
 * submission then succeeds without storing anything, so the application
 * keeps working without a database. The store's answer to the insert is a
 * parameter.
 */
module Supabase {
  import opened Wrappers
  import opened Types

  /** The client exists only when both the URL and the anonymous key are set to non-empty text. */
  predicate ClientConfigured(url: Option<string>, anonKey: Option<string>) {
    url.Some? && url.value != "" && anonKey.Some? && anonKey.value != ""
  }

  /** `SubmitLeadParams`. */
  datatype SubmitLeadParams = SubmitLeadParams(
    schemeType: string,
    applicantName: string,
    mobileNumber: string,
    formData: FormData,
    wardNo: Option<string>)

  /** A row of the `leads` table as inserted. */
  datatype LeadRow = LeadRow(
    schemeType: string,
    applicantName: string,
    mobileNumber: string,
    wardNo: Option<string>,
    formData: FormData,
    isWhatsappClicked: bool)

  const SubmitFailed := "Failed to submit lead"

  /** The inserted row: every parameter in its column, and the WhatsApp flag always raised. */
  function LeadRowOf(p: SubmitLeadParams): (row: LeadRow)
    ensures row.isWhatsappClicked
  {
    LeadRow(p.schemeType, p.applicantName, p.mobileNumber, p.wardNo, p.formData, true)
  }

  /** The parameters a row was built from, read back from its columns. */
  function ParamsOf(row: LeadRow): SubmitLeadParams {
    SubmitLeadParams(row.schemeType, row.applicantName, row.mobileNumber, row.formData, row.wardNo)
  }

  /** The row loses nothing: every parameter, the answers with their image payloads included, can be read back. */
  lemma LeadRowKeepsParams(p: SubmitLeadParams)
    ensures ParamsOf(LeadRowOf(p)) == p
    ensures LeadRowOf(p).formData == p.formData && LeadRowOf(p).wardNo == p.wardNo
  {
  }

  /**
   * `submitLead`: the outcome, and the row handed to the store (`None` when
   * there is no client). `reply` is the store's answer to the insert.
   */
  function SubmitLead(p: SubmitLeadParams, url: Option<string>, anonKey: Option<string>, reply: Reply)
    : (r: (Outcome, Option<LeadRow>))
    ensures !ClientConfigured(url, anonKey) ==> r == (Outcome(true, None, None), None)
    ensures ClientConfigured(url, anonKey) ==> r.1 == Some(LeadRowOf(p))
    ensures r.0.success <==> !ClientConfigured(url, anonKey) || reply.Ok?
    ensures r.0.success ==> r.0.error.None?
    ensures ClientConfigured(url, anonKey) && reply.Failed? ==> r.0.error == Some(reply.message)
    ensures ClientConfigured(url, anonKey) && reply.Threw? ==> r.0.error == Some(SubmitFailed)
    ensures r.0.id.None?
  {
    if !ClientConfigured(url, anonKey) then (Outcome(true, None, None), None)
    else
      var row := LeadRowOf(p);
      match reply
      case Ok => (Outcome(true, None, None), Some(row))
      case Failed(message) => (Outcome(false, Some(message), None), Some(row))
      case Threw => (Outcome(false, Some(SubmitFailed), None), Some(row))
  }

  /** A failed submission always carries a message to show, unless the store's own message was empty. */
  lemma FailureExplained(p: SubmitLeadParams, url: Option<string>, anonKey: Option<string>, reply: Reply)
    requires !SubmitLead(p, url, anonKey, reply).0.success
    ensures SubmitLead(p, url, anonKey, reply).0.error.Some?
    ensures reply.Threw? ==> SubmitLead(p, url, anonKey, reply).0.error.value != ""
  {
  }
}

=== FILE: template.dfy ===
/**
 * Message templates with `{id}` placeholders. A template is kept as its
 * pieces, literal text and placeholders, so that which placeholders it holds
 * is visible to the proofs; `Render` gives back the single string the
 * application stores. The lemmas follow the application's way of filling a
 * template (one `String.prototype.replace` with a string pattern per answer,
 * which rewrites only the first occurrence) and show when that agrees with
 * substituting every placeholder at once.
 */
module Template {
  import opened Wrappers
  import opened JsText

  datatype Piece = Text(text: string) | Slot(id: string)

  function Placeholder(id: string): string {
    "{" + id + "}"
  }

  function RenderPiece(p: Piece): string {
    match p
    case Text(t) => t
    case Slot(id) => Placeholder(id)
  }

  /** The template as one string. */
  function Render(ps: seq<Piece>): string {
    if ps == [] then [] else RenderPiece(ps[0]) + Render(ps[1..])
  }

  predicate NoOpenBrace(s: string) {
    forall i :: 0 <= i < |s| ==> s[i] != '{'
  }

  predicate NoBrace(s: string) {
    forall i :: 0 <= i < |s| ==> s[i] != '{' && s[i] != '}'
  }

  /** Braces appear only around placeholders, and placeholder names hold none. */
  predicate WellFormed(ps: seq<Piece>) {
    forall i :: 0 <= i < |ps| ==> PieceOk(ps[i])
  }

  predicate PieceOk(p: Piece) {
    match p
    case Text(t) => NoOpenBrace(t)
    case Slot(id) => NoBrace(id)
  }

  /** How many placeholders named `id` the template holds. */
  function SlotCount(ps: seq<Piece>, id: string): nat {
    if ps == [] then 0 else (if ps[0] == Slot(id) then 1 else 0) + SlotCount(ps[1..], id)
  }

  predicate HasSlot(ps: seq<Piece>, id: string) {
    Slot(id) in ps
  }

  // ---------------------------------------------------------------------------
  // Filling

  /** What one `replace('{id}', v)` does to the pieces: the first placeholder `id` becomes the text `v`. */
  function FillFirst(ps: seq<Piece>, id: string, v: string): seq<Piece> {
    if ps == [] then []
    else if ps[0] == Slot(id) then [Text(v)] + ps[1..]
    else [ps[0]] + FillFirst(ps[1..], id, v)
  }

  /** Every placeholder whose name the environment binds is replaced by the first value bound to it. */
  function Lookup(env: seq<(string, string)>, id: string): Option<string> {
    if env == [] then None
    else if env[0].0 == id then Some(env[0].1)
    else Lookup(env[1..], id)
  }

  function SubstPiece(p: Piece, env: seq<(string, string)>): Piece {
    match p
    case Text(t) => p
    case Slot(id) => if Lookup(env, id).Some? then Text(Lookup(env, id).value) else p
  }

  function Subst(ps: seq<Piece>, env: seq<(string, string)>): (r: seq<Piece>)
    ensures |r| == |ps|
    ensures forall i :: 0 <= i < |ps| ==> r[i] == SubstPiece(ps[i], env)
  {
    seq(|ps|, i requires 0 <= i < |ps| => SubstPiece(ps[i], env))
  }

  // ---------------------------------------------------------------------------
  // Replacing in the rendered string

  lemma ShiftOccurs(a: string, b: string, p: string, j: nat)
    ensures OccursAt(a + b, p, |a| + j) <==> OccursAt(b, p, j)
  {
    if j + |p| <= |b| {
      assert (a + b)[|a| + j..|a| + j + |p|] == b[j..j + |p|];
    }
  }

  /** The first occurrence is the one with none before it. */
  lemma IndexOfIs(s: string, p: string, i: nat)
    requires OccursAt(s, p, i)
    requires forall j :: 0 <= j < i ==> !OccursAt(s, p, j)
    ensures IndexOf(s, p) == Some(i)
  {
    assert Contains(s, p);
  }

  lemma IndexOfNone(s: string, p: string)
    requires forall j :: 0 <= j <= |s| ==> !OccursAt(s, p, j)
    ensures IndexOf(s, p) == None
  {
  }

  lemma SpliceShift(a: string, b: string, i: nat, n: nat, v: string)
    requires i + n <= |b|
    ensures (a + b)[..|a| + i] + v + (a + b)[|a| + i + n..] == a + (b[..i] + v + b[i + n..])
  {
    assert (a + b)[..|a| + i] == a + b[..i];
    assert (a + b)[|a| + i + n..] == b[i + n..];
  }

  /** With nothing found in the prefix, the first occurrence is the suffix's, shifted. */
  lemma IndexOfAfterPrefix(a: string, b: string, p: string)
    requires forall j :: 0 <= j < |a| ==> !OccursAt(a + b, p, j)
    ensures IndexOf(a + b, p) == (if IndexOf(b, p).Some? then Some(|a| + IndexOf(b, p).value) else None)
  {
    var s := a + b;
    if IndexOf(b, p).Some? {
      var i := IndexOf(b, p).value;
      ShiftOccurs(a, b, p, i);
      forall j | 0 <= j < |a| + i ensures !OccursAt(s, p, j) {
        if j >= |a| {
          ShiftOccurs(a, b, p, j - |a|);
        }
      }
      IndexOfIs(s, p, |a| + i);
    } else {
      forall j | 0 <= j <= |s| ensures !OccursAt(s, p, j) {
        if j >= |a| {
          ShiftOccurs(a, b, p, j - |a|);
        }
      }
      IndexOfNone(s, p);
    }
  }

  lemma ReplaceFirstAt(s: string, p: string, v: string, i: nat)
    requires IndexOf(s, p) == Some(i)
    ensures i + |p| <= |s| && ReplaceFirst(s, p, v) == s[..i] + v + s[i + |p|..]
  {
  }

  lemma ReplaceFirstNone(s: string, p: string, v: string)
    requires IndexOf(s, p) == None
    ensures ReplaceFirst(s, p, v) == s
  {
  }

  /** Text before the first occurrence can be set aside. */
  lemma ReplaceAfterPrefix(a: string, b: string, p: string, v: string)
    requires forall j :: 0 <= j < |a| ==> !OccursAt(a + b, p, j)
    ensures ReplaceFirst(a + b, p, v) == a + ReplaceFirst(b, p, v)
  {
    IndexOfAfterPrefix(a, b, p);
    match IndexOf(b, p)
    case None =>
      ReplaceFirstNone(b, p, v);
      ReplaceFirstNone(a + b, p, v);
    case Some(i) =>
      ReplaceFirstAt(b, p, v, i);
      ReplaceFirstAt(a + b, p, v, |a| + i);
      SpliceShift(a, b, i, |p|, v);
  }

  /** A pattern at the very start is what gets replaced. */
  lemma ReplaceAtStart(s: string, p: string, v: string)
    requires |p| <= |s| && s[..|p|] == p
    ensures ReplaceFirst(s, p, v) == v + s[|p|..]
  {
    assert OccursAt(s, p, 0);
    IndexOfIs(s, p, 0);
    ReplaceFirstAt(s, p, v, 0);
  }

  /** Two different brace-free names: neither placeholder text occurs at the start of the other's. */
  lemma PlaceholderMismatch(j: string, k: string, rest: string)
    requires NoBrace(j) && NoBrace(k) && j != k
    ensures !OccursAt(Placeholder(j) + rest, Placeholder(k), 0)
  {
    var s := Placeholder(j) + rest;
    var p := Placeholder(k);
    if |p| <= |s| {
      if |k| < |j| {
        assert s[..|p|][|k| + 1] == j[|k|] != p[|k| + 1];
      } else if |k| > |j| {
        assert s[..|p|][|j| + 1] == '}' != k[|j|] == p[|j| + 1];
      } else {
        assert s[..|p|][1..|j| + 1] == j;
        assert p[1..|k| + 1] == k;
      }
    }
  }

  /** A pattern cannot occur where the text differs from its first character. */
  lemma FirstCharMismatch(s: string, p: string, j: int)
    requires 0 <= j < |s| && |p| > 0 && s[j] != p[0]
    ensures !OccursAt(s, p, j)
  {
    if j + |p| <= |s| {
      assert s[j..j + |p|][0] == s[j];
    }
  }

  lemma {:induction false} RenderCons(p: Piece, ps: seq<Piece>)
    ensures Render([p] + ps) == RenderPiece(p) + Render(ps)
  {
    assert ([p] + ps)[0] == p && ([p] + ps)[1..] == ps;
  }

  /**
   * One `replace('{k}', v)` on a well-formed template's text is the template
   * with its first placeholder `k` turned into the text `v`.
   */
  lemma {:induction false} ReplaceFillsFirst(ps: seq<Piece>, k: string, v: string)
    requires WellFormed(ps) && NoBrace(k)
    ensures ReplaceFirst(Render(ps), Placeholder(k), v) == Render(FillFirst(ps, k, v))
  {
    var p := Placeholder(k);
    if ps == [] {
      assert !OccursAt([], p, 0);
      assert IndexOf([], p).None?;
    } else {
      var head := RenderPiece(ps[0]);
      var tail := Render(ps[1..]);
      assert WellFormed(ps[1..]) by {
        forall i | 0 <= i < |ps[1..]| ensures ps[1..][i] == ps[i + 1] { }
      }
      if ps[0] == Slot(k) {
        ReplaceAtStart(head + tail, p, v);
        assert (head + tail)[..|p|] == p;
        assert (head + tail)[|p|..] == tail;
        RenderCons(Text(v), ps[1..]);
      } else {
        forall j | 0 <= j < |head| ensures !OccursAt(head + tail, p, j) {
          match ps[0]
          case Text(t) =>
            assert (head + tail)[j] == t[j];
            FirstCharMismatch(head + tail, p, j);
          case Slot(id) =>
            if j == 0 {
              PlaceholderMismatch(id, k, tail);
            } else {
              assert (head + tail)[j] == head[j] == (if j <= |id| then id[j - 1] else '}');
              FirstCharMismatch(head + tail, p, j);
            }
        }
        ReplaceAfterPrefix(head, tail, p, v);
        ReplaceFillsFirst(ps[1..], k, v);
        RenderCons(ps[0], FillFirst(ps[1..], k, v));
      }
    }
  }

  /** With at most one placeholder `k`, filling the first one is substituting it everywhere. */
  lemma {:induction false} FillFirstOfUnique(ps: seq<Piece>, k: string, v: string)
    requires SlotCount(ps, k) <= 1
    ensures FillFirst(ps, k, v) == Subst(ps, [(k, v)])
  {
    if ps != [] {
      var e := [(k, v)];
      assert Subst(ps, e) == [SubstPiece(ps[0], e)] + Subst(ps[1..], e);
      if ps[0] == Slot(k) {
        NoSlotSubst(ps[1..], k, v);
      } else {
        FillFirstOfUnique(ps[1..], k, v);
        if ps[0].Slot? {
          assert ps[0].id != k && e[1..] == [];
          assert Lookup(e, ps[0].id) == None;
        }
      }
    }
  }

  lemma {:induction false} NoSlotSubst(ps: seq<Piece>, k: string, v: string)
    requires SlotCount(ps, k) == 0
    ensures Subst(ps, [(k, v)]) == ps
  {
    if ps != [] {
      var e := [(k, v)];
      NoSlotSubst(ps[1..], k, v);
      assert Subst(ps, e) == [SubstPiece(ps[0], e)] + Subst(ps[1..], e);
      if ps[0].Slot? {
        assert ps[0].id != k && e[1..] == [];
        assert Lookup(e, ps[0].id) == None;
      }
      assert ps == [ps[0]] + ps[1..];
    }
  }

  lemma {:induction false} SlotCountOfSubst(ps: seq<Piece>, env: seq<(string, string)>, id: string)
    ensures SlotCount(Subst(ps, env), id) <= SlotCount(ps, id)
  {
    if ps != [] {
      SlotCountOfSubst(ps[1..], env, id);
      assert Subst(ps, env)[1..] == Subst(ps[1..], env);
    }
  }

  lemma WellFormedSubst(ps: seq<Piece>, env: seq<(string, string)>)
    requires WellFormed(ps)
    requires forall i :: 0 <= i < |env| ==> NoOpenBrace(env[i].1)
    ensures WellFormed(Subst(ps, env))
  {
    forall i | 0 <= i < |ps| ensures PieceOk(Subst(ps, env)[i]) {
      if ps[i].Slot? {
        LookupIn(env, ps[i].id);
        if Lookup(env, ps[i].id).Some? {
          var m :| 0 <= m < |env| && env[m] == (ps[i].id, Lookup(env, ps[i].id).value);
          assert NoOpenBrace(env[m].1);
        }
      }
    }
  }

  lemma {:induction false} LookupIn(env: seq<(string, string)>, id: string)
    ensures Lookup(env, id).Some? ==> exists i :: 0 <= i < |env| && env[i] == (id, Lookup(env, id).value)
    decreases |env|
  {
    if env != [] && env[0].0 != id {
      LookupIn(env[1..], id);
      if Lookup(env, id).Some? {
        var i :| 0 <= i < |env[1..]| && env[1..][i] == (id, Lookup(env, id).value);
        assert env[i + 1] == env[1..][i];
      }
    } else if env != [] {
      assert env[0] == (id, Lookup(env, id).value);
    }
  }

  /** Substituting one binding and then the rest is substituting the whole environment. */
  lemma SubstCons(ps: seq<Piece>, k: string, v: string, env: seq<(string, string)>)
    ensures Subst(Subst(ps, [(k, v)]), env) == Subst(ps, [(k, v)] + env)
  {
    var e := [(k, v)] + env;
    forall i | 0 <= i < |ps| ensures SubstPiece(SubstPiece(ps[i], [(k, v)]), env) == SubstPiece(ps[i], e) {
      if ps[i].Slot? {
        assert e[1..] == env && [(k, v)][1..] == [];
        if ps[i].id != k {
          assert Lookup([(k, v)], ps[i].id) == None;
          assert Lookup(e, ps[i].id) == Lookup(env, ps[i].id);
        }
      }
    }
  }

  /**
   * Filling answers one `replace` at a time, in order, as the application
   * does: the result of folding `ReplaceFirst` over the bindings.
   */
  function ReplaceEach(msg: string, env: seq<(string, string)>): string
    decreases |env|
  {
    if env == [] then msg
    else ReplaceEach(ReplaceFirst(msg, Placeholder(env[0].0), env[0].1), env[1..])
  }

  function SlotsUnique(ps: seq<Piece>): bool {
    forall i, j :: 0 <= i < j < |ps| && ps[i].Slot? ==> ps[i] != ps[j]
  }

  lemma {:induction false} UniqueCount(ps: seq<Piece>, k: string)
    requires SlotsUnique(ps)
    ensures SlotCount(ps, k) <= 1
  {
    if ps != [] {
      assert SlotsUnique(ps[1..]) by {
        forall i, j | 0 <= i < j < |ps[1..]| && ps[1..][i].Slot? ensures ps[1..][i] != ps[1..][j] {
          assert ps[1..][i] == ps[i + 1] && ps[1..][j] == ps[j + 1];
        }
      }
      UniqueCount(ps[1..], k);
      if ps[0] == Slot(k) {
        ZeroCount(ps[1..], k, ps);
      }
    }
  }

  lemma {:induction false} ZeroCount(tail: seq<Piece>, k: string, ps: seq<Piece>)
    requires |ps| >= 1 && ps[0] == Slot(k) && ps[1..] == tail && SlotsUnique(ps)
    ensures SlotCount(tail, k) == 0
  {
    if tail != [] {
      assert ps[1] == tail[0];
      var ps' := [ps[0]] + tail[1..];
      assert SlotsUnique(ps') by {
        forall i, j | 0 <= i < j < |ps'| && ps'[i].Slot? ensures ps'[i] != ps'[j] {
          var i0 := if i == 0 then 0 else i + 1;
          assert ps'[i] == ps[i0] && ps'[j] == ps[j + 1];
        }
      }
      ZeroCount(tail[1..], k, ps');
    }
  }

  lemma SlotsUniqueSubst(ps: seq<Piece>, env: seq<(string, string)>)
    requires SlotsUnique(ps)
    ensures SlotsUnique(Subst(ps, env))
  {
  }

  /**
   * The fold of `replace` calls over the bindings gives the template with
   * every bound placeholder replaced by its value, provided the template is
   * well formed, names each placeholder once, and no value holds an opening
   * brace that a later `replace` could mistake for a placeholder.
   */
  lemma {:induction false} ReplaceEachIsSubst(ps: seq<Piece>, env: seq<(string, string)>)
    requires WellFormed(ps) && SlotsUnique(ps)
    requires forall i :: 0 <= i < |env| ==> NoBrace(env[i].0) && NoOpenBrace(env[i].1)
    ensures ReplaceEach(Render(ps), env) == Render(Subst(ps, env))
    decreases |env|
  {
    if env == [] {
      assert Subst(ps, env) == ps;
    } else {
      var k := env[0].0;
      var v := env[0].1;
      ReplaceFillsFirst(ps, k, v);
      UniqueCount(ps, k);
      FillFirstOfUnique(ps, k, v);
      var ps1 := Subst(ps, [(k, v)]);
      WellFormedSubst(ps, [(k, v)]);
      SlotsUniqueSubst(ps, [(k, v)]);
      ReplaceEachIsSubst(ps1, env[1..]);
      SubstCons(ps, k, v, env[1..]);
      assert [(k, v)] + env[1..] == env;
    }
  }
}

=== FILE: types.dfy ===
/**
 * The application's shared data shapes: languages and bilingual text, the
 * form-field descriptions a welfare scheme is built from, the compressed
 * image payload, and the answers a form collects. Form answers keep
 * JavaScript object semantics for keys that are not array indices: keys in
 * insertion order, assigning an existing key keeps its place, a new key
 * goes to the end. Integer-like keys, which JavaScript lists first in
 * ascending order, are not modelled.
 */
module Types {
  import opened Wrappers
  import Template

  /** `'en' | 'kn'`. */
  datatype Language = En | Kn

  datatype BilingualText = BilingualText(en: string, kn: string)

  /** The text of `b` in language `lang`. */
  function Pick(b: BilingualText, lang: Language): string {
    match lang
    case En => b.en
    case Kn => b.kn
  }

  datatype FieldType = TextField | NumberField | SelectField | RadioField | CheckboxField | TextareaField | ImageField

  datatype FieldOption = FieldOption(value: string, caption: BilingualText)

  /**
   * The length limits of a field. JavaScript treats a limit of 0 and an
   * absent limit alike (both are falsy), so 0 stands for "no limit".
   */
  datatype Validation = Validation(minLength: nat, maxLength: nat)

  /** One input of a scheme form; its label and placeholder are presentation only. */
  datatype FormField = FormField(
    id: string,
    kind: FieldType,
    required: bool,
    options: seq<FieldOption>,
    validation: Option<Validation>)

  /** A scheme: its id, its form and its message template. */
  datatype Scheme = Scheme(id: string, fields: seq<FormField>, template: seq<Template.Piece>)

  /** `DocumentUpload`: the payload an image field holds after compression. */
  datatype CompressedImage = CompressedImage(base64: string, originalSize: nat, compressedSize: int, mimeType: string)

  /** `string | boolean | DocumentUpload | null`. */
  datatype FieldValue = Str(s: string) | Bool(b: bool) | Upload(image: CompressedImage) | Null

  /** A form's answers, in key insertion order (keys that are not array indices). */
  type FormData = seq<(string, FieldValue)>

  predicate KeysUnique<V>(m: seq<(string, V)>) {
    forall i, j :: 0 <= i < j < |m| ==> m[i].0 != m[j].0
  }

  function Keys<V>(m: seq<(string, V)>): (r: seq<string>)
    ensures |r| == |m|
    ensures forall i :: 0 <= i < |m| ==> r[i] == m[i].0
  {
    seq(|m|, i requires 0 <= i < |m| => m[i].0)
  }

  /** `m[key]`, or `None` for `undefined`. */
  function Get<V>(m: seq<(string, V)>, key: string): Option<V> {
    if m == [] then None
    else if m[0].0 == key then Some(m[0].1)
    else Get(m[1..], key)
  }

  /** `m[key] = v` on a plain object. */
  function Put<V>(m: seq<(string, V)>, key: string, v: V): (r: seq<(string, V)>)
    ensures |r| == |m| || |r| == |m| + 1
  {
    if m == [] then [(key, v)]
    else if m[0].0 == key then [(key, v)] + m[1..]
    else [m[0]] + Put(m[1..], key, v)
  }

  lemma {:induction false} GetPut<V>(m: seq<(string, V)>, key: string, v: V, other: string)
    ensures Get(Put(m, key, v), key) == Some(v)
    ensures other != key ==> Get(Put(m, key, v), other) == Get(m, other)
  {
    if m != [] && m[0].0 != key {
      GetPut(m[1..], key, v, other);
    }
  }

  lemma KeysCons<V>(p: (string, V), rest: seq<(string, V)>)
    ensures Keys([p] + rest) == [p.0] + Keys(rest)
  {
  }

  /** Assigning keeps every key where it was and appends a new one at the end. */
  lemma {:induction false} KeysPut<V>(m: seq<(string, V)>, key: string, v: V)
    ensures Keys(Put(m, key, v)) == (if key in Keys(m) then Keys(m) else Keys(m) + [key])
  {
    if m != [] {
      var rest := m[1..];
      assert m == [m[0]] + rest;
      KeysCons(m[0], rest);
      if m[0].0 == key {
        KeysCons((key, v), rest);
        assert Keys(m)[0] == key;
      } else {
        KeysPut(rest, key, v);
        KeysCons(m[0], Put(rest, key, v));
        assert key in Keys(m) <==> key in Keys(rest);
      }
    }
  }

  lemma KeysUniquePut<V>(m: seq<(string, V)>, key: string, v: V)
    requires KeysUnique(m)
    ensures KeysUnique(Put(m, key, v))
  {
    KeysPut(m, key, v);
    var r := Put(m, key, v);
    forall i, j | 0 <= i < j < |r| ensures r[i].0 != r[j].0 {
      assert Keys(r)[i] == r[i].0 && Keys(r)[j] == r[j].0;
      if key !in Keys(m) && j == |m| {
        assert Keys(r)[i] == Keys(m)[i];
      } else {
        assert Keys(r)[i] == Keys(m)[i] && Keys(r)[j] == Keys(m)[j];
      }
    }
  }

  lemma {:induction false} GetIn<V>(m: seq<(string, V)>, key: string)
    ensures Get(m, key).Some? <==> key in Keys(m)
  {
    if m != [] {
      GetIn(m[1..], key);
      assert Keys(m) == [m[0].0] + Keys(m[1..]);
    }
  }

  /** Looking a key up in two maps laid end to end: the first one wins. */
  lemma {:induction false} GetConcat<V>(a: seq<(string, V)>, b: seq<(string, V)>, key: string)
    ensures Get(a + b, key) == if Get(a, key).Some? then Get(a, key) else Get(b, key)
  {
    if a != [] {
      assert (a + b)[1..] == a[1..] + b;
      GetConcat(a[1..], b, key);
    } else {
      assert a + b == b;
    }
  }
}

=== FILE: whatsapp.dfy ===
/**
 * The WhatsApp hand-off of a scheme application: the scheme's message
 * template is filled from the answers, one `replace` per answer in the
 * answers' key order, and the message is opened in a `wa.me` link. The
 * browser window is a small object that records what was opened; the URL
 * encoder is a parameter.
 */
module WhatsApp {
  import opened Wrappers
  import opened JsText
  import opened Types
  import opened Template
  import Schemes

  const YesText := "ಹೌದು/Yes"
  const NoText := "ಇಲ್ಲ/No"

  /** `fields.find((f) => f.id === key)`. */
  function FindField(fields: seq<FormField>, key: string): (r: Option<FormField>)
    ensures r.Some? ==> r.value in fields && r.value.id == key
    ensures r.None? <==> forall i :: 0 <= i < |fields| ==> fields[i].id != key
  {
    if fields == [] then None
    else if fields[0].id == key then Some(fields[0])
    else FindField(fields[1..], key)
  }

  /** `options.find((o) => o.value === value)`. */
  function FindOption(options: seq<FieldOption>, value: string): (r: Option<FieldOption>)
    ensures r.Some? ==> r.value in options && r.value.value == value
    ensures r.None? <==> forall i :: 0 <= i < |options| ==> options[i].value != value
  {
    if options == [] then None
    else if options[0].value == value then Some(options[0])
    else FindOption(options[1..], value)
  }

  /** `String(value)` for the values a form holds. */
  function StringOf(v: FieldValue): string {
    match v
    case Str(s) => s
    case Bool(b) => if b then "true" else "false"
    case Upload(_) => "[object Object]"
    case Null => "null"
  }

  /**
   * The option an answer picks: one of the options of the field named
   * `key` whose value is the answer's text. Only a text answer can equal
   * an option's value.
   */
  function ChosenOption(fields: seq<FormField>, key: string, v: FieldValue): (r: Option<FieldOption>)
    ensures r.Some? ==> v.Str? && r.value.value == v.s
    ensures r.Some? ==> exists i :: 0 <= i < |fields| && fields[i].id == key && r.value in fields[i].options
    ensures v.Str? && (forall i :: 0 <= i < |fields| ==> fields[i].id != key) ==> r.None?
  {
    match FindField(fields, key)
    case None => None
    case Some(f) => if v.Str? then FindOption(f.options, v.s) else None
  }

  /** How an answer is written into the message. */
  function DisplayValue(fields: seq<FormField>, key: string, v: FieldValue): (shown: string)
    ensures v.Bool? ==> shown == (if v.b then YesText else NoText)
    ensures v.Str? && (forall i :: 0 <= i < |fields| ==> fields[i].id != key) ==> shown == v.s
    ensures !v.Bool? && ChosenOption(fields, key, v).None? ==> shown == StringOf(v)
    ensures ChosenOption(fields, key, v).Some? ==>
      var o := ChosenOption(fields, key, v).value; shown == o.caption.kn + " / " + o.caption.en
  {
    if v.Bool? then (if v.b then YesText else NoText)
    else
      var option := ChosenOption(fields, key, v);
      if option.Some? then option.value.caption.kn + " / " + option.value.caption.en else StringOf(v)
  }

  /** The replacements made, in the answers' key order: each key with its displayed value. */
  function Bindings(fields: seq<FormField>, data: FormData): (env: seq<(string, string)>)
    ensures |env| == |data|
    ensures forall i :: 0 <= i < |data| ==> env[i] == (data[i].0, DisplayValue(fields, data[i].0, data[i].1))
  {
    seq(|data|, i requires 0 <= i < |data| => (data[i].0, DisplayValue(fields, data[i].0, data[i].1)))
  }

  /** The binding of a key is the displayed value of that key's answer; a key with no answer has none. */
  lemma {:induction false} LookupBindings(fields: seq<FormField>, data: FormData, key: string)
    ensures Lookup(Bindings(fields, data), key) ==
      (if Get(data, key).Some? then Some(DisplayValue(fields, key, Get(data, key).value)) else None)
  {
    if data != [] {
      LookupBindings(fields, data[1..], key);
      assert Bindings(fields, data)[1..] == Bindings(fields, data[1..]);
    }
  }

  /**
   * `generateWhatsAppMessage`: starting from the template's text, each
   * answer in turn replaces the first `{key}` still present.
   */
  method GenerateWhatsAppMessage(scheme: Scheme, formData: FormData) returns (message: string)
    ensures message == ReplaceEach(Render(scheme.template), Bindings(scheme.fields, formData))
  {
    ghost var env := Bindings(scheme.fields, formData);
    message := Render(scheme.template);
    var i := 0;
    while i < |formData|
      invariant 0 <= i <= |formData|
      invariant ReplaceEach(message, env[i..]) == ReplaceEach(Render(scheme.template), env)
    {
      var (key, value) := formData[i];
      var placeholder := "{" + key + "}";
      var displayValue := DisplayValue(scheme.fields, key, value);
      assert env[i..][1..] == env[i + 1..];
      message := ReplaceFirst(message, placeholder, displayValue);
      i := i + 1;
    }
  }

  /** Each `replace` fills only the first of the placeholders with its key. */
  lemma {:induction false} FillFirstCount(ps: seq<Piece>, k: string, v: string)
    ensures SlotCount(FillFirst(ps, k, v), k) == if SlotCount(ps, k) == 0 then 0 else SlotCount(ps, k) - 1
    ensures SlotCount(ps, k) == 0 ==> FillFirst(ps, k, v) == ps
  {
    if ps != [] && ps[0] != Slot(k) {
      FillFirstCount(ps[1..], k, v);
      var r := FillFirst(ps, k, v);
      assert r[0] == ps[0] && r[1..] == FillFirst(ps[1..], k, v);
      if SlotCount(ps, k) == 0 {
        assert ps == [ps[0]] + ps[1..];
      }
    } else if ps != [] {
      var r := FillFirst(ps, k, v);
      assert r[0] == Text(v) && r[1..] == ps[1..];
    }
  }

  /** A template naming a key twice keeps its second placeholder after that key's `replace`. */
  lemma ReplaceOnlyFirst(ps: seq<Piece>, k: string, v: string)
    requires WellFormed(ps) && NoBrace(k) && SlotCount(ps, k) >= 2
    ensures ReplaceFirst(Render(ps), Placeholder(k), v) == Render(FillFirst(ps, k, v))
    ensures SlotCount(FillFirst(ps, k, v), k) == SlotCount(ps, k) - 1 >= 1
  {
    ReplaceFillsFirst(ps, k, v);
    FillFirstCount(ps, k, v);
  }

  /** What a piece of the template becomes: an answered placeholder turns into the displayed answer. */
  function Filled(fields: seq<FormField>, formData: FormData, p: Piece): Piece {
    match p
    case Text(_) => p
    case Slot(id) =>
      match Get(formData, id)
      case Some(v) => Text(DisplayValue(fields, id, v))
      case None => p
  }

  /**
   * For a template that names each placeholder once, and keys and values
   * that hold no braces, the replacements fill every answered placeholder
   * with the displayed answer and leave the others as `{id}`.
   */
  lemma MessageFillsAnswered(scheme: Scheme, formData: FormData)
    requires WellFormed(scheme.template) && SlotsUnique(scheme.template)
    requires forall i :: 0 <= i < |formData| ==> NoBrace(formData[i].0)
    requires forall i :: 0 <= i < |formData| ==> NoOpenBrace(DisplayValue(scheme.fields, formData[i].0, formData[i].1))
    ensures ReplaceEach(Render(scheme.template), Bindings(scheme.fields, formData))
      == Render(Subst(scheme.template, Bindings(scheme.fields, formData)))
    ensures forall i :: 0 <= i < |scheme.template| ==>
      Subst(scheme.template, Bindings(scheme.fields, formData))[i] == Filled(scheme.fields, formData, scheme.template[i])
  {
    var env := Bindings(scheme.fields, formData);
    ReplaceEachIsSubst(scheme.template, env);
    forall i | 0 <= i < |scheme.template|
      ensures Subst(scheme.template, env)[i] == Filled(scheme.fields, formData, scheme.template[i])
    {
      var p := scheme.template[i];
      if p.Slot? {
        LookupBindings(scheme.fields, formData, p.id);
      }
    }
  }

  /** Every scheme of the catalogue meets the template conditions of `MessageFillsAnswered`. */
  lemma CatalogueTemplatesFill(i: nat, formData: FormData)
    requires i < |Schemes.Catalogue|
    requires forall j :: 0 <= j < |formData| ==> NoBrace(formData[j].0)
    requires forall j :: 0 <= j < |formData| ==>
      NoOpenBrace(DisplayValue(Schemes.Catalogue[i].fields, formData[j].0, formData[j].1))
    ensures var s := Schemes.Catalogue[i];
      ReplaceEach(Render(s.template), Bindings(s.fields, formData)) == Render(Subst(s.template, Bindings(s.fields, formData)))
  {
    Schemes.CatalogueInvariant();
    assert Schemes.FormInvariant(Schemes.Catalogue[i]);
    MessageFillsAnswered(Schemes.Catalogue[i], formData);
  }

  // ---------------------------------------------------------------------------
  // The link

  const WaBase := "https://wa.me/"
  const TextParam := "?text="

  /** `openWhatsApp`'s URL: the number goes into the path only when it is given and non-empty. */
  function WhatsAppUrl(message: string, number: Option<string>, encode: string -> string): string {
    if number.Some? && number.value != "" then WaBase + number.value + TextParam + encode(message)
    else WaBase + TextParam + encode(message)
  }

  /** Reads a `wa.me` link back into its number (empty when none) and its encoded text. */
  function SplitUrl(url: string): Option<(string, string)> {
    if !StartsWith(url, WaBase) then None
    else
      var rest := url[|WaBase|..];
      match IndexOf(rest, TextParam)
      case None => None
      case Some(i) => Some((rest[..i], rest[i + |TextParam|..]))
  }

  /** In a number without `?` followed by `?text=`, the first `?text=` is the one after the number. */
  lemma FirstQuery(n: string, e: string)
    requires forall i :: 0 <= i < |n| ==> n[i] != '?'
    ensures IndexOf(n + TextParam + e, TextParam) == Some(|n|)
  {
    var rest := n + TextParam + e;
    forall j | 0 <= j < |n| ensures !OccursAt(rest, TextParam, j) {
      assert rest[j] == n[j];
      FirstCharMismatch(rest, TextParam, j);
    }
    assert rest[|n|..|n| + |TextParam|] == TextParam;
    IndexOfIs(rest, TextParam, |n|);
  }

  lemma SplitUrlOf(n: string, e: string)
    requires forall i :: 0 <= i < |n| ==> n[i] != '?'
    ensures SplitUrl(WaBase + (n + TextParam + e)) == Some((n, e))
  {
    var rest := n + TextParam + e;
    var url := WaBase + rest;
    assert url[..|WaBase|] == WaBase && url[|WaBase|..] == rest;
    FirstQuery(n, e);
    assert rest[..|n|] == n && rest[|n| + |TextParam|..] == e;
  }

  /** A number without `?` and the encoded message are read back from the link unchanged. */
  lemma UrlRoundTrip(message: string, number: Option<string>, encode: string -> string)
    requires number.Some? ==> forall i :: 0 <= i < |number.value| ==> number.value[i] != '?'
    ensures SplitUrl(WhatsAppUrl(message, number, encode)) == Some((MessageOr(number, ""), encode(message)))
  {
    var n := MessageOr(number, "");
    assert WhatsAppUrl(message, number, encode) == WaBase + (n + TextParam + encode(message));
    SplitUrlOf(n, encode(message));
  }

  /** The browser window; `open` is recorded with its target. */
  class Window {
    var tabs: seq<(string, string)>

    constructor()
      ensures tabs == []
    {
      tabs := [];
    }

    method Open(url: string, target: string)
      modifies this
      ensures tabs == old(tabs) + [(url, target)]
    {
      tabs := tabs + [(url, target)];
    }
  }

  /** `openWhatsApp`: one new tab on the link. */
  method OpenWhatsApp(window: Window, message: string, number: Option<string>, encode: string -> string)
    modifies window
    ensures window.tabs == old(window.tabs) + [(WhatsAppUrl(message, number, encode), "_blank")]
  {
    var encodedMessage := encode(message);
    var whatsappUrl := if number.Some? && number.value != "" then WaBase + number.value + TextParam + encodedMessage
      else WaBase + TextParam + encodedMessage;
    window.Open(whatsappUrl, "_blank");
  }

  /** `sendToWhatsApp`: the generated message, opened. */
  method SendToWhatsApp(window: Window, scheme: Scheme, formData: FormData, number: Option<string>, encode: string -> string)
    modifies window
    ensures window.tabs == old(window.tabs) +
      [(WhatsAppUrl(ReplaceEach(Render(scheme.template), Bindings(scheme.fields, formData)), number, encode), "_blank")]
  {
    var message := GenerateWhatsAppMessage(scheme, formData);
    OpenWhatsApp(window, message, number, encode);
  }
}

=== FILE: wrappers.dfy ===
/** Option values and the shape of an answer from the hosted data store. */
module Wrappers {

  /** A value that may be absent: JavaScript's `undefined`/`null` next to a present value. */
  datatype Option<+T> = None | Some(value: T) {
    function GetOr(default: T): T {
      match this
      case Some(v) => v
      case None => default
    }
  }

  /**
   * What one awaited call into the data store comes back with: no error, an
   * error object carrying a message, or an exception thrown past the client.
   * The store itself is not modelled; each call site receives its answer as a
   * parameter.
   */
  datatype Reply = Ok | Failed(message: string) | Threw

  /** The `{ success, error?, id? }` objects the store helpers return. */
  datatype Outcome = Outcome(success: bool, error: Option<string>, id: Option<string>)

  /** `message || fallback`: an absent or empty message gives way to the fallback. */
  function MessageOr(message: Option<string>, fallback: string): (shown: string)
    ensures message.Some? && message.value != "" ==> shown == message.value
    ensures message.None? || message.value == "" ==> shown == fallback
  {
    if message.Some? && message.value != "" then message.value else fallback
  }
}
